=== FILE: README.md ===
# AutoName naming engine, undo ledger and name store in Dafny

AutoName renames, copies or moves the image files of a folder according to
one of three strategies, and lets the user undo the last batch:

- **direct-append** turns `photo.JPG` into `photo by Author.jpg`;
- **folder-name** numbers the files `{folder} by Author 1.jpg`, `… 2.jpg`, …;
- **character-match** names each file after the first name from a list of
  character names that occurs in it, as in `Alice by Author 1.png`. When no
  name matches, it asks the user for a new name.

Every strategy looks for a free name with a collision loop. It records what
it did as `(new, original)` pairs and pushes the batch on an undo stack.

The window keeps two name lists, authors and character names, backed by a
JSON data file. Deleting a name pushes a deletion entry on the same undo
stack. "Undo" expects a batch on top of that stack; "Undo Delete" expects a
deletion.

The repository also holds an earlier engine, `file_operations.py` at the top
level. It renames only, has no undo, and its character-match walks
sub-folders. That engine and its name store are modelled too.

Modules, in dependency order:

| file | module | what it holds |
|---|---|---|
| wrappers.dfy | Wrappers | `Option` |
| text.dfy | Text | Python's `lower`, `in` on strings, `str(n)`, `os.path.splitext`, `rsplit('.', 1)`, `strip`, `split` |
| order.dfy | Order | Python's string order, `sorted`, sorted listings of a set |
| filesystem.dfy | FileSystem | files as a map from paths to contents; rename/move, copy, remove; sorted directory listing |
| collision.dfy | Collision | the `while os.path.exists(new_file)` loops |
| operations.dfy | Operations | one rename/copy/move with its undo record, and the reverse replay of a batch |
| ledger.dfy | Ledger | the undo stack, the Undo button state, `undo_last_action` |
| engine.dfy | Engine | the three strategies of src/file_operations.py and `prompt_author_choice` |
| legacy.dfy | Legacy | the three strategies of the earlier file_operations.py |
| store.dfy | Store | add/delete of authors and character names in the data record |
| gui.dfy | Gui | the window's add/delete of names and `undo_last_deletion` |

Environment facts are parameters:

- Which file operations raise (a locked file, no permission) is the set
  `faulty` of paths.
- The user's answers to dialogs are arguments: `ask` for the character-name
  prompt, `choice` and `word` for the author prompt.
- In the earlier character-match, the order in which the walk reaches the
  sub-folders is the argument `subdirs`.

## Model

| member | source | states |
|---|---|---|
| FileSystem.Listing | src/file_operations.py:18-21 | the files of a folder are taken once each, in ascending string order, and exactly the files directly in the folder |
| FileSystem.MoveFile | src/file_operations.py:68-79 | rename/move gives the destination the source's content, removes the source, replaces an existing destination, and touches nothing else |
| FileSystem.MoveBack | src/gui.py:387-398 | moving a file to a free path and back restores the filesystem |
| FileSystem.CopyBack | src/gui.py:391-394 | copying a file to a free path and removing the copy restores the filesystem |
| Collision.Resolve | src/file_operations.py:56-64 | the collision loop ends, and stops at the least attempt from the first one whose path is free |
| Collision.Target | src/file_operations.py:56-64 | the chosen target is free and lies in the target directory |
| Collision.BareFirst | src/file_operations.py:47-64 | the unnumbered name when free, otherwise `{stem} {n}{ext}` for the least free n >= 1 |
| Collision.SecondCollision | src/file_operations.py:56-64 | with `X by A.jpg` and `X by A 1.jpg` taken, the loop settles on `X by A 2.jpg` |
| Collision.NumberedInjective | src/file_operations.py:58-64 | different counters give different names, so no name is tried twice |
| Operations.Perform | src/file_operations.py:66-87 | a known mode raises exactly when the source is missing or faulty; success records `(new, original)`, or `(new, None)` for Copy; a fresh target can be undone exactly |
| Operations.UndoRecord | src/gui.py:385-403 | Rename/Move put the file back when there is an original and the new file exists; Copy removes the copy; an unknown mode changes nothing; only an existing faulty file raises |
| Operations.UndoOps | src/gui.py:383-404 | at most one error per record, each the new path of a record whose undo raised on a faulty file; the unknown mode changes nothing |
| Operations.UndoFirstLast | src/gui.py:385-403 | the first record of a batch is undone last, on the files the rest of the batch left, and its error comes last |
| Operations.UndoOpsAppend | src/gui.py:385-403 | undoing `a + b` is undoing `b`, then `a`; the failed targets are those of `b`, then those of `a` |
| Operations.ReverseOrderMatters | src/gui.py:385 | the reverse replay restores a batch in which a file moved into a slot freed earlier; a forward replay loses a file |
| Ledger.UpdateUndoButtonState | src/gui.py:347-351 | the Undo button is enabled exactly when the stack is non-empty |
| Ledger.CompleteBatch | src/file_operations.py:93-96 | a batch is pushed, and the button enabled, exactly when it recorded something |
| Ledger.UndoLastAction | src/gui.py:378-411 | empty stack: nothing changes; a batch on top is popped and replayed, and errors are reported together; a deletion entry on top with a non-empty name is popped and raises, leaving files and button unchanged |
| Ledger.UndoPopsLastBatch | src/gui.py:380-385 | Undo right after a batch pops exactly that batch and replays it on the current files |
| Engine.TargetDir | src/file_operations.py:50-54 | the destination folder when the mode is Copy or Move and a non-empty destination was given, otherwise the source folder |
| Engine.TryOne | src/file_operations.py:66-91 | success exactly when the mode is known and the file is present and not faulty; records the resolved target; a failure adds one error event; the new records can be undone to the previous files |
| Engine.Attempt | src/file_operations.py:66-91 | one file: a success adds one record and one update, a failure one error event and no record, the unknown mode neither; success exactly when the mode is known and the file is present and not faulty, and then the file is moved or copied to the resolved name of its pattern in the target directory, which is what the record says; no other file of the folder goes away; the records still undo to the files before |
| Engine.AttemptBare | src/file_operations.py:56-79 | a present, non-failing file whose unnumbered name is free is renamed or moved to exactly that name, and the record is `(new, original)` |
| Engine.AppendPattern | src/file_operations.py:33-48 | a file is skipped exactly when its stem contains `by {author}` ignoring case; otherwise the names are `{stem} by {author}{ext}`, then `… {n}{ext}` |
| Engine.AppendMarked | src/file_operations.py:37-48 | every name direct-append produces carries the marker, so a second run skips the renamed file |
| Engine.AppendFiles | src/file_operations.py:30-91 | each file is skipped, recorded or reported once; skipped files are exactly the marked ones; updates = skipped + recorded; the records undo to the starting files |
| Engine.AppendNames | src/file_operations.py:30-91 | with every file present and none failing, one record per unmarked file, in order, keeping that file as original (none for Copy) and named `{stem} by {author}{ext}` or `{stem} by {author} {n}{ext}` in the target directory |
| Engine.AppendBare | src/file_operations.py:30-79 | renaming or moving, with the first names of the unmarked files free and distinct: each moves to its first name with its content, its old name gone, every other path as it was, and the records are exactly these moves |
| Engine.RenameImages | src/file_operations.py:13-109 | a start event with the file count, done last; the stack is unchanged or has one batch in this mode whose undo restores the files as they were |
| Engine.AppendStrategyNames | src/file_operations.py:13-96 | over a folder whose files do not fail, the batch pushed holds one record per unmarked file in sorted order, named after it with the author pattern |
| Engine.AppendStrategyBare | src/file_operations.py:13-96 | renaming or moving, with free and distinct first names: each unmarked file ends at `{stem} by {author}{ext}` with its content, every other path (marked files included) is as it was, and the batch pushed is exactly these moves, or nothing when every file is marked |
| Engine.UndoRestores | src/gui.py:378-409 | Undo right after a strategy that pushed a batch restores the files, reports success and gives back the previous stack |
| Engine.BaseName | src/file_operations.py:121 | the part of the path after the last slash: it holds no slash, ends the path, and is the whole path or follows a slash |
| Engine.FolderFiles | src/file_operations.py:133-183 | every file is recorded or reported; one update per recorded file; the records undo to the starting files |
| Engine.RenameImagesByFolderName | src/file_operations.py:116-191 | start and done events; at most one batch pushed, whose undo restores the files |
| Engine.FolderNamesDistinct | src/file_operations.py:140 | files at different positions get different first names, whatever their extensions |
| Engine.FolderNumbered | src/file_operations.py:133-183 | with every file present and none failing, one record per file in order, the k-th keeping its file as original (none for Copy) and named `{folder} by {author} {k}{ext}` or `{folder} by {author} {k}_{n}{ext}` in the target directory |
| Engine.FolderBare | src/file_operations.py:133-171 | renaming or moving, with every first name free: the k-th file moves to `{folder} by {author} {k}{ext}` with its content, its old name gone, every other path as it was, and the records are exactly these moves |
| Engine.FolderStrategyNames | src/file_operations.py:116-188 | over a folder whose files do not fail, the batch pushed holds one record per file in sorted order, numbered from 1 |
| Engine.FolderStrategyBare | src/file_operations.py:116-188 | renaming or moving, with every first name free: the k-th file in sorted order ends at `{folder} by {author} {k}{ext}` with its content, every other path is as it was, and the batch pushed is exactly these moves |
| Engine.FolderTarget | src/file_operations.py:140-156 | for a given position i (tied to the file's place in the listing by Engine.FolderNumbered), the file goes to `{folder} by {author} {i}{ext}` when free, else `… {i}_{n}{ext}` for the least free n |
| Engine.CharPattern | src/file_operations.py:222-242 | character-match names always carry a number, starting at 1 |
| Engine.FirstMatch | src/file_operations.py:219-221 | the first name in list order occurring in the file name, ignoring case, or none |
| Engine.MatchCount | src/file_operations.py:219-220 | the number of list names occurring in the file name is zero exactly when there is no first match |
| Engine.MatchWords | src/file_operations.py:219-268 | at most one record per file, made exactly when a word succeeded; when the file is missing or fails, every matching word is tried, each adding one error, and the files do not change; no update is sent here; no other file of the folder goes away |
| Engine.MatchWordsFirst | src/file_operations.py:219-268 | when the operation cannot fail, the file is handled exactly when some name matches, using the first matching name |
| Engine.AddName | src/file_operations.py:285-291 | the new name joins the list, which is then sorted; the caller's list sees it only if it was not yet rebound |
| Engine.Prompted | src/file_operations.py:270-347 | a "no" to the first dialog, an empty name or a cancelled dialog leaves the lists, the records and the files as they were and sends one update; an entered name is added first, then the file is tried with `{name}{author part} {n}{ext}`, recorded exactly when the mode is known and the file present and not faulty, with one update only then; a file present and not faulty in a known mode sends exactly one update whatever the answer; no other file of the folder goes away |
| Engine.UseEntered | src/file_operations.py:285-347 | an entered name is added to the list (which is then sorted), then the file is tried with `{name}{author part} {n}{ext}`: one record, at the resolved name of that pattern, exactly when the mode is known and the file present and not faulty; one update exactly on success; otherwise the files do not change; no other file of the folder goes away |
| Engine.CharFileMatched | src/file_operations.py:214-268 | a present, non-failing file some name matches gets exactly one record, named with the first matching name's pattern, and the name lists do not change |
| Engine.MatchWordsNone | src/file_operations.py:219-221 | when no name matches, the inner loop changes nothing and reports no success |
| Engine.CharFile | src/file_operations.py:214-347 | the user is asked only when no name worked, and a file no name matches goes straight to the prompt; a file that a name matches and that cannot fail is recorded with no prompt; a file present and not faulty in a known mode sends exactly one update; no other file of the folder goes away |
| Engine.CharFileEntered | src/file_operations.py:270-347 | a file no name matches, present and not failing, for which a name is entered: the name joins the sorted list (and the caller's, before the first rebinding), the file gets exactly one record at `{name}{author part} {n}{ext}` with one update, and any file containing the name now matches |
| Engine.AddedMatches | src/file_operations.py:285-288 | an added name is in the list, so every file name containing it has a first match |
| Engine.CharFiles | src/file_operations.py:214-347 | at most one record per file; when the mode is known and every file is present, distinct and not faulty, exactly one progress update per file; the function's list only grows and stays sorted once rebound; the caller's list gets at most the first added name |
| Engine.RenameImagesByCharacterName | src/file_operations.py:198-355 | at most one batch, whose undo restores the files; the caller's list is unchanged or gains one name at the end; a stored list is sorted and holds every name |
| Engine.PromptAuthorChoice | src/file_operations.py:386-402 | answer "1" gives the preselected author; answer "2" gives the typed word exactly when it is one of the `_`-separated words of the folder name; anything else gives none |
| Legacy.ImageFiles | file_operations.py:19-22 | exactly the names ending in .png, .jpg, .jpeg, .gif or .bmp, ignoring case, in their order |
| Legacy.SplitName | file_operations.py:30-35 | with a dot: the parts around the last dot, extension lower-cased; without: the whole name and no extension |
| Legacy.AppendPattern | file_operations.py:37-55 | skipped exactly when the name part holds the marker; otherwise `{name} by {author}.{ext}`, then `… {n}.{ext}` |
| Legacy.AppendMarked | file_operations.py:38-53 | every name the earlier direct-append produces carries the marker in its name part |
| Legacy.AppendExample | test_file_operations.py:28-38 | `image1.jpg` becomes `image1 by TestAuthor.jpg` when that name is free |
| Legacy.AppendLoop | file_operations.py:26-59 | no file lost; nothing outside the folder changes; skipped files are exactly the marked ones; with no failing file the batch completes |
| Legacy.RenameImages | file_operations.py:8-73 | the same for the image files of the folder in sorted order |
| Legacy.AppendLoopBare | file_operations.py:26-59 | with every file present and none failing, and the first names of the unmarked files free and distinct: the loop completes, each unmarked file ends at `{name} by {author}.{ext}` with its content, its old name gone, and every other path, marked files included, is as it was |
| Legacy.RenameImagesBare | file_operations.py:8-59 | the same for the image files of the folder in sorted order |
| Legacy.FolderLoopAsWritten | file_operations.py:91-103 | the unchecked rename never adds files and changes nothing outside the folder |
| Legacy.RenameImagesByFolderNameAsWritten | file_operations.py:76-111 | the earlier folder-name strategy as written: the number of files can only shrink |
| Legacy.FolderNameOverwrites | file_operations.py:101-103 | folder `x` with `a.jpg` and `x by A 1.jpg` ends with one file: the second file's content is lost |
| Legacy.FolderLoopChecked | src/file_operations.py:148-156 | with the collision check, no file is lost and a batch with no failing file completes |
| Legacy.RenameImagesByFolderNameChecked | file_operations.py:76-111 | the earlier folder-name strategy corrected: the number of files is kept |
| Legacy.FolderNamesDistinct | file_operations.py:101 | images at different positions get different names, whatever their extensions |
| Legacy.FolderCheckedBare | file_operations.py:91-103 | with every file present and none failing and every folder name free, the checked loop completes and the k-th file ends at `{folder} by {author} {k}.{ext}` with its content, its old name gone, every other path as it was |
| Legacy.RenameImagesByFolderNameBare | file_operations.py:76-103 | the corrected strategy over a folder whose images do not fail and whose folder names are free: the k-th image in sorted order ends at its numbered name with its content, every other path as it was |
| Legacy.CharDir | file_operations.py:130-165 | files move only within their own directory and none is lost; an unmatched file is reported by its relative path; a rename error is reported only for a file some name matches; no more reports than files |
| Legacy.CharDirReports | file_operations.py:130-165 | with every file present and none failing, the reports are exactly the unmatched files, in order, by relative path |
| Legacy.CharDirBare | file_operations.py:130-156 | with every file present and none failing, and the first names `{word}{author part}{ext}` of the matched files free and distinct: each matched file ends at the name made from its first matching word with its content, its old name gone, every other path as it was |
| Legacy.CharWalk | file_operations.py:129-165 | the walk keeps every file and changes nothing outside the walked directories |
| Legacy.RenameImagesByCharacterName | file_operations.py:113-166 | no file lost; nothing outside the folder and its walked sub-folders changes; unmatched files of the folder are reported |
| Legacy.RenameImagesByCharacterNameTop | file_operations.py:113-165 | with non-empty sub-folder paths, the folder's files not failing and the first names of its matched files free and distinct: each matched file of the folder ends at `{word}{author part}{ext}` with its content and its old name is gone; the report starts with the folder's unmatched files in order |
| Store.RemoveFirst | src/data_storage.py:124 | `list.remove` drops the first occurrence and keeps the rest in order |
| Store.Add | src/data_storage.py:65-109 | a missing key starts empty; true exactly when the name was absent, and then it is appended; false leaves the record unchanged; the other list is untouched (the earlier copy, data_storage.py:47-91, does the same) |
| Store.Delete | src/data_storage.py:111-151 | true exactly when the key exists and holds the name, and then its first occurrence goes; false leaves the record unchanged (the earlier copy, data_storage.py:93-133, does the same) |
| Store.AddThenDelete | src/data_storage.py:65-130 | adding an absent name and deleting it gives back the list, with a missing key left empty |
| Store.AddThenDeletePresent | src/data_storage.py:65-130 | when the key existed, add then delete gives back the record exactly |
| Gui.AddName | src/gui.py:577-609 | rejects an empty or listed name; adds to the list, then sorts it, exactly when the store accepts the name; otherwise nothing changes |
| Gui.DeleteName | src/gui.py:611-647 | rejects an empty or unlisted name; when the store deletes it, pushes a deletion entry without refreshing the button and removes the name, keeping the list sorted |
| Gui.UndoLastDeletion | src/gui.py:354-376 | pops whatever is on top; a deletion puts the name back and sorts the list, and the in-memory record with that list is saved; a batch is dropped without being undone; the button is not refreshed |
| Gui.DeleteThenRestore | src/gui.py:354-376 | delete, then Undo Delete, gives back a sorted list, the stack and the stored list |
| Gui.AddThenDeleteName | src/gui.py:577-628 | add, then delete, gives back a sorted list and the data file |
| Gui.UndoActionLosesDeletion | src/gui.py:380-385 | Undo right after a deletion pops the entry and fails, so the name can no longer be restored |
| Gui.RestoreLosesBatch | src/gui.py:354-358 | Undo Delete right after a batch drops it, leaving the files as the batch left them |
| Text.SplitExt | src/file_operations.py:137 | `os.path.splitext`: the parts join to the name; the extension is empty or a dot with no further dot, and not a leading dot |
| Text.Strip | src/gui.py:579 | `strip()` removes the surrounding whitespace and only that |
| Text.SplitOn | src/file_operations.py:390 | `split('_')` gives at least one part, none containing `_`, joining back to the string |
| Text.NumeralExtInjective | src/file_operations.py:140 | a numeral followed by an empty or dotted extension determines the number |
| Text.ParseNatStr | src/file_operations.py:140 | `str(n)` is decimal digits and reads back as n |
| Order.Sort | src/gui.py:584 | `sorted` returns a sorted permutation |
| Order.SortedUnique | src/gui.py:584 | a sorted permutation is unique, so `sorted` has one answer |

## Left out

- Tk widgets, message boxes, the status label and logging. The dialogs' answers are parameters.
- The worker thread and the progress queue. Progress is the list of events sent to the callback.
- JSON and config-file input and output. The store functions map the loaded record to the saved one, and a load failure is not modelled.
- The batch-level `except` of the three strategies, which would stop on a listing failure. The listing of the folder is total here.
- Directories among the entries of the earlier engine's `os.listdir`: a directory named like an image would be renamed too. The model lists files only.
- Windows rename semantics, where renaming onto an existing file raises. `os.rename` follows POSIX: the destination is replaced.
- Unicode case folding and whitespace: `lower` and `strip` act on ASCII only. Names containing `/` are not split into directories.
- `shutil.copy2` metadata and cross-volume moves. A move is a rename.
- The order `os.walk` visits sub-folders is a parameter. Within a directory, the earlier character-match takes files in sorted order, not in `os.walk` order.
- The src character-match lists the folder only (`os.listdir`), not its sub-folders. Only the earlier engine walks recursively, and the model follows the code.
- `undo_stack.clear()` when the window closes.
- Collision.Resolve: the file system holds files only, so a directory at a candidate name counts as free, whereas `os.path.exists` is true for it and the loop would go on to the next number.
- Engine.MatchWords: a failure depends on the source path only (the set `faulty`), so once one matching word fails every later one fails too; a success after a failure, which a destination-side failure (a locked target) would allow, is not modelled.
- Operations.UndoOps: its own contract states the error bounds only; the last-first replay is stated by Operations.UndoOpsAppend and Operations.UndoFirstLast.
- Engine.AppendFiles, Engine.FolderFiles, Legacy.AppendLoop, Legacy.CharDir: the name each file ends with is stated only when every file is present and none fails. In any known mode the record names one of the file's pattern names (Engine.AppendNames, Engine.FolderNumbered); the exact name, content and the rest of the folder are stated only when the first names are free and distinct (the `…Bare` lemmas).
- Gui.UndoLastDeletion: the in-memory record the list is saved with is the record loaded at start-up with the restored list put in. Python's aliasing of the loaded list with the window's list until its first re-sort is not modelled.
- Engine.AppendMarked: needs a file with an extension. Without one, a dot in the author's name would be taken for the extension and hide the marker.
- Legacy.RenameImagesByCharacterName: reports are guaranteed only for unmatched files of the folder itself. For sub-folders the reports per directory are stated by Legacy.CharDir.
- Engine.RenameImages, Engine.RenameImagesByFolderName, Engine.RenameImagesByCharacterName: the event counts are stated by the loops Engine.AppendFiles, Engine.FolderFiles and Engine.CharFiles. The top-level functions state only the first and last events.
- Engine.CharFiles: the update count is stated only when the mode is known and every file is present and none fails. With failures, the per-file rule is stated by Engine.CharFile and Engine.Prompted: a file sends no update only after an entered name whose operation fails.

## Findings

| source | as written | input that shows it | evidently intended | confidence | as-written member | corrected member |
|---|---|---|---|---|---|---|
| file_operations.py:101-103 | the folder-name rename goes to `{folder} by {author} {count}.{ext}` with no check that the name is free | folder `x` holding `a.jpg` and `x by A 1.jpg`, author `A`: `a.jpg` is renamed onto `x by A 1.jpg`, then that file to `x by A 2.jpg`; two files become one | no file is replaced, as the collision loop of src/file_operations.py:148-156 later ensures | not executed | Legacy.FolderNameOverwrites | Legacy.RenameImagesByFolderNameChecked |

=== FILE: collision.dfy ===
/**
 The collision resolver: the `while os.path.exists(new_file)` loops of the
 three strategies. Each tries a bare name (when the strategy has one), then
 `{stem}{sep}{n}{ext}` for n = 1, 2, ... and stops at the first path that is
 not taken.
 */
module Collision {
  import opened Wrappers
  import opened Text
  import opened FileSystem

  /**
   The names a strategy tries: attempt 0 is `bare` when there is one;
   attempt n >= 1 is `{stem}{sep}{n}{ext}`.
   */
  datatype Pattern = Pattern(bare: Option<string>, stem: string, sep: string, ext: string)

  /** `{stem}{sep}{n}{ext}`. */
  function Numbered(p: Pattern, n: nat): string {
    p.stem + p.sep + NatStr(n) + p.ext
  }

  /** The name tried at attempt `n`. */
  function Candidate(p: Pattern, n: nat): string {
    if n == 0 && p.bare.Some? then p.bare.value else Numbered(p, n)
  }

  /** The first attempt: 0 when there is a bare name, else the counter starts at 1. */
  function First(p: Pattern): nat {
    if p.bare.Some? then 0 else 1
  }

  /** Different counters give different names, so the loop never tries a name twice. */
  lemma NumberedInjective(p: Pattern, a: nat, b: nat)
    requires Numbered(p, a) == Numbered(p, b)
    ensures a == b
  {
    var pre := p.stem + p.sep;
    assert |NatStr(a)| == |NatStr(b)|;
    assert Numbered(p, a) == pre + NatStr(a) + p.ext;
    assert Numbered(p, a)[|pre|..|pre| + |NatStr(a)|] == NatStr(a);
    assert Numbered(p, b)[|pre|..|pre| + |NatStr(b)|] == NatStr(b);
    NatStrInjective(a, b);
  }

  /** The numbered paths tried before counter `n`. */
  function Tried(dir: string, p: Pattern, n: nat): set<Path> {
    set i | 1 <= i < n :: Path(dir, Numbered(p, i))
  }

  /** A taken numbered candidate shrinks the set of taken paths not tried yet. */
  lemma TriedGrows(fs: FS, dir: string, p: Pattern, n: nat)
    requires n >= 1 && Path(dir, Numbered(p, n)) in fs
    ensures |fs.Keys - Tried(dir, p, n + 1)| < |fs.Keys - Tried(dir, p, n)|
  {
    var x := Path(dir, Numbered(p, n));
    assert Tried(dir, p, n + 1) == Tried(dir, p, n) + {x};
    if x in Tried(dir, p, n) {
      var i :| 1 <= i < n && x == Path(dir, Numbered(p, i));
      NumberedInjective(p, i, n);
    }
    assert fs.Keys - Tried(dir, p, n + 1) == (fs.Keys - Tried(dir, p, n)) - {x};
  }

  /**
   The loop started at attempt `n`: it ends because the filesystem is finite
   and no name is tried twice. The result is free and every attempt before
   it, from `n` on, is taken.
   */
  function ResolveFrom(fs: FS, dir: string, p: Pattern, n: nat): (r: nat)
    ensures r >= n
    ensures Path(dir, Candidate(p, r)) !in fs
    ensures forall i :: n <= i < r ==> Path(dir, Candidate(p, i)) in fs
    decreases |fs.Keys - Tried(dir, p, n)|, if n == 0 then 1 else 0
  {
    if Path(dir, Candidate(p, n)) !in fs then n
    else if n == 0 then
      assert Tried(dir, p, 1) == Tried(dir, p, 0);
      ResolveFrom(fs, dir, p, 1)
    else
      TriedGrows(fs, dir, p, n);
      ResolveFrom(fs, dir, p, n + 1)
  }

  /**
   The attempt the loop stops at: the least attempt from the first one
   whose path in `dir` is free.
   */
  function Resolve(fs: FS, dir: string, p: Pattern): (r: nat)
    ensures r >= First(p)
    ensures Path(dir, Candidate(p, r)) !in fs
    ensures forall i :: First(p) <= i < r ==> Path(dir, Candidate(p, i)) in fs
  {
    ResolveFrom(fs, dir, p, First(p))
  }

  /** The path the loop settles on. */
  function Target(fs: FS, dir: string, p: Pattern): (t: Path)
    ensures t !in fs && t.dir == dir
  {
    Path(dir, Candidate(p, Resolve(fs, dir, p)))
  }

  /** No free attempt comes before the one chosen. */
  lemma ResolveLeast(fs: FS, dir: string, p: Pattern, n: nat)
    requires n >= First(p) && Path(dir, Candidate(p, n)) !in fs
    ensures Resolve(fs, dir, p) <= n
  {
  }

  /**
   With a bare name: the bare name if it is free, otherwise
   `{stem}{sep}{n}{ext}` for the least n >= 1 that is free.
   */
  lemma BareFirst(fs: FS, dir: string, p: Pattern)
    requires p.bare.Some?
    ensures Path(dir, p.bare.value) !in fs ==> Target(fs, dir, p) == Path(dir, p.bare.value)
    ensures Path(dir, p.bare.value) in fs ==>
              exists n :: n >= 1 && Target(fs, dir, p) == Path(dir, Numbered(p, n)) &&
                          forall i :: 1 <= i < n ==> Path(dir, Numbered(p, i)) in fs
  {
    var r := Resolve(fs, dir, p);
    if Path(dir, p.bare.value) in fs {
      assert r >= 1;
      assert forall i :: 1 <= i < r ==> Candidate(p, i) == Numbered(p, i);
    }
  }

  /**
   A collision example: when `X by A.jpg` and `X by A 1.jpg` are taken,
   proposing `X by A.jpg` again gives `X by A 2.jpg`.
   */
  lemma SecondCollision(dir: string, c: Content)
    ensures var fs := map[Path(dir, "X by A.jpg") := c, Path(dir, "X by A 1.jpg") := c];
            Target(fs, dir, Pattern(Some("X by A.jpg"), "X by A", " ", ".jpg")) == Path(dir, "X by A 2.jpg")
  {
    var fs := map[Path(dir, "X by A.jpg") := c, Path(dir, "X by A 1.jpg") := c];
    var p := Pattern(Some("X by A.jpg"), "X by A", " ", ".jpg");
    assert NatStr(1) == "1" && NatStr(2) == "2";
    assert Candidate(p, 2) == "X by A 2.jpg";
    assert Path(dir, Candidate(p, 2)) !in fs;
    ResolveLeast(fs, dir, p, 2);
    assert Candidate(p, 1) == "X by A 1.jpg";
  }
}

=== FILE: engine.dfy ===
/**
 The naming engine of src/file_operations.py: the three strategies
 `rename_images` (direct-append), `rename_images_by_folder_name` and
 `rename_images_by_character_name`, each over the sorted files of one folder,
 in one of the modes Rename, Copy or Move, ending with the batch pushed on
 the undo stack; and `prompt_author_choice`.
 */
module Engine {
  import opened Wrappers
  import opened Text
  import opened Order
  import opened FileSystem
  import opened Collision
  import opened Operations
  import opened Ledger

  /** What the strategies send to `progress_callback`. */
  datatype Event = Start(total: nat) | Update | Skipped(files: seq<string>) | Error(file: string) | Done

  /** A batch in progress: the files, the records so far and the progress sent so far. */
  datatype Run = Run(fs: FS, ops: seq<Record>, events: seq<Event>)

  /** Number of `("update", 1)` events. */
  function Updates(events: seq<Event>): nat {
    if events == [] then 0 else Updates(events[..|events| - 1]) + (if events[|events| - 1] == Update then 1 else 0)
  }

  /** Number of `("error", ...)` events. */
  function Errors(events: seq<Event>): nat {
    if events == [] then 0 else Errors(events[..|events| - 1]) + (if events[|events| - 1].Error? then 1 else 0)
  }

  lemma CountAppend(a: seq<Event>, b: seq<Event>)
    ensures Updates(a + b) == Updates(a) + Updates(b)
    ensures Errors(a + b) == Errors(a) + Errors(b)
    decreases |b|
  {
    if b != [] {
      assert (a + b)[..|a + b| - 1] == a + b[..|b| - 1];
      assert (a + b)[|a + b| - 1] == b[|b| - 1];
      CountAppend(a, b[..|b| - 1]);
    } else {
      assert a + b == a;
    }
  }

  /**
   `destination_folder` when the mode is Copy or Move and a destination
   was given (`None` and `""` are both false in Python), else the folder
   itself.
   */
  function TargetDir(mode: Mode, folder: string, destination: Option<string>): (d: string)
    ensures (mode == Copy || mode == Move) && destination.Some? && destination.value != [] ==> d == destination.value
    ensures mode == Rename || mode.Unknown? || destination.None? || destination == Some([]) ==> d == folder
  {
    if (mode == Copy || mode == Move) && destination.Some? && destination.value != [] then destination.value else folder
  }

  /**
   `run` continues `from`: the progress sent so far and the records so far
   are kept, and undoing the records added since `from`, last first and
   with no step raising, restores the files of `from`.
   */
  predicate Continues(run: Run, from: Run, mode: Mode) {
    && from.events <= run.events
    && |from.ops| <= |run.ops|
    && run.ops[..|from.ops|] == from.ops
    && UndoOps(run.fs, mode, run.ops[|from.ops|..], {}) == (from.fs, [])
  }

  lemma ContinuesRefl(run: Run, mode: Mode)
    ensures Continues(run, run, mode)
  {
    assert run.ops[|run.ops|..] == [];
  }

  lemma ContinuesTrans(c: Run, b: Run, a: Run, mode: Mode)
    requires Continues(c, b, mode) && Continues(b, a, mode)
    ensures Continues(c, a, mode)
  {
    var x := b.ops[|a.ops|..];
    var y := c.ops[|b.ops|..];
    assert c.ops[..|b.ops|] == b.ops;
    assert c.ops[|a.ops|..] == x + y;
    UndoOpsAppend(c.fs, mode, x, y, {});
  }

  /**
   What a strategy leaves on the undo stack: nothing (and then nothing at
   all changed), or one batch in `mode` with at least one record, the Undo
   button enabled, whose reversal with no step raising gives back the files
   of `s`.
   */
  predicate UndoableBatch(s: Session, r: Session, mode: Mode) {
    if r.undoStack == s.undoStack then r == s
    else
      && |r.undoStack| == |s.undoStack| + 1
      && r.undoStack[..|s.undoStack|] == s.undoStack
      && r.undoEnabled
      && var top := r.undoStack[|s.undoStack|];
         top.BatchEntry? && top.mode == mode && top.ops != [] && UndoOps(r.fs, mode, top.ops, {}) == (s.fs, [])
  }

  /** The end of a strategy: the run's files, and its batch pushed when it recorded something. */
  function Finish(s: Session, mode: Mode, run: Run): (r: Session)
    requires UndoOps(run.fs, mode, run.ops, {}) == (s.fs, [])
    ensures UndoableBatch(s, r, mode)
    ensures r.fs == run.fs
  {
    assert run.ops == [] ==> run.fs == s.fs;
    var r := CompleteBatch(s.(fs := run.fs), mode, run.ops);
    assert r.undoStack != s.undoStack ==> r.undoStack[|s.undoStack|] == BatchEntry(mode, run.ops);
    r
  }

  /**
   Undo right after a strategy that pushed a batch restores the files the
   strategy started from, reports success, and leaves the stack as it was
   before the strategy ran.
   */
  lemma UndoRestores(s: Session, r: Session, mode: Mode)
    requires UndoableBatch(s, r, mode) && r.undoStack != s.undoStack
    ensures var u := UndoLastAction(r, {});
            u.0.fs == s.fs && u.0.undoStack == s.undoStack && u.1 == Undone
  {
    assert r.undoStack[..|r.undoStack| - 1] == s.undoStack;
  }

  /** How one attempt to operate on a file ended. */
  datatype Trial = Succeeded | Failed | Ignored

  /**
   One attempt: resolve a free target for the pattern in the target
   directory, then rename, copy or move `folder/filename` there. Success
   records `(new, old)` (Copy: `(new, None)`); failure sends an error event
   and records nothing; an unknown mode does nothing.
   */
  function TryOne(run: Run, mode: Mode, faulty: set<Path>, folder: string, destination: Option<string>,
                  filename: string, p: Pattern): (r: (Run, Trial))
    ensures r.1 == Ignored <==> mode.Unknown?
    ensures r.1 == Succeeded <==> !mode.Unknown? && Path(folder, filename) in run.fs && Path(folder, filename) !in faulty
    ensures r.1 == Succeeded ==>
              var dst := Target(run.fs, TargetDir(mode, folder, destination), p);
              && r.0.ops == run.ops + [Record(dst, if mode == Copy then None else Some(Path(folder, filename)))]
              && r.0.events == run.events
              && r.0.fs == if mode == Copy then CopyFile(run.fs, Path(folder, filename), dst)
                           else MoveFile(run.fs, Path(folder, filename), dst)
    ensures r.1 == Failed ==> r.0 == run.(events := run.events + [Error(filename)])
    ensures r.1 == Ignored ==> r.0 == run
    ensures Continues(r.0, run, mode)
  {
    var dst := Target(run.fs, TargetDir(mode, folder, destination), p);
    match Perform(run.fs, mode, Path(folder, filename), dst, faulty)
    case Applied(fs', rec) =>
      var next := Run(fs', run.ops + [rec], run.events);
      assert next.ops[|run.ops|..] == [rec];
      assert [rec][..0] == [];
      (next, Succeeded)
    case Raised =>
      ContinuesRefl(run, mode);
      (run.(events := run.events + [Error(filename)]), Failed)
    case Unsupported =>
      ContinuesRefl(run, mode);
      (run, Ignored)
  }

  /** `run` with one more `("update", 1)`. */
  function Tick(run: Run): (r: Run)
    ensures Updates(r.events) == Updates(run.events) + 1 && Errors(r.events) == Errors(run.events)
    ensures r.fs == run.fs && r.ops == run.ops
  {
    run.(events := run.events + [Update])
  }

  lemma TickContinues(run: Run, from: Run, mode: Mode)
    requires Continues(run, from, mode)
    ensures Continues(Tick(run), from, mode)
  {
  }

  /**
   One file tried with pattern `p`: a success sends one update, a failure
   one error, and the unknown mode neither.
   */
  function Attempt(run: Run, mode: Mode, faulty: set<Path>, folder: string, destination: Option<string>,
                   filename: string, p: Pattern): (r: Run)
    ensures Continues(r, run, mode)
    ensures |r.ops| == |run.ops| || |r.ops| == |run.ops| + 1
    ensures Updates(r.events) == Updates(run.events) + (|r.ops| - |run.ops|)
    ensures !mode.Unknown? ==> (|r.ops| - |run.ops|) + (Errors(r.events) - Errors(run.events)) == 1
    ensures mode.Unknown? ==> r.ops == run.ops && Errors(r.events) == Errors(run.events)
    ensures |r.ops| == |run.ops| + 1 <==>
              !mode.Unknown? && Path(folder, filename) in run.fs && Path(folder, filename) !in faulty
    ensures |r.ops| == |run.ops| ==> r.fs == run.fs
    ensures |r.ops| == |run.ops| + 1 ==>
              var src := Path(folder, filename);
              var dst := Target(run.fs, TargetDir(mode, folder, destination), p);
              && r.ops == run.ops + [Record(dst, if mode == Copy then None else Some(src))]
              && r.fs == if mode == Copy then CopyFile(run.fs, src, dst) else MoveFile(run.fs, src, dst)
    ensures KeepsOthers(run.fs, r.fs, Path(folder, filename))
  {
    var (run1, t) := TryOne(run, mode, faulty, folder, destination, filename, p);
    CountAppend(run.events, [Error(filename)]);
    if t == Succeeded then
      MoveCopyKeep(run.fs, Path(folder, filename), Target(run.fs, TargetDir(mode, folder, destination), p));
      TickContinues(run1, run, mode);
      Tick(run1)
    else run1
  }

  /**
   A record made for `filename` with pattern `p`: it keeps the file's
   original (none for Copy), and its new path is one of the pattern's names
   in the target directory.
   */
  ghost predicate NamedAfter(rec: Record, mode: Mode, folder: string, destination: Option<string>,
                             filename: string, p: Pattern) {
    && rec.origin == (if mode == Copy then None else Some(Path(folder, filename)))
    && rec.target.dir == TargetDir(mode, folder, destination)
    && exists n :: n >= First(p) && rec.target.name == Candidate(p, n)
  }

  /** Record by record, `recs` are named after the files `u`, each with the pattern at its position in `ps`. */
  ghost predicate NamedAll(recs: seq<Record>, mode: Mode, folder: string, destination: Option<string>,
                           u: seq<string>, ps: seq<Pattern>)
    decreases |u|
  {
    && |recs| == |u| && |ps| == |u|
    && (u != [] ==>
          && NamedAfter(recs[0], mode, folder, destination, u[0], ps[0])
          && NamedAll(recs[1..], mode, folder, destination, u[1..], ps[1..]))
  }

  /** `NamedAll`, position by position. */
  lemma {:induction false} NamedAllAt(recs: seq<Record>, mode: Mode, folder: string, destination: Option<string>,
                                      u: seq<string>, ps: seq<Pattern>)
    requires NamedAll(recs, mode, folder, destination, u, ps)
    ensures |recs| == |u| == |ps|
    ensures forall j :: 0 <= j < |u| ==> NamedAfter(recs[j], mode, folder, destination, u[j], ps[j])
    decreases |u|
  {
    if u != [] {
      NamedAllAt(recs[1..], mode, folder, destination, u[1..], ps[1..]);
      forall j | 0 <= j < |u| ensures NamedAfter(recs[j], mode, folder, destination, u[j], ps[j]) {
        if j > 0 {
          assert recs[1..][j - 1] == recs[j] && u[1..][j - 1] == u[j] && ps[1..][j - 1] == ps[j];
        }
      }
    }
  }

  /**
   A batch that made one record for `f` with pattern `p`, then records for
   `u` with patterns `ps`, made records for `[f] + u` with `[p] + ps`.
   */
  lemma NamedAllCons(ops0: seq<Record>, ops1: seq<Record>, ops2: seq<Record>, mode: Mode, folder: string,
                     destination: Option<string>, f: string, p: Pattern, u: seq<string>, ps: seq<Pattern>)
    requires |ops1| == |ops0| + 1 && ops1[..|ops0|] == ops0
    requires NamedAfter(ops1[|ops0|], mode, folder, destination, f, p)
    requires |ops1| <= |ops2| && ops2[..|ops1|] == ops1
    requires NamedAll(ops2[|ops1|..], mode, folder, destination, u, ps)
    ensures NamedAll(ops2[|ops0|..], mode, folder, destination, [f] + u, [p] + ps)
  {
    var all := ops2[|ops0|..];
    assert all[0] == ops1[|ops0|];
    assert all[1..] == ops2[|ops1|..];
    assert ([f] + u)[1..] == u && ([p] + ps)[1..] == ps;
  }

  /**
   A file that is present and does not fail gets one record, named after
   it; the files after it stay ready.
   */
  lemma AttemptReady(files: seq<string>, run: Run, mode: Mode, faulty: set<Path>, folder: string,
                     destination: Option<string>, p: Pattern)
    requires !mode.Unknown? && files != [] && Ready(files, run.fs, folder, faulty)
    ensures var r := Attempt(run, mode, faulty, folder, destination, files[0], p);
            && |r.ops| == |run.ops| + 1 && r.ops[..|run.ops|] == run.ops
            && NamedAfter(r.ops[|run.ops|], mode, folder, destination, files[0], p)
            && Ready(files[1..], r.fs, folder, faulty)
  {
    var dir := TargetDir(mode, folder, destination);
    var dst := Target(run.fs, dir, p);
    var r := Attempt(run, mode, faulty, folder, destination, files[0], p);
    assert dst.name == Candidate(p, Resolve(run.fs, dir, p));
    ReadyAfter(files, run.fs, folder, faulty, dst);
    assert r.ops[|run.ops|] == Record(dst, if mode == Copy then None else Some(Path(folder, files[0])));
  }

  /**
   A present file that does not fail, whose pattern's plain name is free, is
   renamed or moved to exactly that name.
   */
  lemma AttemptBare(run: Run, mode: Mode, faulty: set<Path>, folder: string, destination: Option<string>,
                    filename: string, p: Pattern)
    requires mode == Rename || mode == Move
    requires Path(folder, filename) in run.fs && Path(folder, filename) !in faulty
    requires p.bare.Some? && Path(TargetDir(mode, folder, destination), p.bare.value) !in run.fs
    ensures var r := Attempt(run, mode, faulty, folder, destination, filename, p);
            var dst := Path(TargetDir(mode, folder, destination), p.bare.value);
            && r.ops == run.ops + [Record(dst, Some(Path(folder, filename)))]
            && r.fs == MoveFile(run.fs, Path(folder, filename), dst)
  {
    BareFirst(run.fs, TargetDir(mode, folder, destination), p);
  }

  // ---------------------------------------------------------------------
  // Direct-append: rename_images
  // ---------------------------------------------------------------------

  /** `author_marker.lower() in name_part.lower()`. */
  predicate HasMarker(stem: string, author: string) {
    Contains(Lower(stem), Lower("by " + author))
  }

  /** The names direct-append tries for `filename`; none when the stem already carries the marker. */
  function AppendPattern(filename: string, author: string): (r: Option<Pattern>)
    ensures r.None? <==> HasMarker(SplitExt(filename).0, author)
    ensures r.Some? ==> r.value == AuthorPattern(filename, author)
  {
    if HasMarker(SplitExt(filename).0, author) then None else Some(AuthorPattern(filename, author))
  }

  /** `{stem} by {author}{ext}`, then `{stem} by {author} {n}{ext}`, the extension lower-cased. */
  function AuthorPattern(filename: string, author: string): Pattern {
    var (stem, ext) := SplitExt(filename);
    var base := stem + " by " + author;
    Pattern(Some(base + Lower(ext)), base, " ", Lower(ext))
  }

  /** Lower-casing keeps an extension an extension. */
  lemma LowerExt(e: string)
    requires IsExt(e)
    ensures IsExt(Lower(e)) && |Lower(e)| == |e|
  {
    if e != [] {
      assert Lower(e)[1..] == Lower(e[1..]);
      forall i | 0 <= i < |e| ensures Lower(e)[i] != '/' {
        assert e[i] != '/';
      }
      forall i | 1 <= i < |e| ensures Lower(e)[i] != '.' {
        assert e[1..][i - 1] == e[i];
      }
    }
  }

  /**
   Every name direct-append tries for a file carries the author marker, so
   a second run over the renamed files skips them all. This needs a file
   with an extension: without one, a dot in the author's name would be taken
   for an extension and hide the marker.
   */
  lemma AppendMarked(filename: string, author: string, n: nat)
    requires '/' !in filename && '/' !in author
    requires SplitExt(filename).1 != []
    ensures var p := AppendPattern(filename, author);
            p.Some? ==> AppendPattern(Candidate(p.value, n), author).None?
  {
    var (stem, ext) := SplitExt(filename);
    if AppendPattern(filename, author).Some? {
      var rest := if n == 0 then "" else " " + NatStr(n);
      var marked := stem + " by " + author + rest;
      AppendCandidate(filename, author, n);
      StemNoSlash(filename);
      MarkedSplits(stem, author, rest, ext);
      MarkedHasMarker(stem, author, rest);
    }
  }

  /** The n-th name direct-append tries is the marked stem, then the lower-cased extension. */
  lemma AppendCandidate(filename: string, author: string, n: nat)
    requires AppendPattern(filename, author).Some?
    ensures var (stem, ext) := SplitExt(filename);
            var rest := if n == 0 then "" else " " + NatStr(n);
            Candidate(AppendPattern(filename, author).value, n) == stem + " by " + author + rest + Lower(ext)
  {
  }

  /** The stem `splitext` leaves of a name without slashes has no slash. */
  lemma StemNoSlash(filename: string)
    requires '/' !in filename
    ensures '/' !in SplitExt(filename).0
  {
    var stem := SplitExt(filename).0;
    forall i | 0 <= i < |stem| ensures stem[i] != '/' {
      assert filename[i] == stem[i];
    }
  }

  /** `splitext` of a marked name gives back the marked stem. */
  lemma MarkedSplits(stem: string, author: string, rest: string, ext: string)
    requires '/' !in stem && '/' !in author && (rest == "" || rest[0] == ' ')
    requires forall i :: 1 <= i < |rest| ==> IsDigit(rest[i])
    requires IsExt(ext) && ext != []
    ensures SplitExt(stem + " by " + author + rest + Lower(ext)).0 == stem + " by " + author + rest
  {
    var marked := stem + " by " + author + rest;
    assert marked[|stem|] == ' ';
    assert '/' !in marked by {
      forall i | 0 <= i < |marked| ensures marked[i] != '/' {
        if i >= |stem + " by " + author| {
          assert marked[i] == rest[i - |stem + " by " + author|];
        }
      }
    }
    LowerExt(ext);
    SplitExtJoin(marked, Lower(ext), |stem|);
  }

  /** A marked stem carries the marker. */
  lemma MarkedHasMarker(stem: string, author: string, rest: string)
    ensures HasMarker(stem + " by " + author + rest, author)
  {
    assert stem + " by " + author + rest == (stem + " ") + ("by " + author) + rest;
    LowerContainsMiddle(stem + " ", "by " + author, rest);
  }

  /**
   The loop of `rename_images` over `files`. It returns the run and the
   skipped files. Every file is skipped (marker), recorded, or reported
   as an error; a skip and a success each send one update.
   */
  function AppendFiles(files: seq<string>, run: Run, mode: Mode, faulty: set<Path>, folder: string,
                       destination: Option<string>, author: string): (r: (Run, seq<string>))
    ensures Continues(r.0, run, mode)
    ensures forall f :: f in r.1 <==> f in files && AppendPattern(f, author).None?
    ensures |r.1| <= |files|
    ensures Updates(r.0.events) == Updates(run.events) + |r.1| + (|r.0.ops| - |run.ops|)
    ensures !mode.Unknown? ==> |files| == |r.1| + (|r.0.ops| - |run.ops|) + (Errors(r.0.events) - Errors(run.events))
    ensures mode.Unknown? ==> r.0.ops == run.ops && Errors(r.0.events) == Errors(run.events)
    decreases |files|
  {
    if files == [] then
      ContinuesRefl(run, mode);
      (run, [])
    else
      var f := files[0];
      assert files == [f] + files[1..];
      match AppendPattern(f, author)
      case None =>
        var rest := AppendFiles(files[1..], Tick(run), mode, faulty, folder, destination, author);
        ContinuesRefl(run, mode);
        TickContinues(run, run, mode);
        ContinuesTrans(rest.0, Tick(run), run, mode);
        (rest.0, [f] + rest.1)
      case Some(p) =>
        var run1 := Attempt(run, mode, faulty, folder, destination, f, p);
        var rest := AppendFiles(files[1..], run1, mode, faulty, folder, destination, author);
        ContinuesTrans(rest.0, run1, run, mode);
        rest
  }

  /**
   `rename_images`: one start event with the number of files, the loop,
   the batch pushed if anything was recorded, the skipped files reported if
   there were any, then done.
   */
  function RenameImages(s: Session, folder: string, author: string, mode: Mode,
                        destination: Option<string>, faulty: set<Path>): (r: (Session, seq<Event>))
    ensures |r.1| >= 2 && r.1[0] == Start(|Listing(s.fs, folder)|) && r.1[|r.1| - 1] == Done
    ensures UndoableBatch(s, r.0, mode)
  {
    var files := Listing(s.fs, folder);
    var start := Run(s.fs, [], [Start(|files|)]);
    var (run, skipped) := AppendFiles(files, start, mode, faulty, folder, destination, author);
    assert run.ops[0..] == run.ops;
    (Finish(s, mode, run), run.events + (if skipped != [] then [Skipped(skipped)] else []) + [Done])
  }

  /**
   `rename_images` over a folder whose files do not fail, in any known mode:
   the batch pushed (when some file lacks the marker) holds one record per
   unmarked file in sorted order, named `{stem} by {author}{ext}` or
   `{stem} by {author} {n}{ext}` after it.
   */
  lemma AppendStrategyNames(s: Session, folder: string, author: string, mode: Mode,
                            destination: Option<string>, faulty: set<Path>)
    requires !mode.Unknown?
    requires forall f :: f in Listing(s.fs, folder) ==> Path(folder, f) !in faulty
    ensures var u := Unmarked(Listing(s.fs, folder), author);
            var r := RenameImages(s, folder, author, mode, destination, faulty).0;
            u != [] ==>
              && |r.undoStack| == |s.undoStack| + 1
              && NamedAll(r.undoStack[|s.undoStack|].ops, mode, folder, destination, u, AuthorPatterns(u, author))
  {
    var files := Listing(s.fs, folder);
    var start := Run(s.fs, [], [Start(|files|)]);
    AppendNames(files, start, mode, faulty, folder, destination, author);
    var run := AppendFiles(files, start, mode, faulty, folder, destination, author).0;
    assert run.ops[0..] == run.ops;
  }

  /**
   `rename_images` renaming or moving the files of a folder, none failing,
   when the first names `{stem} by {author}{ext}` of the unmarked files are
   free and different from each other: each unmarked file ends at its first
   name with its content, its old name is gone, every other path (marked
   files included) is as it was, and the batch pushed holds exactly these
   moves.
   */
  lemma AppendStrategyBare(s: Session, folder: string, author: string, mode: Mode,
                           destination: Option<string>, faulty: set<Path>)
    requires mode == Rename || mode == Move
    requires forall f :: f in Listing(s.fs, folder) ==> Path(folder, f) !in faulty
    requires Fresh(AppendedNames(Unmarked(Listing(s.fs, folder), author), author),
                   TargetDir(mode, folder, destination), s.fs)
    ensures var u := Unmarked(Listing(s.fs, folder), author);
            var recs := Renamed(AppendedNames(u, author), TargetDir(mode, folder, destination), folder, u);
            var r := RenameImages(s, folder, author, mode, destination, faulty).0;
            && Moved(s.fs, r.fs, recs)
            && r.undoStack == if u == [] then s.undoStack else s.undoStack + [BatchEntry(mode, recs)]
  {
    var files := Listing(s.fs, folder);
    var start := Run(s.fs, [], [Start(|files|)]);
    AppendBare(files, start, mode, faulty, folder, destination, author);
    var run := AppendFiles(files, start, mode, faulty, folder, destination, author).0;
    assert run.ops[0..] == run.ops;
    assert [] + run.ops == run.ops;
  }

  /** The files direct-append renames: those without the marker, in order. */
  function Unmarked(files: seq<string>, author: string): seq<string> {
    if files == [] then []
    else if AppendPattern(files[0], author).Some? then [files[0]] + Unmarked(files[1..], author)
    else Unmarked(files[1..], author)
  }

  /** The unmarked files are the files whose stem does not carry the marker. */
  lemma {:induction false} UnmarkedIn(files: seq<string>, author: string)
    ensures forall f :: f in Unmarked(files, author) <==> f in files && AppendPattern(f, author).Some?
    decreases |files|
  {
    if files != [] {
      UnmarkedIn(files[1..], author);
      assert forall f :: f in files <==> f == files[0] || f in files[1..];
    }
  }

  /** The patterns direct-append tries for `u`, file by file. */
  function AuthorPatterns(u: seq<string>, author: string): (ps: seq<Pattern>)
    ensures |ps| == |u|
  {
    if u == [] then [] else [AuthorPattern(u[0], author)] + AuthorPatterns(u[1..], author)
  }

  /** `{stem} by {author}{ext}`, the extension lower-cased: the first name direct-append tries. */
  function AppendedName(filename: string, author: string): string {
    SplitExt(filename).0 + " by " + author + Lower(SplitExt(filename).1)
  }

  /** The first names of `u`, file by file. */
  function AppendedNames(u: seq<string>, author: string): (names: seq<string>)
    ensures |names| == |u|
  {
    if u == [] then [] else [AppendedName(u[0], author)] + AppendedNames(u[1..], author)
  }

  /** The loop over a marked first file only sends an update. */
  lemma AppendFilesSkip(files: seq<string>, run: Run, mode: Mode, faulty: set<Path>, folder: string,
                        destination: Option<string>, author: string)
    requires files != [] && AppendPattern(files[0], author).None?
    ensures AppendFiles(files, run, mode, faulty, folder, destination, author).0
         == AppendFiles(files[1..], Tick(run), mode, faulty, folder, destination, author).0
    ensures Unmarked(files, author) == Unmarked(files[1..], author)
  {
  }

  /** The loop over an unmarked first file attempts it with its own pattern, then goes on. */
  lemma AppendFilesTry(files: seq<string>, run: Run, mode: Mode, faulty: set<Path>, folder: string,
                       destination: Option<string>, author: string)
    requires files != [] && AppendPattern(files[0], author).Some?
    ensures var run1 := Attempt(run, mode, faulty, folder, destination, files[0], AuthorPattern(files[0], author));
            AppendFiles(files, run, mode, faulty, folder, destination, author).0
              == AppendFiles(files[1..], run1, mode, faulty, folder, destination, author).0
    ensures var u := Unmarked(files[1..], author);
            && Unmarked(files, author) == [files[0]] + u
            && AuthorPatterns([files[0]] + u, author) == [AuthorPattern(files[0], author)] + AuthorPatterns(u, author)
            && AppendedNames([files[0]] + u, author) == [AppendedName(files[0], author)] + AppendedNames(u, author)
  {
    var u := Unmarked(files[1..], author);
    assert ([files[0]] + u)[1..] == u;
  }

  /**
   With every file present and none failing, direct-append makes one record
   per unmarked file, in order, each keeping that file as its original
   (none for Copy) and named `{stem} by {author}{ext}` or
   `{stem} by {author} {n}{ext}` after it, in the target directory.
   */
  lemma {:induction false} AppendNames(files: seq<string>, run: Run, mode: Mode, faulty: set<Path>, folder: string,
                                       destination: Option<string>, author: string)
    requires !mode.Unknown? && Ready(files, run.fs, folder, faulty)
    ensures var r := AppendFiles(files, run, mode, faulty, folder, destination, author).0;
            var u := Unmarked(files, author);
            NamedAll(r.ops[|run.ops|..], mode, folder, destination, u, AuthorPatterns(u, author))
    decreases |files|
  {
    if files == [] {
      assert run.ops[|run.ops|..] == [];
    } else if AppendPattern(files[0], author).None? {
      ReadyTail(files, run.fs, folder, faulty);
      AppendNames(files[1..], Tick(run), mode, faulty, folder, destination, author);
      AppendFilesSkip(files, run, mode, faulty, folder, destination, author);
    } else {
      AppendNamesStep(files, run, mode, faulty, folder, destination, author);
    }
  }

  lemma {:induction false} AppendNamesStep(files: seq<string>, run: Run, mode: Mode, faulty: set<Path>,
                                           folder: string, destination: Option<string>, author: string)
    requires !mode.Unknown? && Ready(files, run.fs, folder, faulty)
    requires files != [] && AppendPattern(files[0], author).Some?
    ensures var r := AppendFiles(files, run, mode, faulty, folder, destination, author).0;
            var u := Unmarked(files, author);
            NamedAll(r.ops[|run.ops|..], mode, folder, destination, u, AuthorPatterns(u, author))
    decreases |files|, 0
  {
    var f := files[0];
    var p := AuthorPattern(f, author);
    var run1 := Attempt(run, mode, faulty, folder, destination, f, p);
    AttemptReady(files, run, mode, faulty, folder, destination, p);
    AppendNames(files[1..], run1, mode, faulty, folder, destination, author);
    AppendFilesTry(files, run, mode, faulty, folder, destination, author);
    var u := Unmarked(files[1..], author);
    NamedAllCons(run.ops, run1.ops, AppendFiles(files[1..], run1, mode, faulty, folder, destination, author).0.ops,
                 mode, folder, destination, f, p, u, AuthorPatterns(u, author));
  }

  /**
   Renaming or moving, with every file present and none failing, and the
   first names `{stem} by {author}{ext}` of the unmarked files free and
   different from each other: each unmarked file, in order, is moved to its
   first name; afterwards its content is at the new name, its old name is
   gone, and every other path is as it was.
   */
  lemma {:induction false} AppendBare(files: seq<string>, run: Run, mode: Mode, faulty: set<Path>, folder: string,
                                      destination: Option<string>, author: string)
    requires mode == Rename || mode == Move
    requires Ready(files, run.fs, folder, faulty)
    requires Fresh(AppendedNames(Unmarked(files, author), author), TargetDir(mode, folder, destination), run.fs)
    ensures var r := AppendFiles(files, run, mode, faulty, folder, destination, author).0;
            var u := Unmarked(files, author);
            var recs := Renamed(AppendedNames(u, author), TargetDir(mode, folder, destination), folder, u);
            r.ops == run.ops + recs && Moved(run.fs, r.fs, recs)
    decreases |files|
  {
    if files == [] {
      assert run.ops + [] == run.ops;
    } else if AppendPattern(files[0], author).None? {
      ReadyTail(files, run.fs, folder, faulty);
      AppendFilesSkip(files, run, mode, faulty, folder, destination, author);
      AppendBare(files[1..], Tick(run), mode, faulty, folder, destination, author);
    } else {
      AppendBareStep(files, run, mode, faulty, folder, destination, author);
    }
  }

  lemma {:induction false} AppendBareStep(files: seq<string>, run: Run, mode: Mode, faulty: set<Path>,
                                          folder: string, destination: Option<string>, author: string)
    requires mode == Rename || mode == Move
    requires Ready(files, run.fs, folder, faulty)
    requires Fresh(AppendedNames(Unmarked(files, author), author), TargetDir(mode, folder, destination), run.fs)
    requires files != [] && AppendPattern(files[0], author).Some?
    ensures var r := AppendFiles(files, run, mode, faulty, folder, destination, author).0;
            var u := Unmarked(files, author);
            var recs := Renamed(AppendedNames(u, author), TargetDir(mode, folder, destination), folder, u);
            r.ops == run.ops + recs && Moved(run.fs, r.fs, recs)
    decreases |files|, 0
  {
    var d := TargetDir(mode, folder, destination);
    var f := files[0];
    var u := Unmarked(files[1..], author);
    var names := AppendedNames(u, author);
    var src := Path(folder, f);
    var dst := Path(d, AppendedName(f, author));
    var run1 := Attempt(run, mode, faulty, folder, destination, f, AuthorPattern(f, author));
    AppendFilesTry(files, run, mode, faulty, folder, destination, author);
    AttemptBare(run, mode, faulty, folder, destination, f, AuthorPattern(f, author));
    FreshAfter([AppendedName(f, author)] + names, d, run.fs, src);
    ReadyAfter(files, run.fs, folder, faulty, dst);
    AppendBare(files[1..], run1, mode, faulty, folder, destination, author);
    UnmarkedIn(files[1..], author);
    var r := AppendFiles(files[1..], run1, mode, faulty, folder, destination, author).0;
    MovedRenamedCons(run.fs, run1.fs, r.fs, d, folder, AppendedName(f, author), f, names, u);
    ConcatAssoc(run.ops, [Record(dst, Some(src))], Renamed(names, d, folder, u));
  }

  // ---------------------------------------------------------------------
  // Folder name: rename_images_by_folder_name
  // ---------------------------------------------------------------------

  /** `os.path.basename(path)`: everything after the last slash. */
  function BaseName(path: string): (r: string)
    ensures '/' !in r
    ensures EndsWith(path, r)
    ensures |r| < |path| ==> path[|path| - |r| - 1] == '/'
  {
    path[LastIndex(path, '/') + 1..]
  }

  /**
   The names tried for the `index`-th file: `{folder} by {author} {index}{ext}`,
   then `{folder} by {author} {index}_{n}{ext}`, with the extension lower-cased.
   */
  function FolderPattern(folderName: string, author: string, index: nat, filename: string): Pattern {
    var ext := Lower(SplitExt(filename).1);
    var base := folderName + " by " + author + " " + NatStr(index);
    Pattern(Some(base + ext), base, "_", ext)
  }

  /**
   The loop of `rename_images_by_folder_name`; `index` is the 1-based
   position of `files[0]`, and `folderName` the base name of the folder.
   */
  function FolderFiles(files: seq<string>, index: nat, run: Run, mode: Mode, faulty: set<Path>, folder: string,
                       folderName: string, destination: Option<string>, author: string): (r: Run)
    ensures Continues(r, run, mode)
    ensures Updates(r.events) == Updates(run.events) + (|r.ops| - |run.ops|)
    ensures !mode.Unknown? ==> |files| == (|r.ops| - |run.ops|) + (Errors(r.events) - Errors(run.events))
    ensures mode.Unknown? ==> r.ops == run.ops && Errors(r.events) == Errors(run.events)
    decreases |files|
  {
    if files == [] then
      ContinuesRefl(run, mode);
      run
    else
      var f := files[0];
      var p := FolderPattern(folderName, author, index, f);
      var run1 := Attempt(run, mode, faulty, folder, destination, f, p);
      var rest := FolderFiles(files[1..], index + 1, run1, mode, faulty, folder, folderName, destination, author);
      ContinuesTrans(rest, run1, run, mode);
      rest
  }

  /** `rename_images_by_folder_name`: files numbered from 1 in sorted order. */
  function RenameImagesByFolderName(s: Session, folder: string, author: string, mode: Mode,
                                    destination: Option<string>, faulty: set<Path>): (r: (Session, seq<Event>))
    ensures |r.1| >= 2 && r.1[0] == Start(|Listing(s.fs, folder)|) && r.1[|r.1| - 1] == Done
    ensures UndoableBatch(s, r.0, mode)
  {
    var files := Listing(s.fs, folder);
    var run := FolderFiles(files, 1, Run(s.fs, [], [Start(|files|)]), mode, faulty, folder, BaseName(folder),
                           destination, author);
    assert run.ops[0..] == run.ops;
    (Finish(s, mode, run), run.events + [Done])
  }

  /** The patterns of the files `files`, numbered from `index`. */
  function FolderPatterns(folderName: string, author: string, index: nat, files: seq<string>): (ps: seq<Pattern>)
    ensures |ps| == |files|
    decreases |files|
  {
    if files == [] then []
    else [FolderPattern(folderName, author, index, files[0])] + FolderPatterns(folderName, author, index + 1, files[1..])
  }

  /** `{folder} by {author} {index}{ext}`, the extension lower-cased: the first name tried for the `index`-th file. */
  function FolderName(folderName: string, author: string, index: nat, filename: string): string {
    folderName + " by " + author + " " + NatStr(index) + Lower(SplitExt(filename).1)
  }

  /** The first names of the files `files`, numbered from `index`. */
  function FolderNames(folderName: string, author: string, index: nat, files: seq<string>): (names: seq<string>)
    ensures |names| == |files|
    decreases |files|
  {
    if files == [] then []
    else [FolderName(folderName, author, index, files[0])] + FolderNames(folderName, author, index + 1, files[1..])
  }

  /** Files at different positions get different first names, whatever their extensions. */
  lemma FolderNameInjective(folderName: string, author: string, a: nat, f1: string, b: nat, f2: string)
    ensures FolderName(folderName, author, a, f1) == FolderName(folderName, author, b, f2) ==> a == b
  {
    var pre := folderName + " by " + author + " ";
    var e1 := Lower(SplitExt(f1).1);
    var e2 := Lower(SplitExt(f2).1);
    LowerExt(SplitExt(f1).1);
    LowerExt(SplitExt(f2).1);
    var x := NatStr(a) + e1;
    var y := NatStr(b) + e2;
    assert FolderName(folderName, author, a, f1) == pre + x;
    assert FolderName(folderName, author, b, f2) == pre + y;
    assert (pre + x)[|pre|..] == x && (pre + y)[|pre|..] == y;
    NumeralExtInjective(a, e1, b, e2);
  }

  /** The `j`-th first name is the one numbered `index + j`. */
  lemma {:induction false} FolderNamesAt(folderName: string, author: string, index: nat, files: seq<string>)
    ensures forall j :: 0 <= j < |files| ==>
              FolderNames(folderName, author, index, files)[j] == FolderName(folderName, author, index + j, files[j])
    decreases |files|
  {
    if files != [] {
      FolderNamesAt(folderName, author, index + 1, files[1..]);
    }
  }

  /** The first names of a folder's files never clash with each other. */
  lemma FolderNamesDistinct(folderName: string, author: string, index: nat, files: seq<string>)
    ensures Distinct(FolderNames(folderName, author, index, files))
  {
    var names := FolderNames(folderName, author, index, files);
    FolderNamesAt(folderName, author, index, files);
    forall i, j | 0 <= i < j < |names| ensures names[i] != names[j] {
      assert names[i] == FolderName(folderName, author, index + i, files[i]);
      assert names[j] == FolderName(folderName, author, index + j, files[j]);
      FolderNameInjective(folderName, author, index + i, files[i], index + j, files[j]);
    }
  }

  /** The loop attempts its first file with the pattern of its position, then goes on with the next number. */
  lemma FolderFilesStep(files: seq<string>, index: nat, run: Run, mode: Mode, faulty: set<Path>, folder: string,
                        folderName: string, destination: Option<string>, author: string)
    requires files != []
    ensures var p := FolderPattern(folderName, author, index, files[0]);
            var run1 := Attempt(run, mode, faulty, folder, destination, files[0], p);
            FolderFiles(files, index, run, mode, faulty, folder, folderName, destination, author)
              == FolderFiles(files[1..], index + 1, run1, mode, faulty, folder, folderName, destination, author)
    ensures FolderPatterns(folderName, author, index, files)
         == [FolderPattern(folderName, author, index, files[0])] + FolderPatterns(folderName, author, index + 1, files[1..])
    ensures FolderNames(folderName, author, index, files)
         == [FolderName(folderName, author, index, files[0])] + FolderNames(folderName, author, index + 1, files[1..])
    ensures FolderPattern(folderName, author, index, files[0]).bare == Some(FolderName(folderName, author, index, files[0]))
  {
  }

  /**
   With every file present and none failing, the folder-name loop makes one
   record per file, in order, the `k`-th (counting from `index`) keeping
   its file as original (none for Copy) and named
   `{folder} by {author} {k}{ext}` or `{folder} by {author} {k}_{n}{ext}`
   in the target directory.
   */
  lemma {:induction false} FolderNumbered(files: seq<string>, index: nat, run: Run, mode: Mode, faulty: set<Path>,
                                          folder: string, folderName: string, destination: Option<string>,
                                          author: string)
    requires !mode.Unknown? && Ready(files, run.fs, folder, faulty)
    ensures var r := FolderFiles(files, index, run, mode, faulty, folder, folderName, destination, author);
            NamedAll(r.ops[|run.ops|..], mode, folder, destination, files,
                     FolderPatterns(folderName, author, index, files))
    decreases |files|
  {
    if files == [] {
      assert run.ops[|run.ops|..] == [];
    } else {
      FolderNumberedStep(files, index, run, mode, faulty, folder, folderName, destination, author);
    }
  }

  lemma {:induction false} FolderNumberedStep(files: seq<string>, index: nat, run: Run, mode: Mode, faulty: set<Path>,
                                              folder: string, folderName: string, destination: Option<string>,
                                              author: string)
    requires !mode.Unknown? && Ready(files, run.fs, folder, faulty) && files != []
    ensures var r := FolderFiles(files, index, run, mode, faulty, folder, folderName, destination, author);
            NamedAll(r.ops[|run.ops|..], mode, folder, destination, files,
                     FolderPatterns(folderName, author, index, files))
    decreases |files|, 0
  {
    var p := FolderPattern(folderName, author, index, files[0]);
    var run1 := Attempt(run, mode, faulty, folder, destination, files[0], p);
    AttemptReady(files, run, mode, faulty, folder, destination, p);
    FolderNumbered(files[1..], index + 1, run1, mode, faulty, folder, folderName, destination, author);
    FolderFilesStep(files, index, run, mode, faulty, folder, folderName, destination, author);
    HeadTail(files);
    NamedAllCons(run.ops, run1.ops,
                 FolderFiles(files[1..], index + 1, run1, mode, faulty, folder, folderName, destination, author).ops,
                 mode, folder, destination, files[0], p, files[1..],
                 FolderPatterns(folderName, author, index + 1, files[1..]));
  }

  /**
   Renaming or moving, with every file present and none failing, and the
   first names `{folder} by {author} {k}{ext}` free and different from each
   other: the `k`-th file is moved to its first name; afterwards each
   file's content is at its new name, its old name is gone, and every other
   path is as it was.
   */
  lemma {:induction false} FolderBare(files: seq<string>, index: nat, run: Run, mode: Mode, faulty: set<Path>,
                                      folder: string, folderName: string, destination: Option<string>, author: string)
    requires mode == Rename || mode == Move
    requires Ready(files, run.fs, folder, faulty)
    requires Fresh(FolderNames(folderName, author, index, files), TargetDir(mode, folder, destination), run.fs)
    ensures var r := FolderFiles(files, index, run, mode, faulty, folder, folderName, destination, author);
            var recs := Renamed(FolderNames(folderName, author, index, files), TargetDir(mode, folder, destination),
                                folder, files);
            r.ops == run.ops + recs && Moved(run.fs, r.fs, recs)
    decreases |files|
  {
    if files == [] {
      assert run.ops + [] == run.ops;
    } else {
      FolderBareStep(files, index, run, mode, faulty, folder, folderName, destination, author);
    }
  }

  lemma {:induction false} FolderBareStep(files: seq<string>, index: nat, run: Run, mode: Mode, faulty: set<Path>,
                                          folder: string, folderName: string, destination: Option<string>,
                                          author: string)
    requires mode == Rename || mode == Move
    requires Ready(files, run.fs, folder, faulty) && files != []
    requires Fresh(FolderNames(folderName, author, index, files), TargetDir(mode, folder, destination), run.fs)
    ensures var r := FolderFiles(files, index, run, mode, faulty, folder, folderName, destination, author);
            var recs := Renamed(FolderNames(folderName, author, index, files), TargetDir(mode, folder, destination),
                                folder, files);
            r.ops == run.ops + recs && Moved(run.fs, r.fs, recs)
    decreases |files|, 0
  {
    var d := TargetDir(mode, folder, destination);
    var f := files[0];
    var name := FolderName(folderName, author, index, f);
    var names := FolderNames(folderName, author, index + 1, files[1..]);
    var p := FolderPattern(folderName, author, index, f);
    var run1 := Attempt(run, mode, faulty, folder, destination, f, p);
    FolderFilesStep(files, index, run, mode, faulty, folder, folderName, destination, author);
    AttemptBare(run, mode, faulty, folder, destination, f, p);
    FreshAfter([name] + names, d, run.fs, Path(folder, f));
    ReadyAfter(files, run.fs, folder, faulty, Path(d, name));
    FolderBare(files[1..], index + 1, run1, mode, faulty, folder, folderName, destination, author);
    var r := FolderFiles(files[1..], index + 1, run1, mode, faulty, folder, folderName, destination, author);
    HeadTail(files);
    MovedRenamedCons(run.fs, run1.fs, r.fs, d, folder, name, f, names, files[1..]);
    ConcatAssoc(run.ops, [Record(Path(d, name), Some(Path(folder, f)))], Renamed(names, d, folder, files[1..]));
  }

  /**
   `rename_images_by_folder_name` over a folder whose files do not fail, in
   any known mode: the batch pushed (when there are files) holds one record
   per file in sorted order, the `k`-th named `{folder} by {author} {k}{ext}`
   or `{folder} by {author} {k}_{n}{ext}` after it.
   */
  lemma FolderStrategyNames(s: Session, folder: string, author: string, mode: Mode,
                            destination: Option<string>, faulty: set<Path>)
    requires !mode.Unknown?
    requires forall f :: f in Listing(s.fs, folder) ==> Path(folder, f) !in faulty
    ensures var files := Listing(s.fs, folder);
            var r := RenameImagesByFolderName(s, folder, author, mode, destination, faulty).0;
            files != [] ==>
              && |r.undoStack| == |s.undoStack| + 1
              && NamedAll(r.undoStack[|s.undoStack|].ops, mode, folder, destination, files,
                          FolderPatterns(BaseName(folder), author, 1, files))
  {
    var files := Listing(s.fs, folder);
    var start := Run(s.fs, [], [Start(|files|)]);
    FolderNumbered(files, 1, start, mode, faulty, folder, BaseName(folder), destination, author);
    var run := FolderFiles(files, 1, start, mode, faulty, folder, BaseName(folder), destination, author);
    assert run.ops[0..] == run.ops;
  }

  /**
   `rename_images_by_folder_name` renaming or moving the files of a folder,
   none failing, when every first name `{folder} by {author} {k}{ext}` is
   free: the `k`-th file in sorted order ends at its first name with its
   content, its old name is gone, every other path is as it was, and the
   batch pushed holds exactly these moves.
   */
  lemma FolderStrategyBare(s: Session, folder: string, author: string, mode: Mode,
                           destination: Option<string>, faulty: set<Path>)
    requires mode == Rename || mode == Move
    requires forall f :: f in Listing(s.fs, folder) ==> Path(folder, f) !in faulty
    requires forall n :: n in FolderNames(BaseName(folder), author, 1, Listing(s.fs, folder)) ==>
               Path(TargetDir(mode, folder, destination), n) !in s.fs
    ensures var files := Listing(s.fs, folder);
            var recs := Renamed(FolderNames(BaseName(folder), author, 1, files), TargetDir(mode, folder, destination),
                                folder, files);
            var r := RenameImagesByFolderName(s, folder, author, mode, destination, faulty).0;
            && Moved(s.fs, r.fs, recs)
            && r.undoStack == if files == [] then s.undoStack else s.undoStack + [BatchEntry(mode, recs)]
  {
    var files := Listing(s.fs, folder);
    var start := Run(s.fs, [], [Start(|files|)]);
    FolderNamesDistinct(BaseName(folder), author, 1, files);
    FolderBare(files, 1, start, mode, faulty, folder, BaseName(folder), destination, author);
    var run := FolderFiles(files, 1, start, mode, faulty, folder, BaseName(folder), destination, author);
    assert run.ops[0..] == run.ops;
    assert [] + run.ops == run.ops;
  }

  /**
   The `index`-th file goes to `{folder} by {author} {index}{ext}` when that
   is free, and otherwise to `{folder} by {author} {index}_{n}{ext}` for the
   least free n >= 1.
   */
  lemma FolderTarget(fs: FS, dir: string, folderName: string, author: string, index: nat, filename: string)
    ensures var p := FolderPattern(folderName, author, index, filename);
            var base := folderName + " by " + author + " " + NatStr(index);
            var ext := Lower(SplitExt(filename).1);
            && (Path(dir, base + ext) !in fs ==> Target(fs, dir, p) == Path(dir, base + ext))
            && (Path(dir, base + ext) in fs ==>
                  exists n :: n >= 1 && Target(fs, dir, p) == Path(dir, base + "_" + NatStr(n) + ext) &&
                              forall i :: 1 <= i < n ==> Path(dir, base + "_" + NatStr(i) + ext) in fs)
  {
    var p := FolderPattern(folderName, author, index, filename);
    BareFirst(fs, dir, p);
    if Path(dir, p.bare.value) in fs {
      var n :| n >= 1 && Target(fs, dir, p) == Path(dir, Numbered(p, n)) &&
               forall i :: 1 <= i < n ==> Path(dir, Numbered(p, i)) in fs;
      assert forall i :: Numbered(p, i) == p.stem + "_" + NatStr(i) + p.ext;
      assert Target(fs, dir, p) == Path(dir, p.stem + "_" + NatStr(n) + p.ext);
    }
  }

  // ---------------------------------------------------------------------
  // Character match: rename_images_by_character_name
  // ---------------------------------------------------------------------

  /** `f' by {author_name}' if author_name else ''`. */
  function AuthorPart(author: string): string {
    if author == [] then [] else " by " + author
  }

  /**
   The names tried for a file matched by `word`: `{word}{author part} {n}{ext}`
   from n = 1, the word's capitalisation and the extension's case kept.
   */
  function CharPattern(word: string, author: string, filename: string): (p: Pattern)
    ensures First(p) == 1
  {
    Pattern(None, word + AuthorPart(author), " ", SplitExt(filename).1)
  }

  /** `word.lower() in filename.lower()`. */
  predicate Matches(word: string, filename: string) {
    Contains(Lower(filename), Lower(word))
  }

  /** The first word of the list, in list order, that occurs in the file name, ignoring case. */
  function FirstMatch(words: seq<string>, filename: string): (r: Option<nat>)
    ensures r.Some? ==> r.value < |words| && Matches(words[r.value], filename)
    ensures forall i :: 0 <= i < |words| && (r.None? || i < r.value) ==> !Matches(words[i], filename)
  {
    if words == [] then None
    else if Matches(words[0], filename) then Some(0)
    else
      match FirstMatch(words[1..], filename)
      case None => None
      case Some(i) => Some(i + 1)
  }

  /** How many words of the list occur in the file name, ignoring case. */
  function MatchCount(words: seq<string>, filename: string): (n: nat)
    ensures n <= |words|
    ensures n == 0 <==> FirstMatch(words, filename).None?
  {
    if words == [] then 0
    else MatchCount(words[1..], filename) + (if Matches(words[0], filename) then 1 else 0)
  }

  /**
   The inner `for word in character_names` loop. A matching word is tried;
   success ends the loop, while a failure (`continue`) goes on to the next
   matching word, and so does the unknown mode. Reports whether some word
   succeeded.
   */
  function MatchWords(words: seq<string>, run: Run, mode: Mode, faulty: set<Path>, folder: string,
                      destination: Option<string>, author: string, filename: string): (r: (Run, bool))
    ensures Continues(r.0, run, mode)
    ensures r.1 <==> |r.0.ops| == |run.ops| + 1
    ensures !r.1 ==> r.0.ops == run.ops
    ensures Updates(r.0.events) == Updates(run.events)
    ensures mode.Unknown? ==> r == (run, false)
    ensures !mode.Unknown? && (Path(folder, filename) !in run.fs || Path(folder, filename) in faulty) ==>
              && !r.1 && r.0.fs == run.fs
              && Errors(r.0.events) == Errors(run.events) + MatchCount(words, filename)
    ensures KeepsOthers(run.fs, r.0.fs, Path(folder, filename))
    decreases |words|
  {
    if words == [] then
      ContinuesRefl(run, mode);
      (run, false)
    else if Matches(words[0], filename) then
      var (run1, t) := TryOne(run, mode, faulty, folder, destination, filename, CharPattern(words[0], author, filename));
      if t == Succeeded then
        MoveCopyKeep(run.fs, Path(folder, filename),
                     Target(run.fs, TargetDir(mode, folder, destination), CharPattern(words[0], author, filename)));
        (run1, true)
      else
        CountAppend(run.events, [Error(filename)]);
        var rest := MatchWords(words[1..], run1, mode, faulty, folder, destination, author, filename);
        ContinuesTrans(rest.0, run1, run, mode);
        rest
    else
      MatchWords(words[1..], run, mode, faulty, folder, destination, author, filename)
  }

  /**
   When the operation on the file cannot fail, the word used is the first
   match in list order, and the file is left to the prompt exactly when no
   word matches.
   */
  lemma {:induction false} MatchWordsFirst(words: seq<string>, run: Run, mode: Mode, faulty: set<Path>, folder: string,
                                           destination: Option<string>, author: string, filename: string)
    requires !mode.Unknown? && Path(folder, filename) in run.fs && Path(folder, filename) !in faulty
    ensures var r := MatchWords(words, run, mode, faulty, folder, destination, author, filename);
            && (r.1 <==> FirstMatch(words, filename).Some?)
            && (r.1 ==>
                  var w := words[FirstMatch(words, filename).value];
                  var dst := Target(run.fs, TargetDir(mode, folder, destination), CharPattern(w, author, filename));
                  r.0.ops == run.ops + [Record(dst, if mode == Copy then None else Some(Path(folder, filename)))])
    decreases |words|
  {
    if words != [] && Matches(words[0], filename) {
      MatchWordsHead(words, run, mode, faulty, folder, destination, author, filename);
    } else if words != [] {
      MatchWordsFirst(words[1..], run, mode, faulty, folder, destination, author, filename);
      MatchWordsSkip(words, run, mode, faulty, folder, destination, author, filename);
    }
  }

  /** When no word matches, the words leave the run as it was and report no success. */
  lemma {:induction false} MatchWordsNone(words: seq<string>, run: Run, mode: Mode, faulty: set<Path>, folder: string,
                                          destination: Option<string>, author: string, filename: string)
    ensures FirstMatch(words, filename).None? ==>
              MatchWords(words, run, mode, faulty, folder, destination, author, filename) == (run, false)
    decreases |words|
  {
    if words != [] && !Matches(words[0], filename) {
      MatchWordsNone(words[1..], run, mode, faulty, folder, destination, author, filename);
    }
  }

  /** A matching first word is the word used, when the operation cannot fail. */
  lemma MatchWordsHead(words: seq<string>, run: Run, mode: Mode, faulty: set<Path>, folder: string,
                       destination: Option<string>, author: string, filename: string)
    requires words != [] && Matches(words[0], filename)
    requires !mode.Unknown? && Path(folder, filename) in run.fs && Path(folder, filename) !in faulty
    ensures FirstMatch(words, filename) == Some(0)
    ensures MatchWords(words, run, mode, faulty, folder, destination, author, filename)
         == (TryOne(run, mode, faulty, folder, destination, filename, CharPattern(words[0], author, filename)).0, true)
  {
  }

  /** A first word that does not match is passed over. */
  lemma MatchWordsSkip(words: seq<string>, run: Run, mode: Mode, faulty: set<Path>, folder: string,
                       destination: Option<string>, author: string, filename: string)
    requires words != [] && !Matches(words[0], filename)
    ensures MatchWords(words, run, mode, faulty, folder, destination, author, filename)
         == MatchWords(words[1..], run, mode, faulty, folder, destination, author, filename)
    ensures FirstMatch(words, filename).None? <==> FirstMatch(words[1..], filename).None?
    ensures FirstMatch(words, filename).Some? ==>
              && FirstMatch(words, filename).value == FirstMatch(words[1..], filename).value + 1
              && words[FirstMatch(words, filename).value] == words[1..][FirstMatch(words[1..], filename).value]
  {
  }

  /** Some word matches and the operation cannot fail: the file is handled by a word. */
  lemma MatchedWhenSafe(words: seq<string>, run: Run, mode: Mode, faulty: set<Path>, folder: string,
                        destination: Option<string>, author: string, filename: string)
    ensures FirstMatch(words, filename).Some? && !mode.Unknown? &&
            Path(folder, filename) in run.fs && Path(folder, filename) !in faulty ==>
              MatchWords(words, run, mode, faulty, folder, destination, author, filename).1
  {
    if !mode.Unknown? && Path(folder, filename) in run.fs && Path(folder, filename) !in faulty {
      MatchWordsFirst(words, run, mode, faulty, folder, destination, author, filename);
    }
  }

  /** The user's answer to "add a new character name?" and then to "enter the name". */
  datatype Answer = Declined | Entered(name: string)

  /**
   State of the character loop. `names` is the function's own
   `character_names`; `caller` is the list the caller passed in. The two are
   one list until the first added name, after which `names` is rebound to a
   sorted copy (`rebound`) and later additions no longer reach the caller.
   */
  datatype CharRun = CharRun(run: Run, names: seq<string>, caller: seq<string>, rebound: bool)

  /**
   The list of names stays consistent: before the first addition the
   function's list is the caller's; afterwards it is sorted and holds every
   name the caller's list holds.
   */
  predicate Consistent(st: CharRun) {
    && multiset(st.caller) <= multiset(st.names)
    && (!st.rebound ==> st.caller == st.names)
    && (st.rebound ==> Sorted(st.names))
  }

  /**
   How the lists change over part of the loop: the function's list only
   grows, strictly once a name was added; the caller's list gets at most
   one name, the first one added, and nothing after the rebinding.
   */
  predicate NamesGrow(r: CharRun, st: CharRun) {
    && multiset(st.names) <= multiset(r.names)
    && (r.rebound && !st.rebound ==> multiset(st.names) < multiset(r.names))
    && (st.rebound ==> r.rebound && r.caller == st.caller)
    && (!r.rebound ==> r.caller == st.caller && r.names == st.names)
    && (r.caller == st.caller || (!st.rebound && |r.caller| == |st.caller| + 1 && r.caller[..|st.caller|] == st.caller))
  }

  lemma NamesGrowTrans(c: CharRun, b: CharRun, a: CharRun)
    requires NamesGrow(c, b) && NamesGrow(b, a)
    ensures NamesGrow(c, a)
  {
  }

  /** Appending an accepted name, then `character_names = sorted(character_names)`. */
  function AddName(st: CharRun, name: string): (r: CharRun)
    ensures multiset(r.names) == multiset(st.names) + multiset{name}
    ensures Sorted(r.names) && r.rebound
    ensures r.caller == if st.rebound then st.caller else st.caller + [name]
    ensures r.run == st.run
    ensures Consistent(st) ==> Consistent(r)
    ensures NamesGrow(r, st)
  {
    CharRun(st.run, Sort(st.names + [name]), if st.rebound then st.caller else st.caller + [name], true)
  }

  /** A new run does not change the lists. */
  lemma RunOnly(st: CharRun, run: Run)
    ensures NamesGrow(st.(run := run), st)
    ensures Consistent(st) ==> Consistent(st.(run := run))
  {
  }

  /** A file left alone: one update, nothing else changes. */
  lemma LeftAlone(st: CharRun, mode: Mode)
    ensures var r := st.(run := Tick(st.run));
            && Continues(r.run, st.run, mode)
            && r.run.ops == st.run.ops
            && Updates(r.run.events) == Updates(st.run.events) + 1
            && NamesGrow(r, st)
            && (Consistent(st) ==> Consistent(r))
  {
    TickContinues(st.run, st.run, mode);
    RunOnly(st, Tick(st.run));
  }

  /** Nor does it change what adding a name did to them. */
  lemma AddNameRunOnly(st: CharRun, name: string, run: Run)
    ensures NamesGrow(AddName(st, name).(run := run), st)
    ensures Consistent(st) ==> Consistent(AddName(st, name).(run := run))
  {
    var a := AddName(st, name);
    assert NamesGrow(a, st);
  }

  /** The default offered in the name dialog: `os.path.splitext(filename)[0].strip()`. */
  function Suggestion(filename: string): string {
    Strip(SplitExt(filename).0)
  }

  /**
   A name the user entered: it is added to the list, then used for the
   file with `{name}{author part} {n}{ext}`, with one update only if that
   succeeds.
   */
  function UseEntered(st: CharRun, name: string, filename: string, mode: Mode, faulty: set<Path>, folder: string,
                      destination: Option<string>, author: string): (r: CharRun)
    ensures Continues(r.run, st.run, mode)
    ensures |r.run.ops| == |st.run.ops| + 1 <==>
              !mode.Unknown? && Path(folder, filename) in st.run.fs && Path(folder, filename) !in faulty
    ensures |r.run.ops| == |st.run.ops| || |r.run.ops| == |st.run.ops| + 1
    ensures |r.run.ops| == |st.run.ops| ==> r.run.ops == st.run.ops && r.run.fs == st.run.fs
    ensures Updates(r.run.events) == Updates(st.run.events) + (|r.run.ops| - |st.run.ops|)
    ensures |r.run.ops| == |st.run.ops| + 1 ==>
              var dst := Target(st.run.fs, TargetDir(mode, folder, destination), CharPattern(name, author, filename));
              r.run.ops == st.run.ops + [Record(dst, if mode == Copy then None else Some(Path(folder, filename)))]
    ensures KeepsOthers(st.run.fs, r.run.fs, Path(folder, filename))
    ensures r == AddName(st, name).(run := r.run)
    ensures NamesGrow(r, st)
    ensures Consistent(st) ==> Consistent(r)
  {
    var run1 := Attempt(st.run, mode, faulty, folder, destination, filename, CharPattern(name, author, filename));
    AddNameRunOnly(st, name, run1);
    AddName(st, name).(run := run1)
  }

  /**
   A file no word handled: the user is asked. A decline, an empty name or a
   cancelled dialog leaves the file alone with one update; an entered name
   is added to the list and then used.
   */
  function Prompted(st: CharRun, filename: string, mode: Mode, faulty: set<Path>, folder: string,
                    destination: Option<string>, author: string, ask: (string, string) -> Answer): (r: CharRun)
    ensures Continues(r.run, st.run, mode)
    ensures |r.run.ops| <= |st.run.ops| + 1
    ensures Updates(r.run.events) == Updates(st.run.events) + 1 ||
            (Updates(r.run.events) == Updates(st.run.events) && r.run.ops == st.run.ops)
    ensures var a := ask(filename, Suggestion(filename));
            (a.Declined? || a == Entered([])) ==>
              && r.names == st.names && r.caller == st.caller && r.rebound == st.rebound
              && r.run.ops == st.run.ops && r.run.fs == st.run.fs
              && Updates(r.run.events) == Updates(st.run.events) + 1
    ensures var a := ask(filename, Suggestion(filename));
            a.Entered? && a.name != [] ==>
              && r == AddName(st, a.name).(run := r.run)
              && (|r.run.ops| == |st.run.ops| + 1 <==>
                    !mode.Unknown? && Path(folder, filename) in st.run.fs && Path(folder, filename) !in faulty)
              && Updates(r.run.events) == Updates(st.run.events) + (|r.run.ops| - |st.run.ops|)
              && (|r.run.ops| == |st.run.ops| + 1 ==>
                    var dst := Target(st.run.fs, TargetDir(mode, folder, destination),
                                      CharPattern(a.name, author, filename));
                    r.run.ops == st.run.ops + [Record(dst, if mode == Copy then None else Some(Path(folder, filename)))])
    ensures !mode.Unknown? && Path(folder, filename) in st.run.fs && Path(folder, filename) !in faulty ==>
              Updates(r.run.events) == Updates(st.run.events) + 1
    ensures KeepsOthers(st.run.fs, r.run.fs, Path(folder, filename))
    ensures NamesGrow(r, st)
    ensures Consistent(st) ==> Consistent(r)
  {
    var a := ask(filename, Suggestion(filename));
    if a.Entered? && a.name != [] then
      UseEntered(st, a.name, filename, mode, faulty, folder, destination, author)
    else
      LeftAlone(st, mode);
      st.(run := Tick(st.run))
  }

  /**
   One file of `rename_images_by_character_name`: the words are tried in
   list order, and the user is asked only when none of them worked. A file
   that is present and does not fail sends exactly one update, and no other
   file of the folder goes away.
   */
  function CharFile(st: CharRun, filename: string, mode: Mode, faulty: set<Path>, folder: string,
                    destination: Option<string>, author: string, ask: (string, string) -> Answer): (r: CharRun)
    ensures Continues(r.run, st.run, mode)
    ensures |r.run.ops| <= |st.run.ops| + 1
    ensures Updates(r.run.events) == Updates(st.run.events) + 1 ||
            (Updates(r.run.events) == Updates(st.run.events) && r.run.ops == st.run.ops)
    ensures (r.names == st.names && r.caller == st.caller && r.rebound == st.rebound) ||
            var a := ask(filename, Suggestion(filename));
            a.Entered? && a.name != [] && r == AddName(st, a.name).(run := r.run)
    ensures FirstMatch(st.names, filename).Some? && !mode.Unknown? &&
            Path(folder, filename) in st.run.fs && Path(folder, filename) !in faulty ==>
              r.names == st.names && |r.run.ops| == |st.run.ops| + 1
    ensures FirstMatch(st.names, filename).None? ==>
              r == Prompted(st, filename, mode, faulty, folder, destination, author, ask)
    ensures !mode.Unknown? && Path(folder, filename) in st.run.fs && Path(folder, filename) !in faulty ==>
              Updates(r.run.events) == Updates(st.run.events) + 1
    ensures KeepsOthers(st.run.fs, r.run.fs, Path(folder, filename))
    ensures NamesGrow(r, st)
    ensures Consistent(st) ==> Consistent(r)
  {
    MatchWordsNone(st.names, st.run, mode, faulty, folder, destination, author, filename);
    var (run1, matched) := MatchWords(st.names, st.run, mode, faulty, folder, destination, author, filename);
    MatchedWhenSafe(st.names, st.run, mode, faulty, folder, destination, author, filename);
    if matched then
      TickContinues(run1, st.run, mode);
      RunOnly(st, Tick(run1));
      st.(run := Tick(run1))
    else
      AskedAfterWords(st, run1, filename, mode, faulty, folder, destination, author, ask);
      Prompted(st.(run := run1), filename, mode, faulty, folder, destination, author, ask)
  }

  /**
   A file some word matches, present and not failing, in a known mode: it
   gets exactly one record, named with the first matching word's pattern
   (`{word}{author part} {n}{ext}`, the least free n >= 1), and the lists of
   names do not change.
   */
  lemma CharFileMatched(st: CharRun, filename: string, mode: Mode, faulty: set<Path>, folder: string,
                        destination: Option<string>, author: string, ask: (string, string) -> Answer)
    requires !mode.Unknown? && Path(folder, filename) in st.run.fs && Path(folder, filename) !in faulty
    requires FirstMatch(st.names, filename).Some?
    ensures var r := CharFile(st, filename, mode, faulty, folder, destination, author, ask);
            var w := st.names[FirstMatch(st.names, filename).value];
            var dst := Target(st.run.fs, TargetDir(mode, folder, destination), CharPattern(w, author, filename));
            && r.run.ops == st.run.ops + [Record(dst, if mode == Copy then None else Some(Path(folder, filename)))]
            && r.names == st.names && r.caller == st.caller
  {
    MatchWordsFirst(st.names, st.run, mode, faulty, folder, destination, author, filename);
  }

  /**
   A file no word matches, present and not failing, in a known mode, for
   which the user enters a name: the name joins the list (and the caller's,
   before the first rebinding), the file gets exactly one record named
   `{name}{author part} {n}{ext}` with one update, and from then on every
   file containing the name matches a word of the list.
   */
  lemma CharFileEntered(st: CharRun, filename: string, mode: Mode, faulty: set<Path>, folder: string,
                        destination: Option<string>, author: string, ask: (string, string) -> Answer)
    requires !mode.Unknown? && Path(folder, filename) in st.run.fs && Path(folder, filename) !in faulty
    requires FirstMatch(st.names, filename).None?
    requires ask(filename, Suggestion(filename)).Entered? && ask(filename, Suggestion(filename)).name != []
    ensures var name := ask(filename, Suggestion(filename)).name;
            var r := CharFile(st, filename, mode, faulty, folder, destination, author, ask);
            var dst := Target(st.run.fs, TargetDir(mode, folder, destination), CharPattern(name, author, filename));
            && name in r.names && Sorted(r.names)
            && r.caller == (if st.rebound then st.caller else st.caller + [name])
            && r.run.ops == st.run.ops + [Record(dst, if mode == Copy then None else Some(Path(folder, filename)))]
            && Updates(r.run.events) == Updates(st.run.events) + 1
            && forall g :: Matches(name, g) ==> FirstMatch(r.names, g).Some?
  {
    var name := ask(filename, Suggestion(filename)).name;
    var r := CharFile(st, filename, mode, faulty, folder, destination, author, ask);
    assert r == Prompted(st, filename, mode, faulty, folder, destination, author, ask);
    assert r.names == AddName(st, name).names && r.caller == AddName(st, name).caller;
    AddedMatches(st, name);
  }

  /** After a name is added, every file containing it matches a word of the list. */
  lemma AddedMatches(st: CharRun, name: string)
    ensures var r := AddName(st, name);
            && name in r.names
            && forall g :: Matches(name, g) ==> FirstMatch(r.names, g).Some?
  {
    var r := AddName(st, name);
    assert name in multiset(r.names);
    forall g | Matches(name, g) ensures FirstMatch(r.names, g).Some? {
      var i :| 0 <= i < |r.names| && r.names[i] == name;
    }
  }

  /** Asking the user after no word worked, seen from before the words were tried. */
  lemma AskedAfterWords(st: CharRun, run1: Run, filename: string, mode: Mode, faulty: set<Path>, folder: string,
                        destination: Option<string>, author: string, ask: (string, string) -> Answer)
    requires Continues(run1, st.run, mode) && run1.ops == st.run.ops
    requires Updates(run1.events) == Updates(st.run.events)
    ensures var r := Prompted(st.(run := run1), filename, mode, faulty, folder, destination, author, ask);
            && Continues(r.run, st.run, mode)
            && |r.run.ops| <= |st.run.ops| + 1
            && (Updates(r.run.events) == Updates(st.run.events) + 1 ||
                (Updates(r.run.events) == Updates(st.run.events) && r.run.ops == st.run.ops))
            && ((r.names == st.names && r.caller == st.caller && r.rebound == st.rebound) ||
                var a := ask(filename, Suggestion(filename));
                a.Entered? && a.name != [] && r == AddName(st, a.name).(run := r.run))
            && NamesGrow(r, st)
            && (Consistent(st) ==> Consistent(r))
  {
    var st1 := st.(run := run1);
    var r := Prompted(st1, filename, mode, faulty, folder, destination, author, ask);
    ContinuesTrans(r.run, run1, st.run, mode);
    RunOnly(st, run1);
    NamesGrowTrans(r, st1, st);
  }

  /**
   The loop of `rename_images_by_character_name` over the sorted files: at
   most one record per file, and when every file is present and none fails,
   exactly one progress update per file.
   */
  function CharFiles(files: seq<string>, st: CharRun, mode: Mode, faulty: set<Path>, folder: string,
                     destination: Option<string>, author: string, ask: (string, string) -> Answer): (r: CharRun)
    requires Consistent(st)
    ensures Continues(r.run, st.run, mode)
    ensures |r.run.ops| <= |st.run.ops| + |files|
    ensures !mode.Unknown? && Ready(files, st.run.fs, folder, faulty) ==>
              Updates(r.run.events) == Updates(st.run.events) + |files|
    ensures Consistent(r)
    ensures NamesGrow(r, st)
    decreases |files|
  {
    if files == [] then
      ContinuesRefl(st.run, mode);
      st
    else
      var st1 := CharFile(st, files[0], mode, faulty, folder, destination, author, ask);
      assert Ready(files, st.run.fs, folder, faulty) ==> Ready(files[1..], st1.run.fs, folder, faulty) by {
        if Ready(files, st.run.fs, folder, faulty) {
          ReadyKept(files, st.run.fs, st1.run.fs, folder, faulty);
        }
      }
      var rest := CharFiles(files[1..], st1, mode, faulty, folder, destination, author, ask);
      ContinuesTrans(rest.run, st1.run, st.run, mode);
      NamesGrowTrans(rest, st1, st);
      rest
  }

  /**
   `rename_images_by_character_name` on the files of `folder` (not its
   sub-folders). Returns the session, the progress events, the caller's
   list afterwards, and the list written to the name store if a name was
   added. Only the first added name reaches the caller's list; the stored
   list is sorted and holds all of them.
   */
  function RenameImagesByCharacterName(s: Session, folder: string, author: string, characterNames: seq<string>,
                                       mode: Mode, destination: Option<string>, faulty: set<Path>,
                                       ask: (string, string) -> Answer): (r: (Session, seq<Event>, seq<string>, Option<seq<string>>))
    ensures |r.1| >= 2 && r.1[0] == Start(|Listing(s.fs, folder)|) && r.1[|r.1| - 1] == Done
    ensures UndoableBatch(s, r.0, mode)
    ensures r.2 == characterNames ||
            (|r.2| == |characterNames| + 1 && r.2[..|characterNames|] == characterNames)
    ensures r.3.None? ==> r.2 == characterNames
    ensures r.3.Some? ==> Sorted(r.3.value) && multiset(r.2) <= multiset(r.3.value) &&
                          multiset(characterNames) < multiset(r.3.value)
  {
    var files := Listing(s.fs, folder);
    var start := CharRun(Run(s.fs, [], [Start(|files|)]), characterNames, characterNames, false);
    var st := CharFiles(files, start, mode, faulty, folder, destination, author, ask);
    var run := st.run;
    assert run.ops[0..] == run.ops;
    (Finish(s, mode, run), run.events + [Done], st.caller, if st.rebound then Some(st.names) else None)
  }

  // ---------------------------------------------------------------------
  // prompt_author_choice
  // ---------------------------------------------------------------------

  /**
   The author chosen for a folder: answer "1" keeps the preselected author;
   answer "2" takes the typed word if it is one of the folder name's
   `_`-separated words; anything else, or a cancelled dialog, gives none.
   */
  function PromptAuthorChoice(folderName: string, preselected: Option<string>, choice: Option<string>,
                              word: Option<string>): (r: Option<string>)
    ensures choice == Some("1") ==> r == preselected
    ensures choice == Some("2") ==> (r.Some? <==> word.Some? && word.value in SplitOn(folderName, '_'))
    ensures choice == Some("2") && r.Some? ==> r == word && '_' !in r.value && Contains(folderName, r.value)
    ensures choice != Some("1") && choice != Some("2") ==> r == None
  {
    if choice == Some("1") then preselected
    else if choice == Some("2") then
      var words := SplitOn(folderName, '_');
      if word.Some? && word.value in words then
        var i :| 0 <= i < |words| && words[i] == word.value;
        PartOfJoin(words, '_', i);
        word
      else None
    else None
  }

  /** Each part of a join occurs in the joined string. */
  lemma {:induction false} PartOfJoin(parts: seq<string>, sep: char, i: nat)
    requires i < |parts|
    ensures Contains(JoinWith(parts, sep), parts[i])
    decreases |parts|
  {
    var whole := JoinWith(parts, sep);
    if |parts| == 1 {
      assert IsPrefix(parts[0], whole);
    } else if i == 0 {
      assert whole[..|parts[0]|] == parts[0];
      assert IsPrefix(parts[0], whole);
    } else {
      PartOfJoin(parts[1..], sep, i - 1);
      ContainsAfter(parts[0] + [sep], JoinWith(parts[1..], sep), parts[i]);
    }
  }
}

=== FILE: filesystem.dfy ===
/**
 The part of the operating system the engine touches: a finite map from
 paths to file contents, the four calls it makes on it (`os.path.exists`,
 `os.rename`/`shutil.move`, `shutil.copy2`, `os.remove`) and the sorted
 listing of a directory's files.
 */
module FileSystem {
  import opened Order

  /** `os.path.join(dir, name)`, kept as a pair so distinct pairs are distinct paths. */
  datatype Path = Path(dir: string, name: string)

  type Content = seq<bv8>

  /** Every regular file, by path. Directories are implied by the `dir` of their files. */
  type FS = map<Path, Content>

  /**
   `os.rename(src, dst)` and `shutil.move(src, dst)` on one volume, with
   POSIX semantics: an existing `dst` is replaced, and renaming a path to
   itself changes nothing.
   */
  function MoveFile(fs: FS, src: Path, dst: Path): (r: FS)
    requires src in fs
    ensures dst in r && r[dst] == fs[src]
    ensures src != dst ==> src !in r
    ensures forall p :: p != src && p != dst ==> (p in r <==> p in fs) && (p in r ==> r[p] == fs[p])
  {
    if src == dst then fs else (fs - {src})[dst := fs[src]]
  }

  /** `shutil.copy2(src, dst)`: `dst` gets the content of `src`; nothing else changes. */
  function CopyFile(fs: FS, src: Path, dst: Path): (r: FS)
    requires src in fs
    ensures r.Keys == fs.Keys + {dst}
    ensures r[dst] == fs[src]
    ensures forall p :: p in fs && p != dst ==> r[p] == fs[p]
  {
    fs[dst := fs[src]]
  }

  /** `os.remove(p)`. */
  function RemoveFile(fs: FS, p: Path): (r: FS)
    ensures r.Keys == fs.Keys - {p}
    ensures forall q :: q in r ==> r[q] == fs[q]
  {
    fs - {p}
  }

  /** Moving a file to a free path and back again restores the filesystem. */
  lemma MoveBack(fs: FS, src: Path, dst: Path)
    requires src in fs && dst !in fs
    ensures MoveFile(MoveFile(fs, src, dst), dst, src) == fs
  {
    var there := MoveFile(fs, src, dst);
    var back := MoveFile(there, dst, src);
    assert back.Keys == fs.Keys;
  }

  /** Copying a file to a free path and removing the copy restores the filesystem. */
  lemma CopyBack(fs: FS, src: Path, dst: Path)
    requires src in fs && dst !in fs
    ensures RemoveFile(CopyFile(fs, src, dst), dst) == fs
  {
    assert RemoveFile(CopyFile(fs, src, dst), dst).Keys == fs.Keys;
  }

  /** Moving a file to a free path keeps the number of files. */
  lemma MoveFreshCount(fs: FS, src: Path, dst: Path)
    requires src in fs && dst !in fs
    ensures |MoveFile(fs, src, dst).Keys| == |fs.Keys|
  {
    var r := MoveFile(fs, src, dst);
    assert r.Keys == (fs.Keys - {src}) + {dst};
  }

  /** Moving a file onto another existing file loses one file. */
  lemma MoveOverCount(fs: FS, src: Path, dst: Path)
    requires src in fs && dst in fs && src != dst
    ensures |MoveFile(fs, src, dst).Keys| == |fs.Keys| - 1
  {
    var r := MoveFile(fs, src, dst);
    assert r.Keys == fs.Keys - {src};
  }

  /** A rename or move never adds a file. */
  lemma MoveCount(fs: FS, src: Path, dst: Path)
    requires src in fs
    ensures |MoveFile(fs, src, dst).Keys| <= |fs.Keys|
  {
    if src != dst {
      if dst in fs { MoveOverCount(fs, src, dst); } else { MoveFreshCount(fs, src, dst); }
    }
  }

  /** Of two files, renaming the first onto the second leaves one file with the first's content. */
  lemma MoveOntoOther(a: Path, b: Path, c1: Content, c2: Content)
    requires a != b
    ensures MoveFile(map[a := c1, b := c2], a, b) == map[b := c1]
  {
    var r := MoveFile(map[a := c1, b := c2], a, b);
    assert r.Keys == {b};
  }

  /** Renaming one of two files to a third, free path. */
  lemma MoveFirst(p: Path, q: Path, r: Path, cp: Content, cq: Content)
    requires p != q && q != r && p != r
    ensures MoveFile(map[p := cp, q := cq], p, r) == map[r := cp, q := cq]
  {
    var m := MoveFile(map[p := cp, q := cq], p, r);
    assert m.Keys == {r, q};
  }

  lemma MoveSecond(p: Path, q: Path, r: Path, cp: Content, cq: Content)
    requires p != q && q != r && p != r
    ensures MoveFile(map[p := cp, q := cq], q, r) == map[p := cp, r := cq]
  {
    var m := MoveFile(map[p := cp, q := cq], q, r);
    assert m.Keys == {p, r};
  }

  /** Renaming the only file. */
  lemma MoveOnly(a: Path, b: Path, c: Content)
    requires a != b
    ensures MoveFile(map[a := c], a, b) == map[b := c]
  {
    var r := MoveFile(map[a := c], a, b);
    assert r.Keys == {b};
  }

  /** Every file still to do is distinct, present in the folder, and will not raise. */
  predicate Ready(files: seq<string>, fs: FS, folder: string, faulty: set<Path>) {
    Distinct(files) && forall f :: f in files ==> Path(folder, f) in fs && Path(folder, f) !in faulty
  }

  lemma ReadyTail(files: seq<string>, fs: FS, folder: string, faulty: set<Path>)
    requires files != [] && Ready(files, fs, folder, faulty)
    ensures Ready(files[1..], fs, folder, faulty)
  {
  }

  /** Moving or copying the first file to a free path leaves the other files ready. */
  lemma ReadyAfter(files: seq<string>, fs: FS, folder: string, faulty: set<Path>, dst: Path)
    requires files != [] && Ready(files, fs, folder, faulty) && dst !in fs
    ensures Ready(files[1..], MoveFile(fs, Path(folder, files[0]), dst), folder, faulty)
    ensures Ready(files[1..], CopyFile(fs, Path(folder, files[0]), dst), folder, faulty)
  {
    forall g | g in files[1..] ensures g != files[0] {
      var j :| 0 <= j < |files[1..]| && files[1..][j] == g;
      assert files[j + 1] == g;
    }
  }

  /** Every file of `before` other than `src` is still there in `after`. */
  predicate KeepsOthers(before: FS, after: FS, src: Path) {
    forall p :: p in before && p != src ==> p in after
  }

  /** Moving or copying one file keeps every other file where it was. */
  lemma MoveCopyKeep(fs: FS, src: Path, dst: Path)
    requires src in fs
    ensures KeepsOthers(fs, MoveFile(fs, src, dst), src)
    ensures KeepsOthers(fs, CopyFile(fs, src, dst), src)
  {
  }

  /** Whatever happens to the first file, the others stay ready while the rest of the folder is kept. */
  lemma ReadyKept(files: seq<string>, fs: FS, fs': FS, folder: string, faulty: set<Path>)
    requires files != [] && Ready(files, fs, folder, faulty) && KeepsOthers(fs, fs', Path(folder, files[0]))
    ensures Ready(files[1..], fs', folder, faulty)
  {
    forall g | g in files[1..] ensures g != files[0] {
      var j :| 0 <= j < |files[1..]| && files[1..][j] == g;
      assert files[j + 1] == g;
    }
  }

  /** The names differ from each other and none is taken in `dir`. */
  predicate Fresh(names: seq<string>, dir: string, fs: FS) {
    Distinct(names) && forall n :: n in names ==> Path(dir, n) !in fs
  }

  /** Moving or copying a file to the first fresh name leaves the other names fresh. */
  lemma FreshAfter(names: seq<string>, dir: string, fs: FS, src: Path)
    requires names != [] && Fresh(names, dir, fs) && src in fs
    ensures Fresh(names[1..], dir, MoveFile(fs, src, Path(dir, names[0])))
    ensures Fresh(names[1..], dir, CopyFile(fs, src, Path(dir, names[0])))
  {
    forall n | n in names[1..] ensures n != names[0] {
      var j :| 0 <= j < |names[1..]| && names[1..][j] == n;
      assert names[j + 1] == n;
    }
  }

  /** Every file outside the directories `dirs` is as it was. */
  ghost predicate SameOutside(a: FS, b: FS, dirs: set<string>) {
    forall p: Path :: p.dir !in dirs ==> (p in a <==> p in b) && (p in a ==> a[p] == b[p])
  }

  /** A move inside the directories `dirs` changes nothing outside them. */
  lemma MoveWithin(fs: FS, src: Path, dst: Path, dirs: set<string>)
    requires src in fs && src.dir in dirs && dst.dir in dirs
    ensures SameOutside(fs, MoveFile(fs, src, dst), dirs)
  {
  }

  lemma SameOutsideTrans(a: FS, b: FS, c: FS, dirs: set<string>)
    requires SameOutside(a, b, dirs) && SameOutside(b, c, dirs)
    ensures SameOutside(a, c, dirs)
  {
  }

  /** Growing the set of directories keeps the files outside all of them unchanged. */
  lemma SameOutsideWiden(a: FS, b: FS, dirs: set<string>, more: set<string>)
    requires SameOutside(a, b, dirs) && dirs <= more
    ensures SameOutside(a, b, more)
  {
  }

  /** The names of the files directly inside `dir`. */
  function NamesIn(fs: FS, dir: string): set<string> {
    set p | p in fs && p.dir == dir :: p.name
  }

  /**
   `sorted(f for f in os.listdir(dir) if os.path.isfile(os.path.join(dir, f)))`:
   every file of `dir` once, in ascending order.
   */
  function Listing(fs: FS, dir: string): (r: seq<string>)
    ensures Sorted(r) && Distinct(r)
    ensures |r| == |NamesIn(fs, dir)|
    ensures forall name :: name in r <==> Path(dir, name) in fs
  {
    var names := NamesIn(fs, dir);
    assert forall name :: Path(dir, name) in fs ==> name in names;
    SortedElements(names)
  }

  /** A folder holding two files lists them in order. */
  lemma ListingTwo(dir: string, a: string, b: string, c1: Content, c2: Content)
    requires a != b && LexLe(a, b)
    ensures Listing(map[Path(dir, a) := c1, Path(dir, b) := c2], dir) == [a, b]
  {
    var fs := map[Path(dir, a) := c1, Path(dir, b) := c2];
    assert forall x :: x in [a, b] <==> x in NamesIn(fs, dir) by {
      assert NamesIn(fs, dir) == {a, b};
    }
    SortedElementsOf(NamesIn(fs, dir), [a, b]);
  }
}

=== FILE: gui.dfy ===
/**
 The name lists of the main window (src/gui.py): adding and deleting an
 author or a character name, and "Undo Delete", which shares the undo stack
 with the naming engine's batches.
 */
module Gui {
  import opened Wrappers
  import opened Text
  import opened Order
  import opened Ledger
  import opened Store

  /**
   The window's state: the session (files, undo stack, Undo button), the
   two name lists the combo boxes show, the record loaded from the data file
   at start-up (`self.data`), and the data file's current contents.
   */
  datatype App = App(session: Session, authors: seq<string>, characterNames: seq<string>,
                     data: Data, file: Data)

  function Names(a: App, k: NameKind): seq<string> {
    if k == AuthorName then a.authors else a.characterNames
  }

  function WithNames(a: App, k: NameKind, xs: seq<string>): (r: App)
    ensures Names(r, k) == xs && Names(r, Other(k)) == Names(a, Other(k))
    ensures r.session == a.session && r.data == a.data && r.file == a.file
  {
    if k == AuthorName then a.(authors := xs) else a.(characterNames := xs)
  }

  /** What the user is shown after Add or Delete. */
  datatype Outcome =
    | Done(name: string)
    | StoreRefused(name: string)
    | Invalid

  /**
   `add_author` / `add_character_name`: the entry is stripped; an empty name
   or one already in the list is rejected; otherwise the store is asked to
   add it, and only when it reports success is the name put in the list,
   which is then sorted.
   */
  function AddName(a: App, k: NameKind, entry: string): (r: (App, Outcome))
    ensures r.1 == Invalid <==> Strip(entry) == [] || Strip(entry) in Names(a, k)
    ensures r.1.Done? <==>
              Strip(entry) != [] && Strip(entry) !in Names(a, k) && Store.Add(a.file, k, Strip(entry)).1
    ensures r.1.Done? ==>
              && r.1.name == Strip(entry)
              && Sorted(Names(r.0, k))
              && multiset(Names(r.0, k)) == multiset(Names(a, k)) + multiset{r.1.name}
              && r.0.file == Store.Add(a.file, k, r.1.name).0
    ensures !r.1.Done? ==> r.0 == a
    ensures Names(r.0, Other(k)) == Names(a, Other(k))
    ensures r.0.session == a.session && r.0.data == a.data
  {
    var name := Strip(entry);
    if name != [] && name !in Names(a, k) then
      var (file, ok) := Store.Add(a.file, k, name);
      if ok then (WithNames(a.(file := file), k, Sort(Names(a, k) + [name])), Done(name))
      else (a, StoreRefused(name))
    else (a, Invalid)
  }

  /**
   `delete_author` / `delete_character_name`: the selection is stripped and
   must be in the list; the store is asked to delete it, and on success the
   deletion is pushed on the undo stack (the Undo button is not refreshed),
   the name's first occurrence leaves the list, and the list is sorted.
   */
  function DeleteName(a: App, k: NameKind, selection: string): (r: (App, Outcome))
    ensures r.1 == Invalid <==> Strip(selection) == [] || Strip(selection) !in Names(a, k)
    ensures r.1.Done? <==>
              Strip(selection) != [] && Strip(selection) in Names(a, k) &&
              Store.Delete(a.file, k, Strip(selection)).1
    ensures r.1.Done? ==>
              && r.1.name == Strip(selection)
              && r.0.session == a.session.(undoStack := a.session.undoStack + [DeletionEntry(k, r.1.name)])
              && Sorted(Names(r.0, k))
              && multiset(Names(r.0, k)) + multiset{r.1.name} == multiset(Names(a, k))
              && r.0.file == Store.Delete(a.file, k, r.1.name).0
    ensures !r.1.Done? ==> r.0 == a
    ensures Names(r.0, Other(k)) == Names(a, Other(k)) && r.0.data == a.data
  {
    var name := Strip(selection);
    if name != [] && name in Names(a, k) then
      var (file, ok) := Store.Delete(a.file, k, name);
      if ok then
        var pushed := a.session.(undoStack := a.session.undoStack + [DeletionEntry(k, name)]);
        (WithNames(a.(session := pushed, file := file), k, Sort(RemoveFirst(Names(a, k), name))), Done(name))
      else (a, StoreRefused(name))
    else (a, Invalid)
  }

  /**
   Adding a name to a sorted list and then deleting it gives back the list,
   and the data file as it was (a missing key is left as an empty list). The
   deletion is left on the undo stack.
   */
  lemma AddThenDeleteName(a: App, k: NameKind, entry: string)
    requires Sorted(Names(a, k))
    requires AddName(a, k, entry).1.Done?
    ensures var added := AddName(a, k, entry).0;
            var d := DeleteName(added, k, entry);
            && d.1 == Done(Strip(entry))
            && Names(d.0, k) == Names(a, k)
            && Names(d.0, Other(k)) == Names(a, Other(k))
            && d.0.file == Put(a.file, k, Get(a.file, k).GetOr([]))
            && d.0.session.undoStack == a.session.undoStack + [DeletionEntry(k, Strip(entry))]
  {
    var name := Strip(entry);
    var added := AddName(a, k, entry).0;
    assert added.file == Store.Add(a.file, k, name).0;
    assert name in multiset(Names(added, k));
    Store.AddThenDelete(a.file, k, name);
    var d := DeleteName(added, k, entry);
    assert d.1 == Done(name);
    SortedCancel(Names(d.0, k), Names(a, k), name);
  }

  /** Two sorted lists that are equal as multisets once `n` is added to each are equal. */
  lemma SortedCancel(xs: seq<string>, ys: seq<string>, n: string)
    requires Sorted(xs) && Sorted(ys)
    requires multiset(xs) + multiset{n} == multiset(ys) + multiset{n}
    ensures xs == ys
  {
    var x, y := multiset(xs), multiset(ys);
    assert x == (x + multiset{n}) - multiset{n};
    assert y == (y + multiset{n}) - multiset{n};
    SortedUnique(xs, ys);
  }

  /** What "Undo Delete" reports. */
  datatype Restore =
    | NothingToRestore
    | Restored(kind: NameKind, name: string)
    | Discarded

  /**
   `undo_last_deletion`: with an empty stack nothing changes. Otherwise the
   top entry is popped whatever it is. A deletion puts its name back in its
   list, sorts the list, and writes the in-memory record with that list to
   the data file. A batch of the naming engine matches neither kind and is
   dropped without being undone. The Undo button is not refreshed.
   */
  function UndoLastDeletion(a: App): (r: (App, Restore))
    ensures a.session.undoStack == [] <==> r.1 == NothingToRestore
    ensures a.session.undoStack == [] ==> r.0 == a
    ensures a.session.undoStack != [] ==>
              var top := a.session.undoStack[|a.session.undoStack| - 1];
              && r.0.session == a.session.(undoStack := a.session.undoStack[..|a.session.undoStack| - 1])
              && (top.BatchEntry? <==> r.1 == Discarded)
              && (top.BatchEntry? ==> r.0 == a.(session := r.0.session))
              && (top.DeletionEntry? ==>
                    && r.1 == Restored(top.kind, top.name)
                    && Sorted(Names(r.0, top.kind))
                    && multiset(Names(r.0, top.kind)) == multiset(Names(a, top.kind)) + multiset{top.name}
                    && Names(r.0, Other(top.kind)) == Names(a, Other(top.kind))
                    && r.0.file == r.0.data
                    && r.0.data == Put(a.data, top.kind, Names(r.0, top.kind)))
  {
    if a.session.undoStack == [] then (a, NothingToRestore)
    else
      var top := a.session.undoStack[|a.session.undoStack| - 1];
      var popped := a.(session := a.session.(undoStack := a.session.undoStack[..|a.session.undoStack| - 1]));
      match top
      case BatchEntry(_, _) => (popped, Discarded)
      case DeletionEntry(k, name) =>
        var names := Sort(Names(a, k) + [name]);
        var data := Put(a.data, k, names);
        (WithNames(popped.(data := data, file := data), k, names), Restored(k, name))
  }

  /**
   Deleting a name from a sorted list and then choosing "Undo Delete" gives
   back the list exactly, and the undo stack as it was.
   */
  lemma DeleteThenRestore(a: App, k: NameKind, selection: string)
    requires Sorted(Names(a, k))
    requires DeleteName(a, k, selection).1.Done?
    ensures var d := DeleteName(a, k, selection);
            var u := UndoLastDeletion(d.0);
            && u.1 == Restored(k, Strip(selection))
            && Names(u.0, k) == Names(a, k)
            && Names(u.0, Other(k)) == Names(a, Other(k))
            && u.0.session.undoStack == a.session.undoStack
            && Get(u.0.file, k) == Some(Names(a, k))
  {
    var d := DeleteName(a, k, selection);
    var name := Strip(selection);
    var stack := d.0.session.undoStack;
    assert stack[..|stack| - 1] == a.session.undoStack;
    var u := UndoLastDeletion(d.0);
    assert multiset(Names(d.0, k) + [name]) == multiset(Names(a, k));
    SortedUnique(Names(u.0, k), Names(a, k));
  }

  /**
   The other Undo does not expect a deletion on top: right after a deletion
   it pops the entry and fails on it, so the name stays deleted and can no
   longer be restored by "Undo Delete".
   */
  lemma UndoActionLosesDeletion(a: App, k: NameKind, selection: string, faulty: set<FileSystem.Path>)
    requires DeleteName(a, k, selection).1.Done?
    ensures var d := DeleteName(a, k, selection);
            var u := UndoLastAction(d.0.session, faulty);
            && u.1 == Crashed
            && u.0.undoStack == a.session.undoStack
            && u.0.fs == a.session.fs
  {
    var d := DeleteName(a, k, selection);
    var stack := d.0.session.undoStack;
    assert stack[..|stack| - 1] == a.session.undoStack;
  }

  /**
   And "Undo Delete" does not expect a batch: right after a batch it drops
   it, leaving the files renamed, so Undo no longer sees that batch.
   */
  lemma RestoreLosesBatch(a: App, mode: Operations.Mode, ops: seq<Operations.Record>)
    requires ops != []
    ensures var pushed := a.(session := CompleteBatch(a.session, mode, ops));
            var u := UndoLastDeletion(pushed);
            && u.1 == Discarded
            && u.0.session.fs == a.session.fs
            && u.0.session.undoStack == a.session.undoStack
            && u.0.authors == a.authors && u.0.characterNames == a.characterNames
  {
    var stack := CompleteBatch(a.session, mode, ops).undoStack;
    assert stack[..|stack| - 1] == a.session.undoStack;
  }
}

=== FILE: ledger.dfy ===
/**
 The undo ledger: `App.undo_stack` and the Undo button. One stack receives
 two kinds of entries: a completed batch `(operation_mode, operations)`
 pushed by the naming engine, and a deletion `('author' | 'character', name)`
 pushed when a name is deleted. `undo_last_action` expects the first kind,
 `undo_last_deletion` the second; neither checks which kind is on top.
 */
module Ledger {
  import opened FileSystem
  import opened Operations

  datatype NameKind = AuthorName | CharacterName

  datatype UndoEntry =
    | BatchEntry(mode: Mode, ops: seq<Record>)
    | DeletionEntry(kind: NameKind, name: string)

  /** The files, the undo stack (top last) and whether the Undo button is enabled. */
  datatype Session = Session(fs: FS, undoStack: seq<UndoEntry>, undoEnabled: bool)

  /** `update_undo_button_state`: enabled exactly when there is something on the stack. */
  function UpdateUndoButtonState(s: Session): (r: Session)
    ensures r.undoEnabled <==> |s.undoStack| > 0
    ensures r.fs == s.fs && r.undoStack == s.undoStack
  {
    s.(undoEnabled := |s.undoStack| > 0)
  }

  /**
   The end of every strategy: the batch is pushed, and the button
   refreshed, only when at least one operation was recorded.
   */
  function CompleteBatch(s: Session, mode: Mode, ops: seq<Record>): (r: Session)
    ensures ops == [] ==> r == s
    ensures ops != [] ==> r.undoStack == s.undoStack + [BatchEntry(mode, ops)] && r.undoEnabled
    ensures r.fs == s.fs
  {
    if ops == [] then s
    else UpdateUndoButtonState(s.(undoStack := s.undoStack + [BatchEntry(mode, ops)]))
  }

  /** What the user is told after Undo. */
  datatype UndoReport =
    | NothingToUndo
    | Undone
    | UndoErrors(failed: seq<Path>)
    | Crashed

  /**
   `undo_last_action`. With an empty stack nothing changes. Otherwise the top
   entry is popped; a batch is replayed last record first, best effort, and
   the failures are reported together. A deletion entry on top unpacks its
   name as if it were a list of pairs: a non-empty name raises before
   anything is undone and before the button is refreshed, so the entry is
   lost; an empty name is a batch with no records.
   */
  function UndoLastAction(s: Session, faulty: set<Path>): (r: (Session, UndoReport))
    ensures s.undoStack == [] <==> r.1 == NothingToUndo
    ensures s.undoStack == [] ==> r.0 == s
    ensures s.undoStack != [] ==> r.0.undoStack == s.undoStack[..|s.undoStack| - 1]
    ensures s.undoStack != [] && s.undoStack[|s.undoStack| - 1].BatchEntry? ==>
              var top := s.undoStack[|s.undoStack| - 1];
              var undone := UndoOps(s.fs, top.mode, top.ops, faulty);
              && r.0.fs == undone.0
              && (r.1 == Undone <==> undone.1 == [])
              && (r.1 != Undone ==> r.1 == UndoErrors(undone.1))
              && (r.0.undoEnabled <==> |r.0.undoStack| > 0)
    ensures s.undoStack != [] && s.undoStack[|s.undoStack| - 1].DeletionEntry? ==> r.0.fs == s.fs
    ensures r.1 == Crashed <==>
              s.undoStack != [] && s.undoStack[|s.undoStack| - 1].DeletionEntry? &&
              s.undoStack[|s.undoStack| - 1].name != []
    ensures r.1 == Crashed ==> r.0.undoEnabled == s.undoEnabled
  {
    if s.undoStack == [] then (s, NothingToUndo)
    else
      var top := s.undoStack[|s.undoStack| - 1];
      var rest := s.undoStack[..|s.undoStack| - 1];
      match top
      case BatchEntry(mode, ops) =>
        var undone := UndoOps(s.fs, mode, ops, faulty);
        (UpdateUndoButtonState(Session(undone.0, rest, s.undoEnabled)),
         if undone.1 == [] then Undone else UndoErrors(undone.1))
      case DeletionEntry(_, name) =>
        if name == [] then (UpdateUndoButtonState(s.(undoStack := rest)), Undone)
        else (s.(undoStack := rest), Crashed)
  }

  /** The stack is last-in first-out: Undo right after a batch pops exactly that batch. */
  lemma UndoPopsLastBatch(s: Session, mode: Mode, ops: seq<Record>, faulty: set<Path>)
    requires ops != []
    ensures var r := UndoLastAction(CompleteBatch(s, mode, ops), faulty);
            && r.0.undoStack == s.undoStack
            && r.0.fs == UndoOps(s.fs, mode, ops, faulty).0
  {
    var pushed := CompleteBatch(s, mode, ops);
    assert pushed.undoStack[..|pushed.undoStack| - 1] == s.undoStack;
  }
}

=== FILE: legacy.dfy ===
/**
 The earlier naming engine, file_operations.py at the top of the
 repository: rename only, no undo, no progress events. Direct-append and
 folder-name take the image files of one folder and split names with
 `rsplit('.', 1)`; character-match walks the folder and its sub-folders.
 */
module Legacy {
  import opened Wrappers
  import opened Text
  import opened Order
  import opened FileSystem
  import opened Collision
  import Operations
  import Engine

  /** `f.lower().endswith(('.png', '.jpg', '.jpeg', '.gif', '.bmp'))`. */
  predicate IsImage(name: string) {
    var l := Lower(name);
    EndsWith(l, ".png") || EndsWith(l, ".jpg") || EndsWith(l, ".jpeg") || EndsWith(l, ".gif") || EndsWith(l, ".bmp")
  }

  /** The image files among `names`, in their order. */
  function ImageFiles(names: seq<string>): (r: seq<string>)
    ensures forall x :: x in r <==> x in names && IsImage(x)
    ensures |r| <= |names|
    ensures Sorted(names) ==> Sorted(r)
    ensures Distinct(names) ==> Distinct(r)
  {
    if names == [] then []
    else
      var rest := ImageFiles(names[1..]);
      if IsImage(names[0]) then
        ConsSubset(names, rest);
        [names[0]] + rest
      else rest
  }

  /**
   `(name_part, ext_part)`: with a dot, the parts before and after the last
   dot, the extension lower-cased; without one, the whole name and no
   extension.
   */
  function SplitName(filename: string): (r: (string, string))
    ensures '.' !in r.1
    ensures '.' in filename ==> exists e :: r.0 + "." + e == filename && r.1 == Lower(e)
    ensures '.' !in filename ==> r == (filename, "")
  {
    if '.' in filename then
      var (name, ext) := RSplitDot(filename);
      assert forall i :: 0 <= i < |ext| ==> Lower(ext)[i] != '.';
      (name, Lower(ext))
    else (filename, "")
  }

  /**
   The names direct-append tries: `{name} by {author}.{ext}`, then
   `{name} by {author} {n}.{ext}` from n = 1; none when the name part
   already carries the marker.
   */
  function AppendPattern(filename: string, author: string): (r: Option<Pattern>)
    ensures r.None? <==> Engine.HasMarker(SplitName(filename).0, author)
  {
    var (name, ext) := SplitName(filename);
    if Engine.HasMarker(name, author) then None
    else
      var base := name + " by " + author;
      Some(Pattern(Some(base + "." + ext), base, " ", "." + ext))
  }

  /**
   Every name direct-append tries carries the marker in its name part, so a
   second run skips the renamed files.
   */
  lemma AppendMarked(filename: string, author: string, n: nat)
    ensures var p := AppendPattern(filename, author);
            p.Some? ==> AppendPattern(Candidate(p.value, n), author).None?
  {
    if AppendPattern(filename, author).Some? {
      var (name, ext) := SplitName(filename);
      var rest := if n == 0 then "" else " " + NatStr(n);
      AppendCandidate(filename, author, n);
      NameOfJoin(name + " by " + author + rest, ext);
      Engine.MarkedHasMarker(name, author, rest);
    }
  }

  /** The n-th name direct-append tries is the marked name part, a dot and the extension. */
  lemma AppendCandidate(filename: string, author: string, n: nat)
    requires AppendPattern(filename, author).Some?
    ensures var (name, ext) := SplitName(filename);
            var rest := if n == 0 then "" else " " + NatStr(n);
            Candidate(AppendPattern(filename, author).value, n) == name + " by " + author + rest + "." + ext
  {
  }

  /** The name part of `a.e` is `a` when `e` has no dot. */
  lemma NameOfJoin(a: string, e: string)
    requires '.' !in e
    ensures SplitName(a + "." + e).0 == a
  {
    RSplitDotJoin(a, e);
  }

  /** `image1.jpg` becomes `image1 by TestAuthor.jpg` when that name is free. */
  lemma AppendExample(fs: FS, dir: string)
    requires Path(dir, "image1 by TestAuthor.jpg") !in fs
    ensures var p := AppendPattern("image1.jpg", "TestAuthor");
            p.Some? && Target(fs, dir, p.value) == Path(dir, "image1 by TestAuthor.jpg")
  {
    var p := Pattern(Some("image1 by TestAuthor.jpg"), "image1 by TestAuthor", " ", ".jpg");
    PatternExample();
    BareFirst(fs, dir, p);
  }

  lemma PatternExample()
    ensures AppendPattern("image1.jpg", "TestAuthor")
         == Some(Pattern(Some("image1 by TestAuthor.jpg"), "image1 by TestAuthor", " ", ".jpg"))
  {
    SplitExample();
    NoMarkerExample();
    assert "image1" + " by " + "TestAuthor" == "image1 by TestAuthor";
    assert "image1 by TestAuthor" + "." + "jpg" == "image1 by TestAuthor.jpg";
    assert "." + "jpg" == ".jpg";
  }

  lemma SplitExample()
    ensures SplitName("image1.jpg") == ("image1", "jpg")
  {
    RSplitDotJoin("image1", "jpg");
    assert "image1" + "." + "jpg" == "image1.jpg";
    assert Lower("jpg") == "jpg";
  }

  lemma NoMarkerExample()
    ensures !Engine.HasMarker("image1", "TestAuthor")
  {
    ContainsShorter(Lower("image1"), Lower("by TestAuthor"));
  }

  /** How a legacy batch ended: completed with the skipped files, or stopped by an exception. */
  datatype Outcome = Completed(fs: FS, skipped: seq<string>) | Aborted(fs: FS)

  /**
   Renaming the first file to a free name in the same folder keeps the
   number of files, changes nothing outside the folder, and leaves the
   other files to do in place.
   */
  lemma RenameStep(files: seq<string>, fs: FS, folder: string, faulty: set<Path>, dst: Path)
    requires files != [] && Path(folder, files[0]) in fs && dst !in fs && dst.dir == folder
    ensures |MoveFile(fs, Path(folder, files[0]), dst).Keys| == |fs.Keys|
    ensures SameOutside(fs, MoveFile(fs, Path(folder, files[0]), dst), {folder})
    ensures Ready(files, fs, folder, faulty) ==> Ready(files[1..], MoveFile(fs, Path(folder, files[0]), dst), folder, faulty)
  {
    var src := Path(folder, files[0]);
    MoveFreshCount(fs, src, dst);
    MoveWithin(fs, src, dst, {folder});
    if Ready(files, fs, folder, faulty) {
      ReadyAfter(files, fs, folder, faulty, dst);
    }
  }

  /**
   The loop of the legacy `rename_images`. A marked file is skipped; any
   other file is renamed to a free name. The first rename that raises ends
   the whole batch, keeping the renames already done.
   */
  function AppendLoop(files: seq<string>, fs: FS, folder: string, author: string, faulty: set<Path>): (r: Outcome)
    ensures |r.fs.Keys| == |fs.Keys|
    ensures SameOutside(fs, r.fs, {folder})
    ensures r.Completed? ==> forall f :: f in r.skipped <==> f in files && AppendPattern(f, author).None?
    ensures Ready(files, fs, folder, faulty) ==> r.Completed?
    decreases |files|
  {
    if files == [] then Completed(fs, [])
    else
      var f := files[0];
      var src := Path(folder, f);
      assert files == [f] + files[1..];
      match AppendPattern(f, author)
      case None =>
        var rest := AppendLoop(files[1..], fs, folder, author, faulty);
        if rest.Completed? then Completed(rest.fs, [f] + rest.skipped) else rest
      case Some(p) =>
        if src !in fs || src in faulty then Aborted(fs)
        else
          var dst := Target(fs, folder, p);
          RenameStep(files, fs, folder, faulty, dst);
          var rest := AppendLoop(files[1..], MoveFile(fs, src, dst), folder, author, faulty);
          SameOutsideTrans(fs, MoveFile(fs, src, dst), rest.fs, {folder});
          rest
  }

  /**
   The legacy `rename_images`: the image files of the folder in sorted
   order. With no file of the folder failing, the batch completes and
   skips exactly the marked image files; in every case no file is lost and
   nothing outside the folder changes.
   */
  function RenameImages(fs: FS, folder: string, author: string, faulty: set<Path>): (r: Outcome)
    ensures |r.fs.Keys| == |fs.Keys|
    ensures SameOutside(fs, r.fs, {folder})
    ensures r.Completed? ==>
              forall f :: f in r.skipped <==> Path(folder, f) in fs && IsImage(f) && AppendPattern(f, author).None?
    ensures (forall f :: Path(folder, f) in fs ==> Path(folder, f) !in faulty) ==> r.Completed?
  {
    AppendLoop(ImageFiles(Listing(fs, folder)), fs, folder, author, faulty)
  }

  /** The files legacy direct-append renames: those without the marker, in order. */
  function Unmarked(files: seq<string>, author: string): seq<string> {
    if files == [] then []
    else if AppendPattern(files[0], author).Some? then [files[0]] + Unmarked(files[1..], author)
    else Unmarked(files[1..], author)
  }

  /** The unmarked files are the files whose name part does not carry the marker. */
  lemma {:induction false} UnmarkedIn(files: seq<string>, author: string)
    ensures forall f :: f in Unmarked(files, author) <==> f in files && AppendPattern(f, author).Some?
    decreases |files|
  {
    if files != [] {
      UnmarkedIn(files[1..], author);
      assert forall f :: f in files <==> f == files[0] || f in files[1..];
    }
  }

  /** `{name} by {author}.{ext}`: the first name legacy direct-append tries. */
  function AppendedName(filename: string, author: string): string {
    SplitName(filename).0 + " by " + author + "." + SplitName(filename).1
  }

  /** The first names of `u`, file by file. */
  function AppendedNames(u: seq<string>, author: string): (names: seq<string>)
    ensures |names| == |u|
  {
    if u == [] then [] else [AppendedName(u[0], author)] + AppendedNames(u[1..], author)
  }

  /** The loop passes over a marked first file. */
  lemma AppendLoopSkip(files: seq<string>, fs: FS, folder: string, author: string, faulty: set<Path>)
    requires files != [] && AppendPattern(files[0], author).None?
    ensures var r := AppendLoop(files, fs, folder, author, faulty);
            var rest := AppendLoop(files[1..], fs, folder, author, faulty);
            r.fs == rest.fs && r.Completed? == rest.Completed?
    ensures Unmarked(files, author) == Unmarked(files[1..], author)
  {
  }

  /** The loop renames a present, unmarked first file that does not fail to its pattern's free name, then goes on. */
  lemma AppendLoopTry(files: seq<string>, fs: FS, folder: string, author: string, faulty: set<Path>)
    requires files != [] && AppendPattern(files[0], author).Some?
    requires Path(folder, files[0]) in fs && Path(folder, files[0]) !in faulty
    ensures var src := Path(folder, files[0]);
            var dst := Target(fs, folder, AppendPattern(files[0], author).value);
            AppendLoop(files, fs, folder, author, faulty) == AppendLoop(files[1..], MoveFile(fs, src, dst), folder, author, faulty)
    ensures AppendPattern(files[0], author).value.bare == Some(AppendedName(files[0], author))
    ensures var u := Unmarked(files[1..], author);
            && Unmarked(files, author) == [files[0]] + u
            && AppendedNames([files[0]] + u, author) == [AppendedName(files[0], author)] + AppendedNames(u, author)
  {
    var u := Unmarked(files[1..], author);
    assert ([files[0]] + u)[1..] == u;
  }

  /**
   With every file present and none failing, and the first names
   `{name} by {author}.{ext}` of the unmarked files free and different from
   each other, the loop completes; each unmarked file's content is then at
   its first name, its old name is gone, and every other path, the marked
   files included, is as it was.
   */
  lemma {:induction false} AppendLoopBare(files: seq<string>, fs: FS, folder: string, author: string, faulty: set<Path>)
    requires Ready(files, fs, folder, faulty)
    requires Fresh(AppendedNames(Unmarked(files, author), author), folder, fs)
    ensures var u := Unmarked(files, author);
            var r := AppendLoop(files, fs, folder, author, faulty);
            r.Completed? && Operations.Moved(fs, r.fs, Operations.Renamed(AppendedNames(u, author), folder, folder, u))
    decreases |files|
  {
    if files != [] {
      if AppendPattern(files[0], author).None? {
        ReadyTail(files, fs, folder, faulty);
        AppendLoopSkip(files, fs, folder, author, faulty);
        AppendLoopBare(files[1..], fs, folder, author, faulty);
      } else {
        AppendLoopBareStep(files, fs, folder, author, faulty);
      }
    }
  }

  lemma {:induction false} AppendLoopBareStep(files: seq<string>, fs: FS, folder: string, author: string,
                                              faulty: set<Path>)
    requires Ready(files, fs, folder, faulty)
    requires Fresh(AppendedNames(Unmarked(files, author), author), folder, fs)
    requires files != [] && AppendPattern(files[0], author).Some?
    ensures var u := Unmarked(files, author);
            var r := AppendLoop(files, fs, folder, author, faulty);
            r.Completed? && Operations.Moved(fs, r.fs, Operations.Renamed(AppendedNames(u, author), folder, folder, u))
    decreases |files|, 0
  {
    var f := files[0];
    var u := Unmarked(files[1..], author);
    var names := AppendedNames(u, author);
    var name := AppendedName(f, author);
    var src := Path(folder, f);
    var dst := Path(folder, name);
    AppendLoopTry(files, fs, folder, author, faulty);
    BareFirst(fs, folder, AppendPattern(f, author).value);
    FreshAfter([name] + names, folder, fs, src);
    ReadyAfter(files, fs, folder, faulty, dst);
    AppendLoopBare(files[1..], MoveFile(fs, src, dst), folder, author, faulty);
    UnmarkedIn(files[1..], author);
    var r := AppendLoop(files[1..], MoveFile(fs, src, dst), folder, author, faulty);
    Operations.MovedRenamedCons(fs, MoveFile(fs, src, dst), r.fs, folder, folder, name, f, names, u);
  }

  /**
   The legacy `rename_images` over a folder whose image files do not fail,
   when the first names of the unmarked ones are free and different from
   each other: it completes, each unmarked image ends at
   `{name} by {author}.{ext}` with its content, its old name is gone, and
   every other path is as it was.
   */
  lemma RenameImagesBare(fs: FS, folder: string, author: string, faulty: set<Path>)
    requires forall f :: Path(folder, f) in fs ==> Path(folder, f) !in faulty
    requires Fresh(AppendedNames(Unmarked(ImageFiles(Listing(fs, folder)), author), author), folder, fs)
    ensures var u := Unmarked(ImageFiles(Listing(fs, folder)), author);
            var r := RenameImages(fs, folder, author, faulty);
            r.Completed? && Operations.Moved(fs, r.fs, Operations.Renamed(AppendedNames(u, author), folder, folder, u))
  {
    AppendLoopBare(ImageFiles(Listing(fs, folder)), fs, folder, author, faulty);
  }

  // ---------------------------------------------------------------------
  // Folder name
  // ---------------------------------------------------------------------

  /** The extension the folder-name strategy keeps: after the last dot, lower-cased. */
  function ExtOf(filename: string): string {
    SplitName(filename).1
  }

  /** `{folder} by {author} {count}.{ext}`. */
  function FolderName(folderName: string, author: string, count: nat, filename: string): string {
    folderName + " by " + author + " " + NatStr(count) + "." + ExtOf(filename)
  }

  /**
   The loop of the legacy `rename_images_by_folder_name` as written: the
   `count`-th file is renamed to its folder name with no check that the
   name is free, so an existing file of that name is replaced.
   */
  function FolderLoopAsWritten(files: seq<string>, count: nat, fs: FS, folder: string, folderName: string,
                               author: string, faulty: set<Path>): (r: Outcome)
    ensures |r.fs.Keys| <= |fs.Keys|
    ensures SameOutside(fs, r.fs, {folder})
    ensures r.Completed? ==> r.skipped == []
    decreases |files|
  {
    if files == [] then Completed(fs, [])
    else
      var src := Path(folder, files[0]);
      if src !in fs || src in faulty then Aborted(fs)
      else
        var dst := Path(folder, FolderName(folderName, author, count, files[0]));
        var fs' := MoveFile(fs, src, dst);
        MoveCount(fs, src, dst);
        MoveWithin(fs, src, dst, {folder});
        var rest := FolderLoopAsWritten(files[1..], count + 1, fs', folder, folderName, author, faulty);
        SameOutsideTrans(fs, fs', rest.fs, {folder});
        rest
  }

  /** The legacy `rename_images_by_folder_name` as written. */
  function RenameImagesByFolderNameAsWritten(fs: FS, folder: string, author: string, faulty: set<Path>): (r: Outcome)
    ensures |r.fs.Keys| <= |fs.Keys|
    ensures SameOutside(fs, r.fs, {folder})
  {
    FolderLoopAsWritten(ImageFiles(Listing(fs, folder)), 1, fs, folder, Engine.BaseName(folder), author, faulty)
  }

  /**
   The unchecked rename loses a file. In folder `x` holding `a.jpg` and
   `x by A 1.jpg`, the first file in order, `a.jpg`, is renamed onto
   `x by A 1.jpg` and replaces it; the second file is then renamed to
   `x by A 2.jpg`. Two files go in, one comes out.
   */
  lemma FolderNameOverwrites(c1: Content, c2: Content)
    ensures var fs := map[Path("x", "a.jpg") := c1, Path("x", "x by A 1.jpg") := c2];
            && |fs.Keys| == 2
            && RenameImagesByFolderNameAsWritten(fs, "x", "A", {}) == Completed(map[Path("x", "x by A 2.jpg") := c1], [])
  {
    var a := Path("x", "a.jpg");
    var b := Path("x", "x by A 1.jpg");
    var c := Path("x", "x by A 2.jpg");
    var fs := map[a := c1, b := c2];
    assert |fs.Keys| == 2 by { assert fs.Keys == {a, b}; }
    var files := ["a.jpg", "x by A 1.jpg"];
    OverwriteListing(c1, c2);
    OverwriteImages();
    BaseNameX();
    assert RenameImagesByFolderNameAsWritten(fs, "x", "A", {}) == FolderLoopAsWritten(files, 1, fs, "x", "x", "A", {});
    OverwriteFirst(c1, c2);
    OverwriteSecond(c1);
  }

  /** One step of the unchecked loop, renaming the first file to `dst`. */
  lemma FolderStep(files: seq<string>, count: nat, fs: FS, folder: string, folderName: string, author: string, dst: Path)
    requires files != [] && Path(folder, files[0]) in fs
    requires dst == Path(folder, FolderName(folderName, author, count, files[0]))
    ensures FolderLoopAsWritten(files, count, fs, folder, folderName, author, {}) ==
            FolderLoopAsWritten(files[1..], count + 1, MoveFile(fs, Path(folder, files[0]), dst), folder, folderName, author, {})
  {
  }

  /** The last step of the unchecked loop. */
  lemma FolderLastStep(f: string, count: nat, fs: FS, folder: string, folderName: string, author: string, dst: Path)
    requires Path(folder, f) in fs
    requires dst == Path(folder, FolderName(folderName, author, count, f))
    ensures FolderLoopAsWritten([f], count, fs, folder, folderName, author, {}) == Completed(MoveFile(fs, Path(folder, f), dst), [])
  {
    FolderStep([f], count, fs, folder, folderName, author, dst);
    assert [f][1..] == [];
  }

  lemma OverwriteFirst(c1: Content, c2: Content)
    ensures var fs := map[Path("x", "a.jpg") := c1, Path("x", "x by A 1.jpg") := c2];
            FolderLoopAsWritten(["a.jpg", "x by A 1.jpg"], 1, fs, "x", "x", "A", {}) ==
            FolderLoopAsWritten(["x by A 1.jpg"], 2, map[Path("x", "x by A 1.jpg") := c1], "x", "x", "A", {})
  {
    var a := Path("x", "a.jpg");
    var b := Path("x", "x by A 1.jpg");
    var files := ["a.jpg", "x by A 1.jpg"];
    FirstFolderName();
    FolderStep(files, 1, map[a := c1, b := c2], "x", "x", "A", b);
    MoveOntoOther(a, b, c1, c2);
    assert files[1..] == ["x by A 1.jpg"];
  }

  lemma OverwriteSecond(c1: Content)
    ensures FolderLoopAsWritten(["x by A 1.jpg"], 2, map[Path("x", "x by A 1.jpg") := c1], "x", "x", "A", {}) ==
            Completed(map[Path("x", "x by A 2.jpg") := c1], [])
  {
    var b := Path("x", "x by A 1.jpg");
    var c := Path("x", "x by A 2.jpg");
    SecondFolderName();
    FolderLastStep("x by A 1.jpg", 2, map[b := c1], "x", "x", "A", c);
    MoveOnly(b, c, c1);
  }

  lemma OverwriteListing(c1: Content, c2: Content)
    ensures Listing(map[Path("x", "a.jpg") := c1, Path("x", "x by A 1.jpg") := c2], "x") == ["a.jpg", "x by A 1.jpg"]
  {
    assert LexLe("a.jpg", "x by A 1.jpg");
    ListingTwo("x", "a.jpg", "x by A 1.jpg", c1, c2);
  }

  lemma OverwriteImages()
    ensures ImageFiles(["a.jpg", "x by A 1.jpg"]) == ["a.jpg", "x by A 1.jpg"]
  {
    assert "a" + ".jpg" == "a.jpg";
    assert "x by A 1" + ".jpg" == "x by A 1.jpg";
    JpgImage("a");
    JpgImage("x by A 1");
    ImageFilesTwo("a.jpg", "x by A 1.jpg");
  }

  /** Any name ending in `.jpg` is an image. */
  lemma JpgImage(stem: string)
    ensures IsImage(stem + ".jpg")
  {
    LowerAppend(stem, ".jpg");
    assert Lower(".jpg") == ".jpg";
  }

  lemma ImageFilesTwo(a: string, b: string)
    requires IsImage(a) && IsImage(b)
    ensures ImageFiles([a, b]) == [a, b]
  {
    assert [a, b][1..] == [b] && [b][1..] == [];
  }

  lemma FirstFolderName()
    ensures FolderName("x", "A", 1, "a.jpg") == "x by A 1.jpg"
  {
    SmallNumerals();
    ExampleNames();
    FolderNameJpg("x", "A", 1, "a");
  }

  lemma SecondFolderName()
    ensures FolderName("x", "A", 2, "x by A 1.jpg") == "x by A 2.jpg"
  {
    SmallNumerals();
    ExampleNames();
    FolderNameJpg("x", "A", 2, "x by A 1");
  }

  /** The names of the example, spelled out. */
  lemma ExampleNames()
    ensures "a" + ".jpg" == "a.jpg" && "x by A 1" + ".jpg" == "x by A 1.jpg"
    ensures "x" + " by " + "A" + " " + "1" + ".jpg" == "x by A 1.jpg"
    ensures "x" + " by " + "A" + " " + "2" + ".jpg" == "x by A 2.jpg"
  {
  }

  /** The folder name of a dot-free stem with `.jpg`. */
  lemma FolderNameJpg(folderName: string, author: string, count: nat, stem: string)
    requires '.' !in stem
    ensures FolderName(folderName, author, count, stem + ".jpg") == folderName + " by " + author + " " + NatStr(count) + ".jpg"
  {
    JpgExt(stem);
    var pre := folderName + " by " + author + " " + NatStr(count);
    assert FolderName(folderName, author, count, stem + ".jpg") == pre + "." + "jpg";
    DotJpg(pre);
  }

  lemma BaseNameX()
    ensures Engine.BaseName("x") == "x"
  {
    assert LastIndex("x", '/') == -1 by {
      assert "x"[..0] == [];
    }
    assert "x"[0..] == "x";
  }

  lemma SmallNumerals()
    ensures NatStr(1) == "1" && NatStr(2) == "2"
  {
  }

  /** A dot-free name followed by `.jpg` keeps `jpg` as its extension. */
  lemma DotJpg(s: string)
    ensures s + "." + "jpg" == s + ".jpg"
  {
    assert "." + "jpg" == ".jpg";
  }

  lemma JpgExt(name: string)
    requires '.' !in name
    ensures ExtOf(name + ".jpg") == "jpg"
  {
    RSplitDotJoin(name, "jpg");
    DotJpg(name);
    assert Lower("jpg") == "jpg";
  }

  /**
   The names the checked loop tries for the `count`-th file:
   `{folder} by {author} {count}.{ext}`, then `{folder} by {author} {count}_{n}.{ext}`.
   */
  function FolderPattern(folderName: string, author: string, count: nat, filename: string): Pattern {
    var base := folderName + " by " + author + " " + NatStr(count);
    var ext := "." + ExtOf(filename);
    Pattern(Some(base + ext), base, "_", ext)
  }

  /**
   The folder-name loop with the collision check the later engine added:
   the `count`-th file goes to `{folder} by {author} {count}.{ext}` when
   free, otherwise to `{folder} by {author} {count}_{n}.{ext}` for the least
   free n. No file is lost.
   */
  function FolderLoopChecked(files: seq<string>, count: nat, fs: FS, folder: string, folderName: string,
                             author: string, faulty: set<Path>): (r: Outcome)
    ensures |r.fs.Keys| == |fs.Keys|
    ensures SameOutside(fs, r.fs, {folder})
    ensures r.Completed? ==> r.skipped == []
    ensures Ready(files, fs, folder, faulty) ==> r.Completed?
    decreases |files|
  {
    if files == [] then Completed(fs, [])
    else
      var src := Path(folder, files[0]);
      if src !in fs || src in faulty then Aborted(fs)
      else
        var dst := Target(fs, folder, FolderPattern(folderName, author, count, files[0]));
        RenameStep(files, fs, folder, faulty, dst);
        var rest := FolderLoopChecked(files[1..], count + 1, MoveFile(fs, src, dst), folder, folderName, author, faulty);
        SameOutsideTrans(fs, MoveFile(fs, src, dst), rest.fs, {folder});
        rest
  }

  /** The legacy folder-name strategy with the collision check: every file survives. */
  function RenameImagesByFolderNameChecked(fs: FS, folder: string, author: string, faulty: set<Path>): (r: Outcome)
    ensures |r.fs.Keys| == |fs.Keys|
    ensures SameOutside(fs, r.fs, {folder})
    ensures (forall f :: Path(folder, f) in fs ==> Path(folder, f) !in faulty) ==> r.Completed?
  {
    FolderLoopChecked(ImageFiles(Listing(fs, folder)), 1, fs, folder, Engine.BaseName(folder), author, faulty)
  }

  /** The first names of the files, numbered from `count`. */
  function FolderNames(folderName: string, author: string, count: nat, files: seq<string>): (names: seq<string>)
    ensures |names| == |files|
    decreases |files|
  {
    if files == [] then []
    else [FolderName(folderName, author, count, files[0])] + FolderNames(folderName, author, count + 1, files[1..])
  }

  /** Files at different positions get different folder names, whatever their extensions. */
  lemma FolderNameInjective(folderName: string, author: string, a: nat, f1: string, b: nat, f2: string)
    ensures FolderName(folderName, author, a, f1) == FolderName(folderName, author, b, f2) ==> a == b
  {
    var pre := folderName + " by " + author + " ";
    var x := NatStr(a) + ("." + ExtOf(f1));
    var y := NatStr(b) + ("." + ExtOf(f2));
    assert FolderName(folderName, author, a, f1) == pre + x;
    assert FolderName(folderName, author, b, f2) == pre + y;
    assert (pre + x)[|pre|..] == x && (pre + y)[|pre|..] == y;
    NumeralExtInjective(a, "." + ExtOf(f1), b, "." + ExtOf(f2));
  }

  /** The `j`-th folder name is the one numbered `count + j`. */
  lemma {:induction false} FolderNamesAt(folderName: string, author: string, count: nat, files: seq<string>)
    ensures forall j :: 0 <= j < |files| ==>
              FolderNames(folderName, author, count, files)[j] == FolderName(folderName, author, count + j, files[j])
    decreases |files|
  {
    if files != [] {
      FolderNamesAt(folderName, author, count + 1, files[1..]);
    }
  }

  /** The folder names of a folder's files never clash with each other. */
  lemma FolderNamesDistinct(folderName: string, author: string, count: nat, files: seq<string>)
    ensures Distinct(FolderNames(folderName, author, count, files))
  {
    var names := FolderNames(folderName, author, count, files);
    FolderNamesAt(folderName, author, count, files);
    forall i, j | 0 <= i < j < |names| ensures names[i] != names[j] {
      assert names[i] == FolderName(folderName, author, count + i, files[i]);
      assert names[j] == FolderName(folderName, author, count + j, files[j]);
      FolderNameInjective(folderName, author, count + i, files[i], count + j, files[j]);
    }
  }

  /** The checked loop renames a present first file that does not fail, then goes on with the next number. */
  lemma FolderCheckedStep(files: seq<string>, count: nat, fs: FS, folder: string, folderName: string,
                          author: string, faulty: set<Path>)
    requires files != [] && Path(folder, files[0]) in fs && Path(folder, files[0]) !in faulty
    ensures var dst := Target(fs, folder, FolderPattern(folderName, author, count, files[0]));
            FolderLoopChecked(files, count, fs, folder, folderName, author, faulty)
              == FolderLoopChecked(files[1..], count + 1, MoveFile(fs, Path(folder, files[0]), dst), folder, folderName,
                                   author, faulty)
    ensures FolderPattern(folderName, author, count, files[0]).bare == Some(FolderName(folderName, author, count, files[0]))
    ensures FolderNames(folderName, author, count, files)
         == [FolderName(folderName, author, count, files[0])] + FolderNames(folderName, author, count + 1, files[1..])
  {
    var base := folderName + " by " + author + " " + NatStr(count);
    assert base + ("." + ExtOf(files[0])) == base + "." + ExtOf(files[0]);
  }

  /**
   With every file present and none failing, and every folder name free,
   the checked loop completes, and the `k`-th file's content (counting from
   `count`) is then at `{folder} by {author} {k}.{ext}`, its old name is
   gone, and every other path is as it was.
   */
  lemma {:induction false} FolderCheckedBare(files: seq<string>, count: nat, fs: FS, folder: string, folderName: string,
                                             author: string, faulty: set<Path>)
    requires Ready(files, fs, folder, faulty)
    requires Fresh(FolderNames(folderName, author, count, files), folder, fs)
    ensures var r := FolderLoopChecked(files, count, fs, folder, folderName, author, faulty);
            r.Completed? &&
            Operations.Moved(fs, r.fs, Operations.Renamed(FolderNames(folderName, author, count, files), folder, folder, files))
    decreases |files|
  {
    if files != [] {
      var f := files[0];
      var name := FolderName(folderName, author, count, f);
      var names := FolderNames(folderName, author, count + 1, files[1..]);
      var src := Path(folder, f);
      var dst := Path(folder, name);
      FolderCheckedStep(files, count, fs, folder, folderName, author, faulty);
      BareFirst(fs, folder, FolderPattern(folderName, author, count, f));
      FreshAfter([name] + names, folder, fs, src);
      ReadyAfter(files, fs, folder, faulty, dst);
      FolderCheckedBare(files[1..], count + 1, MoveFile(fs, src, dst), folder, folderName, author, faulty);
      var r := FolderLoopChecked(files[1..], count + 1, MoveFile(fs, src, dst), folder, folderName, author, faulty);
      Operations.HeadTail(files);
      Operations.MovedRenamedCons(fs, MoveFile(fs, src, dst), r.fs, folder, folder, name, f, names, files[1..]);
    }
  }

  /**
   The legacy folder-name strategy with the collision check, over a folder
   whose image files do not fail and whose folder names are all free: it
   completes, and the `k`-th image in sorted order ends at
   `{folder} by {author} {k}.{ext}` with its content, its old name gone,
   and every other path as it was.
   */
  lemma RenameImagesByFolderNameBare(fs: FS, folder: string, author: string, faulty: set<Path>)
    requires forall f :: Path(folder, f) in fs ==> Path(folder, f) !in faulty
    requires forall n :: n in FolderNames(Engine.BaseName(folder), author, 1, ImageFiles(Listing(fs, folder))) ==>
               Path(folder, n) !in fs
    ensures var files := ImageFiles(Listing(fs, folder));
            var names := FolderNames(Engine.BaseName(folder), author, 1, files);
            var r := RenameImagesByFolderNameChecked(fs, folder, author, faulty);
            r.Completed? && Operations.Moved(fs, r.fs, Operations.Renamed(names, folder, folder, files))
  {
    var files := ImageFiles(Listing(fs, folder));
    FolderNamesDistinct(Engine.BaseName(folder), author, 1, files);
    FolderCheckedBare(files, 1, fs, folder, Engine.BaseName(folder), author, faulty);
  }

  // ---------------------------------------------------------------------
  // Character match, recursive
  // ---------------------------------------------------------------------

  /** An entry of the final report: a file no word matched, or a rename that raised. */
  datatype Report = NoMatch(path: string) | RenameError(file: string)

  /** `os.path.join(folder, rel)` for a directory of the walk, `rel` empty for the folder itself. */
  function DirOf(folder: string, rel: string): string {
    if rel == [] then folder else folder + "/" + rel
  }

  /** `os.path.relpath(os.path.join(root, filename), folder)`. */
  function RelPath(rel: string, filename: string): string {
    if rel == [] then filename else rel + "/" + filename
  }

  /**
   The names tried for a file matched by `word`: `{word}{author part}{ext}`,
   then `{stem} {n}{ext}` from n = 1, where `stem` is what `splitext` leaves of
   the first name.
   */
  function CharPattern(word: string, author: string, filename: string): Pattern {
    var bare := CharName(word, author, filename);
    Pattern(Some(bare), SplitExt(bare).0, " ", SplitExt(filename).1)
  }

  /** `{word}{author part}{ext}`: the first name tried for a file matched by `word`. */
  function CharName(word: string, author: string, filename: string): string {
    word + Engine.AuthorPart(author) + SplitExt(filename).1
  }

  /**
   The files of one directory of the walk. A file is renamed, inside its
   own directory, after the first word that matches it; a rename that
   raises is reported and no other word is tried. A file no word matches is
   reported by its path relative to the folder.
   */
  function CharDir(files: seq<string>, fs: FS, dir: string, rel: string, author: string, words: seq<string>,
                   faulty: set<Path>): (r: (FS, seq<Report>))
    ensures |r.0.Keys| == |fs.Keys|
    ensures SameOutside(fs, r.0, {dir})
    ensures forall f :: f in files && Engine.FirstMatch(words, f).None? ==> NoMatch(RelPath(rel, f)) in r.1
    ensures forall e :: e in r.1 && e.RenameError? ==> e.file in files && Engine.FirstMatch(words, e.file).Some?
    ensures |r.1| <= |files|
    decreases |files|
  {
    if files == [] then (fs, [])
    else
      var f := files[0];
      var src := Path(dir, f);
      assert files == [f] + files[1..];
      match Engine.FirstMatch(words, f)
      case None =>
        var rest := CharDir(files[1..], fs, dir, rel, author, words, faulty);
        (rest.0, [NoMatch(RelPath(rel, f))] + rest.1)
      case Some(i) =>
        if src !in fs || src in faulty then
          var rest := CharDir(files[1..], fs, dir, rel, author, words, faulty);
          (rest.0, [RenameError(f)] + rest.1)
        else
          var dst := Target(fs, dir, CharPattern(words[i], author, f));
          RenameStep(files, fs, dir, faulty, dst);
          var rest := CharDir(files[1..], MoveFile(fs, src, dst), dir, rel, author, words, faulty);
          SameOutsideTrans(fs, MoveFile(fs, src, dst), rest.0, {dir});
          rest
  }

  /** The files some word matches, in order. */
  function Matched(files: seq<string>, words: seq<string>): seq<string> {
    if files == [] then []
    else if Engine.FirstMatch(words, files[0]).Some? then [files[0]] + Matched(files[1..], words)
    else Matched(files[1..], words)
  }

  lemma {:induction false} MatchedIn(files: seq<string>, words: seq<string>)
    ensures forall f :: f in Matched(files, words) <==> f in files && Engine.FirstMatch(words, f).Some?
    decreases |files|
  {
    if files != [] {
      MatchedIn(files[1..], words);
      assert forall f :: f in files <==> f == files[0] || f in files[1..];
    }
  }

  /** The first names of the matched files, each after the first word that matches it. */
  function MatchedNames(files: seq<string>, words: seq<string>, author: string): (names: seq<string>)
    ensures |names| == |Matched(files, words)|
  {
    if files == [] then []
    else
      match Engine.FirstMatch(words, files[0])
      case None => MatchedNames(files[1..], words, author)
      case Some(i) => [CharName(words[i], author, files[0])] + MatchedNames(files[1..], words, author)
  }

  /** The reports of the files no word matches, by path relative to the folder, in order. */
  function NoMatches(files: seq<string>, words: seq<string>, rel: string): seq<Report> {
    if files == [] then []
    else if Engine.FirstMatch(words, files[0]).None? then [NoMatch(RelPath(rel, files[0]))] + NoMatches(files[1..], words, rel)
    else NoMatches(files[1..], words, rel)
  }

  /** A file no word matches is reported and left alone. */
  lemma CharDirSkip(files: seq<string>, fs: FS, dir: string, rel: string, author: string, words: seq<string>,
                    faulty: set<Path>)
    requires files != [] && Engine.FirstMatch(words, files[0]).None?
    ensures var rest := CharDir(files[1..], fs, dir, rel, author, words, faulty);
            CharDir(files, fs, dir, rel, author, words, faulty) == (rest.0, [NoMatch(RelPath(rel, files[0]))] + rest.1)
    ensures Matched(files, words) == Matched(files[1..], words)
    ensures MatchedNames(files, words, author) == MatchedNames(files[1..], words, author)
    ensures NoMatches(files, words, rel) == [NoMatch(RelPath(rel, files[0]))] + NoMatches(files[1..], words, rel)
  {
  }

  /** A present file that does not fail is renamed after the first word that matches it. */
  lemma CharDirTry(files: seq<string>, fs: FS, dir: string, rel: string, author: string, words: seq<string>,
                   faulty: set<Path>)
    requires files != [] && Engine.FirstMatch(words, files[0]).Some?
    requires Path(dir, files[0]) in fs && Path(dir, files[0]) !in faulty
    ensures var w := words[Engine.FirstMatch(words, files[0]).value];
            var dst := Target(fs, dir, CharPattern(w, author, files[0]));
            && CharDir(files, fs, dir, rel, author, words, faulty)
                 == CharDir(files[1..], MoveFile(fs, Path(dir, files[0]), dst), dir, rel, author, words, faulty)
            && CharPattern(w, author, files[0]).bare == Some(CharName(w, author, files[0]))
            && MatchedNames(files, words, author) == [CharName(w, author, files[0])] + MatchedNames(files[1..], words, author)
    ensures Matched(files, words) == [files[0]] + Matched(files[1..], words)
    ensures NoMatches(files, words, rel) == NoMatches(files[1..], words, rel)
  {
  }

  /**
   With every file present and none failing, the files of a directory that
   no word matches are reported, in order, by their path relative to the
   folder, and nothing else is reported.
   */
  lemma {:induction false} CharDirReports(files: seq<string>, fs: FS, dir: string, rel: string, author: string,
                                          words: seq<string>, faulty: set<Path>)
    requires Ready(files, fs, dir, faulty)
    ensures CharDir(files, fs, dir, rel, author, words, faulty).1 == NoMatches(files, words, rel)
    decreases |files|
  {
    if files != [] {
      if Engine.FirstMatch(words, files[0]).None? {
        ReadyTail(files, fs, dir, faulty);
        CharDirSkip(files, fs, dir, rel, author, words, faulty);
        CharDirReports(files[1..], fs, dir, rel, author, words, faulty);
      } else {
        var w := words[Engine.FirstMatch(words, files[0]).value];
        var dst := Target(fs, dir, CharPattern(w, author, files[0]));
        CharDirTry(files, fs, dir, rel, author, words, faulty);
        ReadyAfter(files, fs, dir, faulty, dst);
        CharDirReports(files[1..], MoveFile(fs, Path(dir, files[0]), dst), dir, rel, author, words, faulty);
      }
    }
  }

  /**
   With every file present and none failing, and the first names
   `{word}{author part}{ext}` of the matched files free and different from
   each other, each matched file's content is afterwards at the name made
   from the first word that matches it, its old name is gone, and every
   other path is as it was.
   */
  lemma {:induction false} CharDirBare(files: seq<string>, fs: FS, dir: string, rel: string, author: string,
                                       words: seq<string>, faulty: set<Path>)
    requires Ready(files, fs, dir, faulty)
    requires Fresh(MatchedNames(files, words, author), dir, fs)
    ensures var r := CharDir(files, fs, dir, rel, author, words, faulty);
            Operations.Moved(fs, r.0, Operations.Renamed(MatchedNames(files, words, author), dir, dir, Matched(files, words)))
    decreases |files|
  {
    if files != [] {
      if Engine.FirstMatch(words, files[0]).None? {
        ReadyTail(files, fs, dir, faulty);
        CharDirSkip(files, fs, dir, rel, author, words, faulty);
        CharDirBare(files[1..], fs, dir, rel, author, words, faulty);
      } else {
        CharDirBareStep(files, fs, dir, rel, author, words, faulty);
      }
    }
  }

  lemma {:induction false} CharDirBareStep(files: seq<string>, fs: FS, dir: string, rel: string, author: string,
                                           words: seq<string>, faulty: set<Path>)
    requires Ready(files, fs, dir, faulty)
    requires Fresh(MatchedNames(files, words, author), dir, fs)
    requires files != [] && Engine.FirstMatch(words, files[0]).Some?
    ensures var r := CharDir(files, fs, dir, rel, author, words, faulty);
            Operations.Moved(fs, r.0, Operations.Renamed(MatchedNames(files, words, author), dir, dir, Matched(files, words)))
    decreases |files|, 0
  {
    var f := files[0];
    var w := words[Engine.FirstMatch(words, f).value];
    var name := CharName(w, author, f);
    var names := MatchedNames(files[1..], words, author);
    var src := Path(dir, f);
    var dst := Path(dir, name);
    CharDirTry(files, fs, dir, rel, author, words, faulty);
    BareFirst(fs, dir, CharPattern(w, author, f));
    FreshAfter([name] + names, dir, fs, src);
    ReadyAfter(files, fs, dir, faulty, dst);
    CharDirBare(files[1..], MoveFile(fs, src, dst), dir, rel, author, words, faulty);
    MatchedIn(files[1..], words);
    var r := CharDir(files[1..], MoveFile(fs, src, dst), dir, rel, author, words, faulty);
    Operations.MovedRenamedCons(fs, MoveFile(fs, src, dst), r.0, dir, dir, name, f, names, Matched(files[1..], words));
  }

  /** The directories of the walk, as paths. */
  function WalkDirs(folder: string, rels: seq<string>): set<string> {
    set rel | rel in rels :: DirOf(folder, rel)
  }

  /** The walk over the directories `rels`, each listed when it is reached. */
  function CharWalk(rels: seq<string>, fs: FS, folder: string, author: string, words: seq<string>,
                    faulty: set<Path>): (r: (FS, seq<Report>))
    ensures |r.0.Keys| == |fs.Keys|
    ensures SameOutside(fs, r.0, WalkDirs(folder, rels))
    decreases |rels|
  {
    if rels == [] then (fs, [])
    else
      var dir := DirOf(folder, rels[0]);
      var (fs1, reports) := CharDir(Listing(fs, dir), fs, dir, rels[0], author, words, faulty);
      var rest := CharWalk(rels[1..], fs1, folder, author, words, faulty);
      assert WalkDirs(folder, rels) == {dir} + WalkDirs(folder, rels[1..]);
      SameOutsideWiden(fs, fs1, {dir}, WalkDirs(folder, rels));
      SameOutsideWiden(fs1, rest.0, WalkDirs(folder, rels[1..]), WalkDirs(folder, rels));
      SameOutsideTrans(fs, fs1, rest.0, WalkDirs(folder, rels));
      (rest.0, reports + rest.1)
  }

  /**
   The legacy `rename_images_by_character_name`: the folder, then its
   sub-folders `subdirs` (paths relative to the folder) in the order the walk
   reaches them. No file is lost, nothing outside the walked directories
   changes, and every file of the folder itself that no word matches is
   reported by its name.
   */
  function RenameImagesByCharacterName(fs: FS, folder: string, subdirs: seq<string>, author: string,
                                       words: seq<string>, faulty: set<Path>): (r: (FS, seq<Report>))
    ensures |r.0.Keys| == |fs.Keys|
    ensures SameOutside(fs, r.0, {folder} + WalkDirs(folder, subdirs))
    ensures forall f :: Path(folder, f) in fs && Engine.FirstMatch(words, f).None? ==> NoMatch(f) in r.1
  {
    var (fs1, reports) := CharDir(Listing(fs, folder), fs, folder, [], author, words, faulty);
    var rest := CharWalk(subdirs, fs1, folder, author, words, faulty);
    var all := {folder} + WalkDirs(folder, subdirs);
    SameOutsideWiden(fs, fs1, {folder}, all);
    SameOutsideWiden(fs1, rest.0, WalkDirs(folder, subdirs), all);
    SameOutsideTrans(fs, fs1, rest.0, all);
    (rest.0, reports + rest.1)
  }

  /**
   The legacy `rename_images_by_character_name` when every sub-folder is a
   non-empty relative path, the folder's own files do not fail, and the
   first names of its matched files are free and different from each other:
   each matched file of the folder ends at `{word}{author part}{ext}` made
   from the first word that matches it, with its content, and its old name
   is gone; the report starts with the folder's unmatched files, in order.
   */
  lemma RenameImagesByCharacterNameTop(fs: FS, folder: string, subdirs: seq<string>, author: string,
                                       words: seq<string>, faulty: set<Path>)
    requires forall rel :: rel in subdirs ==> rel != []
    requires forall f :: Path(folder, f) in fs ==> Path(folder, f) !in faulty
    requires Fresh(MatchedNames(Listing(fs, folder), words, author), folder, fs)
    ensures var files := Listing(fs, folder);
            var m := Matched(files, words);
            var names := MatchedNames(files, words, author);
            var r := RenameImagesByCharacterName(fs, folder, subdirs, author, words, faulty);
            && (forall i :: 0 <= i < |m| ==>
                  && Path(folder, m[i]) in fs && Path(folder, m[i]) !in r.0
                  && Path(folder, names[i]) in r.0 && r.0[Path(folder, names[i])] == fs[Path(folder, m[i])])
            && NoMatches(files, words, []) <= r.1
  {
    var files := Listing(fs, folder);
    var m := Matched(files, words);
    var names := MatchedNames(files, words, author);
    CharDirReports(files, fs, folder, [], author, words, faulty);
    CharDirBare(files, fs, folder, [], author, words, faulty);
    Operations.RenamedAt(names, folder, folder, m);
    var (fs1, reports) := CharDir(files, fs, folder, [], author, words, faulty);
    var rest := CharWalk(subdirs, fs1, folder, author, words, faulty);
    assert folder !in WalkDirs(folder, subdirs) by {
      forall rel | rel in subdirs ensures DirOf(folder, rel) != folder {
        assert |DirOf(folder, rel)| > |folder|;
      }
    }
    var recs := Operations.Renamed(names, folder, folder, m);
    forall i | 0 <= i < |m|
      ensures && Path(folder, m[i]) in fs && Path(folder, m[i]) !in rest.0
              && Path(folder, names[i]) in rest.0 && rest.0[Path(folder, names[i])] == fs[Path(folder, m[i])]
    {
      assert recs[i] == Operations.Record(Path(folder, names[i]), Some(Path(folder, m[i])));
    }
  }
}

=== FILE: operations.dfy ===
/**
 One file operation of a batch and its reversal: the `try` block that
 renames, copies or moves a file and records `(new_file, original_file)`
 (src/file_operations.py), and the loop body of `App.undo_last_action` that
 puts one record back (src/gui.py).
 */
module Operations {
  import opened Wrappers
  import opened FileSystem

  /** The operation mode chosen in the window; any other string is an unknown mode. */
  datatype Mode = Rename | Copy | Move | Unknown(name: string)

  /** `(new_file, original_file)`; Copy records no original. */
  datatype Record = Record(target: Path, origin: Option<Path>)

  /** What the `try` block did: applied and recorded, raised, or hit the unknown-mode branch. */
  datatype Attempt = Applied(fs: FS, rec: Record) | Raised | Unsupported

  /**
   Operating on `src` with destination `dst`. The operation raises when
   the source is gone or is one of the `faulty` files (locked, no
   permission): which files those are is a fact of the environment, so it
   is a parameter.
   */
  function Perform(fs: FS, mode: Mode, src: Path, dst: Path, faulty: set<Path>): (r: Attempt)
    ensures r.Unsupported? <==> mode.Unknown?
    ensures r.Raised? <==> !mode.Unknown? && (src !in fs || src in faulty)
    ensures r.Applied? ==> r.rec.target == dst
    ensures r.Applied? ==> (r.rec.origin == None <==> mode == Copy)
    ensures r.Applied? && r.rec.origin.Some? ==> r.rec.origin.value == src
    ensures r.Applied? ==> dst in r.fs && r.fs[dst] == fs[src]
    ensures r.Applied? ==> r.fs == if mode == Copy then CopyFile(fs, src, dst) else MoveFile(fs, src, dst)
    ensures r.Applied? && dst !in fs ==> UndoRecord(r.fs, mode, r.rec, {}) == (fs, true)
  {
    if mode.Unknown? then Unsupported
    else if src !in fs || src in faulty then Raised
    else if mode == Copy then
      assert dst !in fs ==> RemoveFile(CopyFile(fs, src, dst), dst) == fs by {
        if dst !in fs { CopyBack(fs, src, dst); }
      }
      Applied(CopyFile(fs, src, dst), Record(dst, None))
    else
      assert dst !in fs ==> MoveFile(MoveFile(fs, src, dst), dst, src) == fs by {
        if dst !in fs { MoveBack(fs, src, dst); }
      }
      Applied(MoveFile(fs, src, dst), Record(dst, Some(src)))
  }

  /**
   Reversing one record. Rename and Move put `new` back at `original` when
   there is an original and `new` still exists; Copy removes `new` if it
   exists; an unknown mode only logs. The flag is false when the step raised
   (the `faulty` files of the moment).
   */
  function UndoRecord(fs: FS, mode: Mode, rec: Record, faulty: set<Path>): (r: (FS, bool))
    ensures !r.1 <==> (rec.target in fs && rec.target in faulty &&
                       (mode == Copy || ((mode == Rename || mode == Move) && rec.origin.Some?)))
    ensures !r.1 || rec.target !in fs || mode.Unknown? || (mode != Copy && rec.origin == None) ==>
              r.0 == fs
    ensures mode == Copy && r.1 ==> r.0 == RemoveFile(fs, rec.target)
    ensures r.1 && (mode == Rename || mode == Move) && rec.origin.Some? && rec.target in fs ==>
              r.0 == MoveFile(fs, rec.target, rec.origin.value)
  {
    match mode
    case Copy =>
      if rec.target !in fs then (fs, true)
      else if rec.target in faulty then (fs, false)
      else (RemoveFile(fs, rec.target), true)
    case Unknown(_) => (fs, true)
    case _ =>
      if rec.origin.None? || rec.target !in fs then (fs, true)
      else if rec.target in faulty then (fs, false)
      else (MoveFile(fs, rec.target, rec.origin.value), true)
  }

  /**
   `for new_file, original_file in reversed(operations)`: the last record
   first. Every record is attempted; the targets whose step raised are
   collected, in the order they were met.
   */
  function UndoOps(fs: FS, mode: Mode, ops: seq<Record>, faulty: set<Path>): (r: (FS, seq<Path>))
    ensures |r.1| <= |ops|
    ensures forall e :: e in r.1 ==> e in faulty && e in Targets(ops)
    ensures mode.Unknown? ==> r == (fs, [])
    decreases |ops|
  {
    if ops == [] then (fs, [])
    else
      var last := ops[|ops| - 1];
      var step := UndoRecord(fs, mode, last, faulty);
      var rest := UndoOps(step.0, mode, ops[..|ops| - 1], faulty);
      (rest.0, (if step.1 then [] else [last.target]) + rest.1)
  }

  /** The `new_file` paths of a batch. */
  function Targets(ops: seq<Record>): set<Path> {
    set i | 0 <= i < |ops| :: ops[i].target
  }

  /** The `original_file` paths of a batch. */
  function Origins(ops: seq<Record>): set<Path> {
    set i | 0 <= i < |ops| && ops[i].origin.Some? :: ops[i].origin.value
  }

  lemma SourcesCons(rec: Record, ops: seq<Record>)
    ensures Targets([rec] + ops) == {rec.target} + Targets(ops)
    ensures Origins([rec] + ops) == (if rec.origin.Some? then {rec.origin.value} else {}) + Origins(ops)
  {
    var all := [rec] + ops;
    assert forall i :: 0 <= i < |ops| ==> all[i + 1] == ops[i];
    assert all[0] == rec;
  }

  /**
   What a batch of moves to free paths did, as the records tell it: every
   original is gone, its content is at the record's new path, and every
   path no record names is as it was.
   */
  ghost predicate Moved(before: FS, after: FS, ops: seq<Record>) {
    && (forall i :: 0 <= i < |ops| ==>
          && ops[i].origin.Some? && ops[i].origin.value in before && ops[i].target !in before
          && ops[i].target in after && after[ops[i].target] == before[ops[i].origin.value]
          && ops[i].origin.value !in after)
    && (forall p :: p !in Targets(ops) && p !in Origins(ops) ==>
          (p in after <==> p in before) && (p in after ==> after[p] == before[p]))
  }

  /** Moving `o` to the free path `t`, then a batch that touches neither, is the longer batch. */
  lemma MovedCons(fs0: FS, fs1: FS, fs2: FS, o: Path, t: Path, ops: seq<Record>)
    requires o in fs0 && t !in fs0 && fs1 == MoveFile(fs0, o, t)
    requires Moved(fs1, fs2, ops)
    requires forall i :: 0 <= i < |ops| ==> ops[i].target != o && ops[i].origin != Some(t)
    ensures Moved(fs0, fs2, [Record(t, Some(o))] + ops)
  {
    var all := [Record(t, Some(o))] + ops;
    SourcesCons(Record(t, Some(o)), ops);
    MovedConsHead(fs0, fs1, fs2, o, t, ops);
    forall i | 0 <= i < |all|
      ensures && all[i].origin.Some? && all[i].origin.value in fs0 && all[i].target !in fs0
              && all[i].target in fs2 && fs2[all[i].target] == fs0[all[i].origin.value]
              && all[i].origin.value !in fs2
    {
      if i > 0 {
        assert all[i] == ops[i - 1];
        MovedConsAt(fs0, fs1, fs2, o, t, ops, i - 1);
      }
    }
  }

  /** The first move of the longer batch: `o`'s content ends at `t`, and `o` is gone. */
  lemma MovedConsHead(fs0: FS, fs1: FS, fs2: FS, o: Path, t: Path, ops: seq<Record>)
    requires o in fs0 && t !in fs0 && fs1 == MoveFile(fs0, o, t)
    requires Moved(fs1, fs2, ops)
    requires forall i :: 0 <= i < |ops| ==> ops[i].target != o && ops[i].origin != Some(t)
    ensures t !in Targets(ops) && t !in Origins(ops) && o !in Targets(ops) && o !in Origins(ops)
    ensures t in fs2 && fs2[t] == fs0[o] && o !in fs2
  {
    assert t !in Targets(ops);
    assert o !in Origins(ops);
  }

  /** A later move of the longer batch, seen from before the first one. */
  lemma MovedConsAt(fs0: FS, fs1: FS, fs2: FS, o: Path, t: Path, ops: seq<Record>, j: int)
    requires o in fs0 && t !in fs0 && fs1 == MoveFile(fs0, o, t)
    requires Moved(fs1, fs2, ops)
    requires forall i :: 0 <= i < |ops| ==> ops[i].target != o && ops[i].origin != Some(t)
    requires 0 <= j < |ops|
    ensures && ops[j].origin.Some? && ops[j].origin.value in fs0 && ops[j].target !in fs0
            && ops[j].target in fs2 && fs2[ops[j].target] == fs0[ops[j].origin.value]
            && ops[j].origin.value !in fs2
  {
    assert ops[j].origin.value in fs1 && ops[j].target !in fs1;
  }

  /** The records of moving each file of `u` in `folder` to the name at its position in `names`, in `dir`. */
  function Renamed(names: seq<string>, dir: string, folder: string, u: seq<string>): (r: seq<Record>)
    requires |names| == |u|
    ensures |r| == |u|
  {
    if u == [] then []
    else [Record(Path(dir, names[0]), Some(Path(folder, u[0])))] + Renamed(names[1..], dir, folder, u[1..])
  }

  /** The `i`-th record moves the `i`-th file to the `i`-th name. */
  lemma {:induction false} RenamedAt(names: seq<string>, dir: string, folder: string, u: seq<string>)
    requires |names| == |u|
    ensures forall i :: 0 <= i < |u| ==>
              Renamed(names, dir, folder, u)[i] == Record(Path(dir, names[i]), Some(Path(folder, u[i])))
    decreases |u|
  {
    if u != [] {
      RenamedAt(names[1..], dir, folder, u[1..]);
    }
  }

  /**
   Moving `folder/f` to the free `dir/name`, then the files `u` to the
   free names `names`, is the renaming of `[f] + u` to `[name] + names`.
   */
  lemma MovedRenamedCons(fs0: FS, fs1: FS, fs2: FS, dir: string, folder: string, name: string, f: string,
                         names: seq<string>, u: seq<string>)
    requires |names| == |u|
    requires Path(folder, f) in fs0 && Path(dir, name) !in fs0
    requires fs1 == MoveFile(fs0, Path(folder, f), Path(dir, name))
    requires forall n :: n in names ==> Path(dir, n) !in fs0
    requires forall g :: g in u ==> Path(folder, g) in fs0
    requires Moved(fs1, fs2, Renamed(names, dir, folder, u))
    ensures Renamed([name] + names, dir, folder, [f] + u)
         == [Record(Path(dir, name), Some(Path(folder, f)))] + Renamed(names, dir, folder, u)
    ensures Moved(fs0, fs2, Renamed([name] + names, dir, folder, [f] + u))
  {
    var ops := Renamed(names, dir, folder, u);
    RenamedAt(names, dir, folder, u);
    assert ([name] + names)[1..] == names && ([f] + u)[1..] == u;
    forall i | 0 <= i < |ops| ensures ops[i].target != Path(folder, f) && ops[i].origin != Some(Path(dir, name)) {
      assert names[i] in names && u[i] in u;
    }
    MovedCons(fs0, fs1, fs2, Path(folder, f), Path(dir, name), ops);
  }

  /**
   The first record of a batch is the last one undone: the rest of the
   batch is undone first, and its errors come first.
   */
  lemma UndoFirstLast(fs: FS, mode: Mode, ops: seq<Record>, faulty: set<Path>)
    requires ops != []
    ensures var rest := UndoOps(fs, mode, ops[1..], faulty);
            var step := UndoRecord(rest.0, mode, ops[0], faulty);
            UndoOps(fs, mode, ops, faulty) == (step.0, rest.1 + (if step.1 then [] else [ops[0].target]))
  {
    assert ops == [ops[0]] + ops[1..];
    UndoOpsAppend(fs, mode, [ops[0]], ops[1..], faulty);
    var rest := UndoOps(fs, mode, ops[1..], faulty);
    var step := UndoRecord(rest.0, mode, ops[0], faulty);
    var head: seq<Path> := if step.1 then [] else [ops[0].target];
    assert [ops[0]][..0] == [];
    assert UndoOps(step.0, mode, [], faulty) == (step.0, []);
    assert head + [] == head;
    assert UndoOps(rest.0, mode, [ops[0]], faulty) == (step.0, head);
  }

  /**
   Undoing `a + b` is undoing `b`, then `a`; the errors are those of `b`,
   then those of `a`.
   */
  lemma {:induction false} UndoOpsAppend(fs: FS, mode: Mode, a: seq<Record>, b: seq<Record>, faulty: set<Path>)
    ensures var first := UndoOps(fs, mode, b, faulty);
            var second := UndoOps(first.0, mode, a, faulty);
            UndoOps(fs, mode, a + b, faulty) == (second.0, first.1 + second.1)
    decreases |b|
  {
    if b == [] {
      assert a + b == a;
      assert UndoOps(fs, mode, b, faulty) == (fs, []);
      var second := UndoOps(fs, mode, a, faulty);
      assert [] + second.1 == second.1;
    } else {
      var ab := a + b;
      var last := b[|b| - 1];
      var b' := b[..|b| - 1];
      assert ab[|ab| - 1] == last;
      assert ab[..|ab| - 1] == a + b';
      var step := UndoRecord(fs, mode, last, faulty);
      UndoOpsAppend(step.0, mode, a, b', faulty);
      var head := if step.1 then [] else [last.target];
      var inner := UndoOps(step.0, mode, b', faulty);
      var outer := UndoOps(inner.0, mode, a, faulty);
      ConcatAssoc(head, inner.1, outer.1);
    }
  }

  lemma HeadTail<T>(s: seq<T>)
    requires s != []
    ensures s == [s[0]] + s[1..]
  {
  }

  lemma ConcatAssoc<T>(x: seq<T>, y: seq<T>, z: seq<T>)
    ensures x + (y + z) == (x + y) + z
  {
  }

  /**
   Why the replay runs backwards. A batch renames `F by A 2.jpg` to the
   free `F by A 1.jpg`, then `x.jpg` into the slot just vacated. Undone
   last-first it restores both files; undone first-first, the first step
   overwrites the second file and one file is lost.
   */
  lemma ReverseOrderMatters(d: string, c1: Content, c2: Content)
    requires c1 != c2
    ensures var before := map[Path(d, "F by A 2.jpg") := c1, Path(d, "x.jpg") := c2];
            var op1 := Record(Path(d, "F by A 1.jpg"), Some(Path(d, "F by A 2.jpg")));
            var op2 := Record(Path(d, "F by A 2.jpg"), Some(Path(d, "x.jpg")));
            var after := map[Path(d, "F by A 1.jpg") := c1, Path(d, "F by A 2.jpg") := c2];
            && UndoOps(after, Rename, [op1, op2], {}) == (before, [])
            && UndoOps(after, Rename, [op2, op1], {}).0 != before
  {
    var a := Path(d, "F by A 1.jpg");
    var b := Path(d, "F by A 2.jpg");
    var x := Path(d, "x.jpg");
    var before := map[b := c1, x := c2];
    var after := map[a := c1, b := c2];
    var op1 := Record(a, Some(b));
    var op2 := Record(b, Some(x));
    var mid := map[a := c1, x := c2];
    MoveSecond(a, b, x, c1, c2);
    MoveFirst(a, x, b, c1, c2);
    assert UndoRecord(after, Rename, op2, {}) == (mid, true);
    assert UndoRecord(mid, Rename, op1, {}) == (before, true);
    assert [op1, op2][..1] == [op1];
    assert [op1][..0] == [];
    assert UndoOps(mid, Rename, [op1], {}) == (before, []);
    var wrong := map[b := c1];
    MoveOntoOther(a, b, c1, c2);
    MoveOnly(b, x, c1);
    assert UndoRecord(after, Rename, op1, {}) == (wrong, true);
    assert UndoRecord(wrong, Rename, op2, {}) == (map[x := c1], true);
    assert [op2, op1][..1] == [op2];
    assert [op2][..0] == [];
    assert UndoOps(wrong, Rename, [op2], {}) == (map[x := c1], []);
    assert b in before;
  }
}

=== FILE: order.dfy ===
/**
 Python's ordering of strings (code point by code point, a proper prefix
 first) and the two uses the engine makes of `sorted(...)`: sorting a list of
 names, and listing the names of a directory in order.
 */
module Order {

  /** `a <= b` on Python strings. */
  predicate LexLe(a: string, b: string)
    decreases |a|
  {
    |a| == 0 || (|b| > 0 && (a[0] < b[0] || (a[0] == b[0] && LexLe(a[1..], b[1..]))))
  }

  lemma {:induction false} LexLeRefl(a: string)
    ensures LexLe(a, a)
    decreases |a|
  {
    if |a| > 0 {
      LexLeRefl(a[1..]);
    }
  }

  lemma {:induction false} LexLeAntisym(a: string, b: string)
    requires LexLe(a, b) && LexLe(b, a)
    ensures a == b
    decreases |a|
  {
    if |a| > 0 {
      LexLeAntisym(a[1..], b[1..]);
      assert a == [a[0]] + a[1..];
      assert b == [b[0]] + b[1..];
    }
  }

  lemma {:induction false} LexLeTrans(a: string, b: string, c: string)
    requires LexLe(a, b) && LexLe(b, c)
    ensures LexLe(a, c)
    decreases |a|
  {
    if |a| > 0 && a[0] == b[0] && b[0] == c[0] {
      LexLeTrans(a[1..], b[1..], c[1..]);
    }
  }

  lemma {:induction false} LexLeTotal(a: string, b: string)
    ensures LexLe(a, b) || LexLe(b, a)
    decreases |a|
  {
    if |a| > 0 && |b| > 0 && a[0] == b[0] {
      LexLeTotal(a[1..], b[1..]);
    }
  }

  /** Python's `<=` on strings is a total order, so `sorted` is well defined. */
  lemma LexLeTotalOrder()
    ensures forall a :: LexLe(a, a)
    ensures forall a, b :: LexLe(a, b) && LexLe(b, a) ==> a == b
    ensures forall a, b, c :: LexLe(a, b) && LexLe(b, c) ==> LexLe(a, c)
    ensures forall a, b :: LexLe(a, b) || LexLe(b, a)
  {
    forall a ensures LexLe(a, a) { LexLeRefl(a); }
    forall a, b | LexLe(a, b) && LexLe(b, a) ensures a == b { LexLeAntisym(a, b); }
    forall a, b, c | LexLe(a, b) && LexLe(b, c) ensures LexLe(a, c) { LexLeTrans(a, b, c); }
    forall a, b ensures LexLe(a, b) || LexLe(b, a) { LexLeTotal(a, b); }
  }

  predicate Sorted(xs: seq<string>) {
    forall i, j :: 0 <= i < j < |xs| ==> LexLe(xs[i], xs[j])
  }

  /** No name occurs twice. */
  predicate Distinct(xs: seq<string>) {
    forall i, j :: 0 <= i < j < |xs| ==> xs[i] != xs[j]
  }

  /**
   Keeping the head of a list in front of some of its later elements keeps
   the list sorted, and keeps it free of repeats.
   */
  lemma ConsSubset(xs: seq<string>, rest: seq<string>)
    requires xs != [] && forall x :: x in rest ==> x in xs[1..]
    ensures Sorted(xs) && Sorted(rest) ==> Sorted([xs[0]] + rest)
    ensures Distinct(xs) && Distinct(rest) ==> Distinct([xs[0]] + rest)
  {
    var r := [xs[0]] + rest;
    forall j | 1 <= j < |r| ensures exists k :: 1 <= k < |xs| && xs[k] == r[j] {
      assert r[j] == rest[j - 1];
      assert rest[j - 1] in xs[1..];
      var k :| 0 <= k < |xs[1..]| && xs[1..][k] == rest[j - 1];
      assert xs[k + 1] == r[j];
    }
    if Sorted(xs) && Sorted(rest) {
      forall i, j | 0 <= i < j < |r| ensures LexLe(r[i], r[j]) {
        if i == 0 {
          var k :| 1 <= k < |xs| && xs[k] == r[j];
        } else {
          assert r[i] == rest[i - 1] && r[j] == rest[j - 1];
        }
      }
    }
    if Distinct(xs) && Distinct(rest) {
      forall i, j | 0 <= i < j < |r| ensures r[i] != r[j] {
        if i == 0 {
          var k :| 1 <= k < |xs| && xs[k] == r[j];
        } else {
          assert r[i] == rest[i - 1] && r[j] == rest[j - 1];
        }
      }
    }
  }

  /** Inserting `x` into a sorted list at the first place it fits. */
  function Insert(x: string, xs: seq<string>): (r: seq<string>)
    requires Sorted(xs)
    ensures Sorted(r)
    ensures multiset(r) == multiset(xs) + multiset{x}
  {
    if xs == [] then [x]
    else if LexLe(x, xs[0]) then
      InsertFront(x, xs);
      [x] + xs
    else
      LexLeTotal(x, xs[0]);
      var rest := Insert(x, xs[1..]);
      InsertBehind(xs[0], rest, x, xs[1..]);
      assert xs == [xs[0]] + xs[1..];
      [xs[0]] + rest
  }

  lemma InsertFront(x: string, xs: seq<string>)
    requires Sorted(xs) && xs != [] && LexLe(x, xs[0])
    ensures Sorted([x] + xs)
  {
    forall j | 0 <= j < |xs| ensures LexLe(x, xs[j]) {
      if j > 0 { LexLeTrans(x, xs[0], xs[j]); }
    }
  }

  lemma InsertBehind(h: string, rest: seq<string>, x: string, tail: seq<string>)
    requires Sorted(rest) && LexLe(h, x)
    requires forall j :: 0 <= j < |tail| ==> LexLe(h, tail[j])
    requires multiset(rest) == multiset(tail) + multiset{x}
    ensures Sorted([h] + rest)
  {
    forall j | 0 <= j < |rest| ensures LexLe(h, rest[j]) {
      assert rest[j] in multiset(rest);
      if rest[j] != x {
        assert rest[j] in multiset(tail);
        var k :| 0 <= k < |tail| && tail[k] == rest[j];
      }
    }
  }

  /** `sorted(xs)`: the same names, in order. */
  function Sort(xs: seq<string>): (r: seq<string>)
    ensures Sorted(r)
    ensures multiset(r) == multiset(xs)
  {
    if xs == [] then []
    else
      assert xs == [xs[0]] + xs[1..];
      Insert(xs[0], Sort(xs[1..]))
  }

  /** Two sorted lists holding the same names are the same list: `sorted` has one answer. */
  lemma {:induction false} SortedUnique(xs: seq<string>, ys: seq<string>)
    requires Sorted(xs) && Sorted(ys) && multiset(xs) == multiset(ys)
    ensures xs == ys
    decreases |xs|
  {
    if xs != [] {
      assert |ys| == |xs|;
      assert forall x :: x in xs <==> x in ys by {
        forall x ensures x in xs <==> x in ys {
          assert x in xs <==> x in multiset(xs);
          assert x in ys <==> x in multiset(ys);
        }
      }
      SameHead(xs, ys);
      TailMultiset(xs);
      TailMultiset(ys);
      SortedUnique(xs[1..], ys[1..]);
      assert xs == [xs[0]] + xs[1..];
      assert ys == [ys[0]] + ys[1..];
    }
  }

  lemma TailMultiset(xs: seq<string>)
    requires xs != []
    ensures multiset(xs[1..]) == multiset(xs) - multiset{xs[0]}
  {
    assert xs == [xs[0]] + xs[1..];
  }

  /** `m` is the least element of `s`. */
  predicate IsLeast(m: string, s: set<string>) {
    m in s && forall y :: y in s ==> LexLe(m, y)
  }

  lemma {:induction false} LeastExists(s: set<string>)
    requires s != {}
    ensures exists m :: IsLeast(m, s)
    decreases |s|
  {
    var x :| x in s;
    if s - {x} == {} {
      assert s == {x};
      LexLeRefl(x);
      assert IsLeast(x, s);
    } else {
      LeastExists(s - {x});
      var m :| IsLeast(m, s - {x});
      LexLeTotal(m, x);
      if LexLe(m, x) {
        assert IsLeast(m, s);
      } else {
        forall y | y in s ensures LexLe(x, y) {
          if y == x { LexLeRefl(x); } else { LexLeTrans(x, m, y); }
        }
        assert IsLeast(x, s);
      }
    }
  }

  /** A set has at most one least member. */
  lemma LeastUnique(s: set<string>)
    ensures forall a, b :: IsLeast(a, s) && IsLeast(b, s) ==> a == b
  {
    forall a, b | IsLeast(a, s) && IsLeast(b, s) ensures a == b {
      LexLeAntisym(a, b);
    }
  }

  /** The members of a finite set of names, in ascending order and without repetition. */
  function SortedElements(s: set<string>): (r: seq<string>)
    ensures Sorted(r) && Distinct(r)
    ensures |r| == |s|
    ensures forall x :: x in r <==> x in s
    decreases |s|
  {
    if s == {} then []
    else
      LeastExists(s);
      LeastUnique(s);
      var m :| IsLeast(m, s);
      var rest := SortedElements(s - {m});
      LeastFirst(m, s, rest);
      [m] + rest
  }

  /** The least member followed by the ascending listing of the others is the ascending listing. */
  lemma LeastFirst(m: string, s: set<string>, rest: seq<string>)
    requires IsLeast(m, s)
    requires Sorted(rest) && Distinct(rest) && |rest| == |s - {m}|
    requires forall x :: x in rest <==> x in s - {m}
    ensures Sorted([m] + rest) && Distinct([m] + rest)
    ensures |[m] + rest| == |s|
    ensures forall x :: x in [m] + rest <==> x in s
  {
    var r := [m] + rest;
    forall i, j | 0 <= i < j < |r| ensures LexLe(r[i], r[j]) && r[i] != r[j] {
      if i > 0 {
        assert r[i] == rest[i - 1] && r[j] == rest[j - 1];
      } else {
        assert r[j] == rest[j - 1];
        assert r[j] in s - {m};
      }
    }
    assert s == (s - {m}) + {m};
  }

  /** Past its head, the ascending listing of `s` lists the rest of `s`. */
  lemma SortedElementsTail(s: set<string>)
    requires s != {}
    ensures |SortedElements(s)| > 0
    ensures SortedElements(s)[1..] == SortedElements(s - {SortedElements(s)[0]})
  {
  }

  /** Two sorted lists with the same members start with the same name. */
  lemma SameHead(xs: seq<string>, ys: seq<string>)
    requires Sorted(xs) && Sorted(ys) && xs != [] && ys != []
    requires forall x :: x in xs <==> x in ys
    ensures xs[0] == ys[0]
  {
    assert xs[0] in ys && ys[0] in xs;
    var j :| 0 <= j < |ys| && ys[j] == xs[0];
    var k :| 0 <= k < |xs| && xs[k] == ys[0];
    assert LexLe(ys[0], xs[0]) by { if j > 0 { assert LexLe(ys[0], ys[j]); } else { LexLeRefl(ys[0]); } }
    assert LexLe(xs[0], ys[0]) by { if k > 0 { assert LexLe(xs[0], xs[k]); } else { LexLeRefl(xs[0]); } }
    LexLeAntisym(xs[0], ys[0]);
  }

  /** Without its head, a list without repetition holds exactly the other members. */
  lemma TailMembers(s: set<string>, xs: seq<string>)
    requires Distinct(xs) && xs != []
    requires forall x :: x in xs <==> x in s
    ensures forall x :: x in xs[1..] <==> x in s - {xs[0]}
  {
    forall x ensures x in xs[1..] <==> x in s - {xs[0]} {
      if x in xs[1..] {
        var j :| 0 <= j < |xs[1..]| && xs[1..][j] == x;
        assert xs[j + 1] == x;
      }
      if x in s - {xs[0]} {
        var j :| 0 <= j < |xs| && xs[j] == x;
        assert j != 0;
        assert xs[1..][j - 1] == x;
      }
    }
  }

  /** A set with no member is empty. */
  lemma NoMembers(s: set<string>)
    requires forall x :: x in [] <==> x in s
    ensures SortedElements(s) == []
  {
    assert forall x :: x !in s;
  }

  /** A list whose head heads the listing of `s` and whose tail lists the rest of `s` is the listing of `s`. */
  lemma ConsListing(s: set<string>, xs: seq<string>)
    requires s != {} && xs != []
    requires SortedElements(s)[0] == xs[0]
    requires SortedElements(s - {xs[0]}) == xs[1..]
    ensures SortedElements(s) == xs
  {
    var r := SortedElements(s);
    SortedElementsTail(s);
    assert r == [r[0]] + r[1..];
    assert xs == [xs[0]] + xs[1..];
  }

  /**
   A sorted list without repetition holding exactly the members of `s` is
   the ascending listing of `s`.
   */
  lemma {:induction false} SortedElementsOf(s: set<string>, xs: seq<string>)
    requires Sorted(xs) && Distinct(xs)
    requires forall x :: x in xs <==> x in s
    ensures SortedElements(s) == xs
    decreases |xs|
  {
    if xs == [] {
      NoMembers(s);
    } else {
      assert xs[0] in s;
      SameHead(SortedElements(s), xs);
      TailMembers(s, xs);
      SortedElementsOf(s - {xs[0]}, xs[1..]);
      ConsListing(s, xs);
    }
  }
}

=== FILE: store.dfy ===
/**
 The name store of src/data_storage.py (and its earlier copy,
 data_storage.py): a record with an `authors` list and a `character_names`
 list, either of which may be missing, and the four list operations on it.
 Loading and saving the JSON file are left to the caller; the functions here
 map the loaded record to the record that is saved.
 */
module Store {
  import opened Wrappers
  import opened Ledger

  /** The two keys of the data file; `None` is a missing key. */
  datatype Data = Data(authors: Option<seq<string>>, characterNames: Option<seq<string>>)

  /** The other list. */
  function Other(k: NameKind): (o: NameKind)
    ensures o != k
  {
    if k == AuthorName then CharacterName else AuthorName
  }

  function Get(d: Data, k: NameKind): Option<seq<string>> {
    if k == AuthorName then d.authors else d.characterNames
  }

  /** `data[key] = xs`. */
  function Put(d: Data, k: NameKind, xs: seq<string>): (r: Data)
    ensures Get(r, k) == Some(xs)
    ensures Get(r, Other(k)) == Get(d, Other(k))
  {
    if k == AuthorName then d.(authors := Some(xs)) else d.(characterNames := Some(xs))
  }

  /** Position of the first occurrence of `x`. */
  function FirstIndex(xs: seq<string>, x: string): (i: nat)
    requires x in xs
    ensures i < |xs| && xs[i] == x && x !in xs[..i]
  {
    if xs[0] == x then 0 else 1 + FirstIndex(xs[1..], x)
  }

  /** `xs.remove(x)`: the first occurrence goes, everything else stays in order. */
  function RemoveFirst(xs: seq<string>, x: string): (r: seq<string>)
    requires x in xs
    ensures |r| == |xs| - 1
    ensures multiset(r) + multiset{x} == multiset(xs)
    ensures var i := FirstIndex(xs, x); r[..i] == xs[..i] && r[i..] == xs[i + 1..]
  {
    var i := FirstIndex(xs, x);
    assert xs == xs[..i] + [x] + xs[i + 1..];
    xs[..i] + xs[i + 1..]
  }

  /**
   `add_author` / `add_character_name`: a missing key starts as an empty
   list; an absent name is appended at the end and the call returns true; a
   present name leaves everything as it was and the call returns false.
   */
  function Add(d: Data, k: NameKind, name: string): (r: (Data, bool))
    ensures r.1 <==> Get(d, k).None? || name !in Get(d, k).value
    ensures r.1 ==> Get(r.0, k) == Some(Get(d, k).GetOr([]) + [name])
    ensures !r.1 ==> r.0 == d
    ensures Get(r.0, Other(k)) == Get(d, Other(k))
    ensures Get(r.0, k).Some? && name in Get(r.0, k).value
  {
    var xs := Get(d, k).GetOr([]);
    if name !in xs then (Put(d, k, xs + [name]), true)
    else (d, false)
  }

  /**
   `delete_author` / `delete_character_name`: when the key is there and
   holds the name, its first occurrence is removed and the call returns
   true; otherwise nothing changes and the call returns false.
   */
  function Delete(d: Data, k: NameKind, name: string): (r: (Data, bool))
    ensures r.1 <==> Get(d, k).Some? && name in Get(d, k).value
    ensures !r.1 ==> r.0 == d
    ensures r.1 ==>
              var xs := Get(d, k).value;
              var i := FirstIndex(xs, name);
              Get(r.0, k) == Some(xs[..i] + xs[i + 1..])
    ensures Get(r.0, Other(k)) == Get(d, Other(k))
  {
    match Get(d, k)
    case Some(xs) =>
      if name in xs then (Put(d, k, RemoveFirst(xs, name)), true) else (d, false)
    case None => (d, false)
  }

  /**
   Adding an absent name and deleting it again gives back the list as it
   was: the name went on the end, and its first occurrence is that one. A
   key that was missing is left as an empty list.
   */
  lemma AddThenDelete(d: Data, k: NameKind, name: string)
    requires Add(d, k, name).1
    ensures Delete(Add(d, k, name).0, k, name) == (Put(d, k, Get(d, k).GetOr([])), true)
  {
    var xs := Get(d, k).GetOr([]);
    var ys := xs + [name];
    assert ys[..|xs|] == xs;
    assert FirstIndex(ys, name) == |xs|;
    assert RemoveFirst(ys, name) == xs by {
      assert ys[|xs| + 1..] == [];
    }
    assert Add(d, k, name).0 == Put(d, k, ys);
    assert Put(Put(d, k, ys), k, xs) == Put(d, k, xs);
  }

  /** The same when the key was there: the record is exactly the one before. */
  lemma AddThenDeletePresent(d: Data, k: NameKind, name: string)
    requires Get(d, k).Some? && name !in Get(d, k).value
    ensures Add(d, k, name).1
    ensures Delete(Add(d, k, name).0, k, name).0 == d
  {
    AddThenDelete(d, k, name);
    if k == AuthorName {
      assert Put(d, k, d.authors.value) == d;
    } else {
      assert Put(d, k, d.characterNames.value) == d;
    }
  }
}

=== FILE: text.dfy ===
/**
 The string primitives the naming engine relies on, as Python defines them:
 ASCII `str.lower`, substring membership `in`, `str(n)` for a natural number,
 `os.path.splitext`, `str.rsplit('.', 1)`, `str.endswith`, `str.strip` and
 `str.split(sep)`.
 */
module Text {

  /** Python's `str.lower()`, restricted to ASCII letters. */
  function LowerChar(c: char): char {
    if 'A' <= c <= 'Z' then (c as int + 32) as char else c
  }

  function Lower(s: string): (r: string)
    ensures |r| == |s|
    ensures forall i :: 0 <= i < |s| ==> r[i] == LowerChar(s[i])
  {
    seq(|s|, i requires 0 <= i < |s| => LowerChar(s[i]))
  }

  lemma LowerAppend(a: string, b: string)
    ensures Lower(a + b) == Lower(a) + Lower(b)
  {
  }

  /** Lower-casing twice is lower-casing once. */
  lemma LowerIdempotent(s: string)
    ensures Lower(Lower(s)) == Lower(s)
  {
  }

  predicate IsPrefix(p: string, s: string) {
    |p| <= |s| && s[..|p|] == p
  }

  /** `sub` occurs in `s` starting at index `i`. */
  predicate OccursAt(s: string, sub: string, i: int) {
    0 <= i && i + |sub| <= |s| && s[i..i + |sub|] == sub
  }

  /** Python's `sub in s`, computed by scanning `s` from the left. */
  predicate Contains(s: string, sub: string)
    decreases |s|
  {
    IsPrefix(sub, s) || (|s| > 0 && Contains(s[1..], sub))
  }

  /** The scan agrees with the positional definition of a substring, both ways. */
  lemma {:induction false} ContainsIff(s: string, sub: string)
    ensures Contains(s, sub) <==> exists i :: OccursAt(s, sub, i)
    decreases |s|
  {
    if IsPrefix(sub, s) {
      assert OccursAt(s, sub, 0);
    } else if |s| == 0 {
      assert |sub| > 0;
    } else {
      ContainsIff(s[1..], sub);
      if exists i :: OccursAt(s[1..], sub, i) {
        var i :| OccursAt(s[1..], sub, i);
        assert s[1..][i..i + |sub|] == s[i + 1..i + 1 + |sub|];
        assert OccursAt(s, sub, i + 1);
      }
      if exists i :: OccursAt(s, sub, i) {
        var i :| OccursAt(s, sub, i);
        assert i != 0;
        assert s[1..][i - 1..i - 1 + |sub|] == s[i..i + |sub|];
        assert OccursAt(s[1..], sub, i - 1);
      }
    }
  }

  /** `sub` occurs in `a + sub + b`, whatever `a` and `b` are. */
  lemma ContainsMiddle(a: string, sub: string, b: string)
    ensures Contains(a + sub + b, sub)
  {
    var s := a + sub + b;
    assert s[|a|..|a| + |sub|] == sub;
    assert OccursAt(s, sub, |a|);
    ContainsIff(s, sub);
  }

  /** Whatever `s` contains, `pre + s` contains too. */
  lemma {:induction false} ContainsAfter(pre: string, s: string, sub: string)
    requires Contains(s, sub)
    ensures Contains(pre + s, sub)
    decreases |pre|
  {
    if pre == [] {
      assert pre + s == s;
    } else {
      ContainsAfter(pre[1..], s, sub);
      assert (pre + s)[1..] == pre[1..] + s;
    }
  }

  /** The same, ignoring case. */
  lemma LowerContainsMiddle(a: string, sub: string, b: string)
    ensures Contains(Lower(a + sub + b), Lower(sub))
  {
    LowerAppend(a, sub);
    LowerAppend(a + sub, b);
    ContainsMiddle(Lower(a), Lower(sub), Lower(b));
  }

  // ---------------------------------------------------------------------
  // Decimal numerals: Python's str(n) for n >= 0
  // ---------------------------------------------------------------------

  predicate IsDigit(c: char) {
    '0' <= c <= '9'
  }

  function DigitChar(d: nat): (c: char)
    requires d < 10
    ensures IsDigit(c)
  {
    ('0' as int + d) as char
  }

  /** `str(n)`: the shortest decimal numeral of `n`. */
  function NatStr(n: nat): (r: string)
    ensures |r| >= 1
    ensures forall i :: 0 <= i < |r| ==> IsDigit(r[i])
    decreases n
  {
    if n < 10 then [DigitChar(n)] else NatStr(n / 10) + [DigitChar(n % 10)]
  }

  /** `int(s)` for a string of decimal digits. */
  function ParseNat(s: string): nat
    requires forall i :: 0 <= i < |s| ==> IsDigit(s[i])
  {
    if |s| == 0 then 0
    else
      assert IsDigit(s[|s| - 1]);
      ParseNat(s[..|s| - 1]) * 10 + (s[|s| - 1] as int - '0' as int)
  }

  /** Reading back a numeral gives the number it was printed from. */
  lemma {:induction false} ParseNatStr(n: nat)
    ensures ParseNat(NatStr(n)) == n
    decreases n
  {
    if n >= 10 {
      var s := NatStr(n);
      assert s[..|s| - 1] == NatStr(n / 10);
      ParseNatStr(n / 10);
    }
  }

  /** Distinct numbers print as distinct numerals. */
  lemma NatStrInjective(m: nat, n: nat)
    ensures NatStr(m) == NatStr(n) ==> m == n
  {
    ParseNatStr(m);
    ParseNatStr(n);
  }

  /** How many decimal digits `s` starts with. */
  function LeadDigits(s: string): (n: nat)
    ensures n <= |s|
  {
    if s != [] && IsDigit(s[0]) then 1 + LeadDigits(s[1..]) else 0
  }

  /** A numeral followed by something that does not start with a digit: the digits are the numeral's. */
  lemma {:induction false} LeadDigitsJoin(x: string, e: string)
    requires forall i :: 0 <= i < |x| ==> IsDigit(x[i])
    requires e == [] || !IsDigit(e[0])
    ensures LeadDigits(x + e) == |x|
    decreases |x|
  {
    if x == [] {
      assert x + e == e;
    } else {
      assert (x + e)[1..] == x[1..] + e;
      LeadDigitsJoin(x[1..], e);
    }
  }

  /** A numeral followed by an extension is read back unambiguously. */
  lemma NumeralExtInjective(m: nat, e1: string, n: nat, e2: string)
    requires e1 == [] || e1[0] == '.'
    requires e2 == [] || e2[0] == '.'
    ensures NatStr(m) + e1 == NatStr(n) + e2 ==> m == n
  {
    var x, y := NatStr(m), NatStr(n);
    if x + e1 == y + e2 {
      LeadDigitsJoin(x, e1);
      LeadDigitsJoin(y, e2);
      assert x == (x + e1)[..|x|];
      assert y == (y + e2)[..|y|];
      NatStrInjective(m, n);
    }
  }

  // ---------------------------------------------------------------------
  // Splitting file names
  // ---------------------------------------------------------------------

  /** Index of the last `c` in `s`, or -1 (Python's `str.rfind`). */
  function LastIndex(s: string, c: char): (r: int)
    ensures -1 <= r < |s|
    ensures r >= 0 ==> s[r] == c
    ensures forall k :: r < k < |s| ==> s[k] != c
  {
    if |s| == 0 then -1
    else if s[|s| - 1] == c then |s| - 1
    else LastIndex(s[..|s| - 1], c)
  }

  /** Some character of `s[lo..hi]` is not a dot. */
  predicate HasNonDot(s: string, lo: int, hi: int)
    requires 0 <= lo && hi <= |s|
  {
    exists k :: lo <= k < hi && s[k] != '.'
  }

  /**
   `os.path.splitext` (POSIX): split at the last dot of the last path
   component, unless everything before that dot in the component is a dot.
   */
  function SplitExt(p: string): (r: (string, string))
    ensures r.0 + r.1 == p
    ensures r.1 == [] || (r.1[0] == '.' && '.' !in r.1[1..] && '/' !in r.1)
    ensures r.1 != [] <==>
              (LastIndex(p, '/') < LastIndex(p, '.') && HasNonDot(p, LastIndex(p, '/') + 1, LastIndex(p, '.')))
  {
    var sep := LastIndex(p, '/');
    var dot := LastIndex(p, '.');
    if sep < dot && HasNonDot(p, sep + 1, dot) then (p[..dot], p[dot..]) else (p, "")
  }

  /** An extension as `splitext` returns it: empty, or a dot and no dot or slash after it. */
  predicate IsExt(e: string) {
    e == [] || (e[0] == '.' && '.' !in e[1..] && '/' !in e)
  }

  /**
   Splitting a stem that has no slash and is not all dots, followed by a
   non-empty extension, gives back the stem and the extension.
   */
  lemma SplitExtJoin(stem: string, ext: string, k: nat)
    requires '/' !in stem
    requires k < |stem| && stem[k] != '.'
    requires IsExt(ext) && ext != []
    ensures SplitExt(stem + ext) == (stem, ext)
  {
    var p := stem + ext;
    assert p[|stem|] == '.';
    assert LastIndex(p, '.') == |stem| by {
      forall j | |stem| < j < |p| ensures p[j] != '.' {
        assert p[j] == ext[1..][j - |stem| - 1];
      }
    }
    assert LastIndex(p, '/') == -1 by {
      forall j | 0 <= j < |p| ensures p[j] != '/' {
        if j < |stem| { assert p[j] == stem[j]; } else { assert p[j] == ext[j - |stem|]; }
      }
    }
    assert p[k] == stem[k];
    assert HasNonDot(p, 0, |stem|);
    assert p[..|stem|] == stem;
  }

  /**
   `s.rsplit('.', 1)` when `s` contains a dot: everything before the last
   dot, and everything after it.
   */
  function RSplitDot(s: string): (r: (string, string))
    requires '.' in s
    ensures r.0 + "." + r.1 == s
    ensures '.' !in r.1
  {
    var dot := LastIndex(s, '.');
    assert s == s[..dot] + "." + s[dot + 1..];
    (s[..dot], s[dot + 1..])
  }

  /** Splitting at the last dot undoes joining with a dot when the right part has none. */
  lemma RSplitDotJoin(a: string, b: string)
    requires '.' !in b
    ensures '.' in a + "." + b
    ensures RSplitDot(a + "." + b) == (a, b)
  {
    var s := a + "." + b;
    assert s[|a|] == '.';
    var dot := LastIndex(s, '.');
    assert dot == |a|;
    assert s[..dot] == a && s[dot + 1..] == b;
  }

  /** A string never contains a longer one. */
  lemma ContainsShorter(s: string, sub: string)
    requires |s| < |sub|
    ensures !Contains(s, sub)
  {
    ContainsIff(s, sub);
  }

  /** Python's `s.endswith(suffix)`. */
  predicate EndsWith(s: string, suffix: string) {
    |suffix| <= |s| && s[|s| - |suffix|..] == suffix
  }

  /** The characters `str.isspace()` accepts below code point 128. */
  predicate IsSpace(c: char) {
    c == ' ' || '\t' <= c <= '\r' || '\U{1C}' <= c <= '\U{1F}'
  }

  /** Number of white-space characters at the front of `s`. */
  function SpaceBefore(s: string): (n: nat)
    ensures n <= |s|
    ensures forall j :: 0 <= j < n ==> IsSpace(s[j])
    ensures n < |s| ==> !IsSpace(s[n])
  {
    if |s| > 0 && IsSpace(s[0]) then 1 + SpaceBefore(s[1..]) else 0
  }

  /** End of `s` once trailing white space is dropped, never below `lo`. */
  function SpaceAfter(s: string, lo: nat): (n: nat)
    requires lo <= |s|
    ensures lo <= n <= |s|
    ensures forall j :: n <= j < |s| ==> IsSpace(s[j])
    ensures n > lo ==> !IsSpace(s[n - 1])
  {
    if |s| > lo && IsSpace(s[|s| - 1]) then SpaceAfter(s[..|s| - 1], lo) else |s|
  }

  /** `s` is `r` with only white space in front of it (from index `i` on) and after it. */
  predicate PaddedAt(s: string, r: string, i: int) {
    0 <= i <= |s| - |r| && s[i..i + |r|] == r &&
    (forall j :: 0 <= j < i ==> IsSpace(s[j])) &&
    (forall j :: i + |r| <= j < |s| ==> IsSpace(s[j]))
  }

  /**
   Python's `s.strip()`: `s` is the result with only white space on
   either side, and the result neither starts nor ends with white space.
   */
  function Strip(s: string): (r: string)
    ensures exists i :: PaddedAt(s, r, i)
    ensures r == [] || (!IsSpace(r[0]) && !IsSpace(r[|r| - 1]))
  {
    var lo := SpaceBefore(s);
    var hi := SpaceAfter(s, lo);
    assert PaddedAt(s, s[lo..hi], lo);
    s[lo..hi]
  }

  /** `"_".join(parts)`. */
  function JoinWith(parts: seq<string>, sep: char): string {
    if |parts| == 0 then ""
    else if |parts| == 1 then parts[0]
    else parts[0] + [sep] + JoinWith(parts[1..], sep)
  }

  /** Python's `s.split(sep)` for a one-character separator. */
  function SplitOn(s: string, sep: char): (parts: seq<string>)
    ensures |parts| >= 1
    ensures forall i :: 0 <= i < |parts| ==> sep !in parts[i]
    ensures JoinWith(parts, sep) == s
    decreases |s|
  {
    if sep !in s then [s]
    else
      var i := IndexOf(s, sep);
      var rest := SplitOn(s[i + 1..], sep);
      assert s == s[..i] + [sep] + s[i + 1..];
      [s[..i]] + rest
  }

  /** Index of the first `c` in `s`. */
  function IndexOf(s: string, c: char): (i: nat)
    requires c in s
    ensures i < |s| && s[i] == c && c !in s[..i]
  {
    if s[0] == c then 0 else 1 + IndexOf(s[1..], c)
  }
}

=== FILE: wrappers.dfy ===
/** Optional values: Python's `None` next to a value of some type. */
module Wrappers {

  datatype Option<+T> = None | Some(value: T) {

    /** The value, or `default` when there is none. */
    function GetOr(default: T): T {
      match this
      case Some(v) => v
      case None => default
    }
  }
}
